=== FILE: README.md ===
# Hostel Mate client: a Dafny model

Hostel Mate is a React Native app for a university hostel. Students sign up, log in, request a room, raise complaints, request gate passes, upload fee receipts and chat with a Lex bot. Academic staff act as administrators: they approve gate passes, review receipts and post announcements. Department staff work their department's complaints.

This project models the app's client-side logic as pure Dafny functions over immutable data:

- the authentication context: restore at launch, login, profile merge-update and logout, each acting on the persisted key-value store;
- role routing in the navigators;
- each screen's validation schema, the request it builds, and its response handling.

The following are parameters of the model:

- each remote call's outcome (`Fetch`);
- the picker results;
- the current hour, day and time;
- the JSON codec, which is abstract (`Codec`, with a `Lawful` round-trip law).

What a screen shows or does besides changing its state is a list of `Effect`s: alerts, navigation and going back.

Modules:

- `Common`: JSON scalars with JavaScript truthiness, the store, the codec, fetch outcomes, effects and `Bearer` headers.
- `Text`: trimming with JavaScript's whitespace set, case mapping, `split`/`pop`, `String(n)`, `parseInt` without a radix, and lengths in UTF-16 code units.
- `Lists`: `filter` and counting.
- `Forms`: the validation vocabulary.
- `Uploads`: multipart parts and pickers.
- One module per screen or context.

## Model

| member | source | states |
|---|---|---|
| Common.Bearer | src/screens/app/user/Complains.js:45 | the normalised header always starts with "Bearer ", and a token that already does is kept as is |
| Common.BearerIdempotent | src/screens/app/staff/StaffComplaints.js:37 | normalising an already normalised header changes nothing |
| Common.BearerKeepsToken | src/screens/app/staff/PendingComplaints.js:18 | the header is the token itself or the token behind the prefix, so no part of it is lost |
| Common.RawBearer | src/screens/app/admin/GatePasses.js:28 | the unchecked header is "Bearer " followed by the token, and a missing token is sent as the text "null" |
| Common.RawBearerVsBearer | src/screens/app/admin/announcements/AddAnnouncement.js:34 | the unchecked header equals the normalised one exactly when the token lacks the "Bearer " prefix; a prefixed token is sent as "Bearer Bearer …" |
| Session.StoredProfile | src/context/AuthContext.js:22-27 | an absent or empty stored profile reads as null, and an entry that does not parse reads as null too |
| Session.Restore | src/context/AuthContext.js:15-46 | restore never leaves loading on and sets token and profile together; it signs in exactly when both stored entries are usable; a failed read records the fault |
| Session.Login | src/context/AuthContext.js:53-92 | a complete response (user and truthy token) is returned, installed and persisted under both keys; an incomplete one changes nothing; a throw records the fault; loading always ends |
| Session.Merge | src/context/AuthContext.js:96-97 | the merged profile has the union of keys; updated keys take the new value and the others keep the old |
| Session.UpdateUser | src/context/AuthContext.js:95-101 | every updated field is in the profile, untouched fields survive, the merged profile is persisted, and nothing else in the session changes |
| Session.Logout | src/context/AuthContext.js:104-117 | the session is emptied, both storage keys are removed, and every other stored key is kept |
| Session.RestoreAfterLogin | src/context/AuthContext.js:15-92 | with a lawful codec, a restart after a successful login restores exactly the session login set up |
| Session.RestoreAfterLogout | src/context/AuthContext.js:15-46 | after logout a restart is signed out, whatever the codec |
| Session.RestoreAfterUpdate | src/context/AuthContext.js:95-101 | while a token is stored, a merge-update survives a restart |
| Session.MergeComposes | src/context/AuthContext.js:97 | two updates in a row merge as one update holding both, the later one winning on shared keys |
| Session.CorruptProfileFailsClosed | src/context/AuthContext.js:23-36 | a stored profile that does not parse never signs anyone in, however good the token |
| Navigation.RootFor | src/navigation/AppNav.js:15-23 | a null token gives the auth stack; otherwise "student" gives the student navigator, "academicStaff" the app stack, and anything else nothing |
| Navigation.UserNavFor | src/navigation/UserNav.js:9-11 | no profile renders nothing; "admin" gives the admin stack; any other role gives the user stack |
| Navigation.Destination | src/navigation/AppNav.js:15-23 | the screens a session finally reaches, as the composition of the two navigators |
| Navigation.StudentReachesUserScreens | src/navigation/UserNav.js:11 | a signed-in student always reaches the user screens |
| Navigation.AdminBranchUnreachable | src/navigation/UserNav.js:11 | the student navigator's admin branch is never reached from the root navigator |
| Navigation.DepartmentStaffSeeBlank | src/navigation/AppNav.js:16-20 | each department-staff role is signed in but routed to a blank screen |
| Navigation.EmptyTokenIsSignedIn | src/navigation/AppNav.js:15 | an empty token is routed by role, not to sign-in, because the test is `!== null` |
| Forms.Rule | src/screens/auth/Login.js:59-64 | a field fails with the required message when empty, with the format message when filled but malformed, and passes otherwise |
| Forms.Require | src/screens/app/user/complains/AddNewComplain.js:31-35 | a required field fails exactly when empty, with its message |
| Forms.When | src/screens/auth/SignUp.js:56-70 | a conditional rule applies only while its condition holds; a stripped field never fails |
| LoginScreen.Errors | src/screens/auth/Login.js:59-64 | the e-mail fails when empty or malformed and the password when empty, each with its own message |
| LoginScreen.ButtonEnabledIffValid | src/screens/auth/Login.js:176 | once the form has been validated, the Login button is enabled exactly for a well-formed e-mail and a non-empty password, that is when there are no errors |
| LoginScreen.ShownErrors | src/screens/auth/Login.js:77-79 | the errors the button reads are the schema's once the form is validated, and none before (no `validateOnMount`) |
| LoginScreen.FirstRenderEnabled | src/screens/auth/Login.js:176 | before validation the button is enabled whatever the form holds, the empty initial form included; after it, exactly the invalid forms disable it |
| LoginScreen.HandleLoginAsWritten | src/screens/auth/Login.js:45-57 | as written: failure alerts; otherwise the top-level `member_type` of the response picks the dashboard, and any other value does nothing |
| LoginScreen.HandleLogin | src/screens/auth/Login.js:45-57 | the corrected dispatch: failure alerts; otherwise the role inside the returned profile picks exactly one dashboard |
| LoginScreen.AsWrittenIgnoresProfileRole | src/screens/auth/Login.js:46-48 | for a response whose role is only inside `user`, the code as written navigates nowhere and the corrected dispatch reaches the user dashboard |
| LoginScreen.DispatchFollowsLogin | src/context/AuthContext.js:77 | for every complete login, the corrected dispatch sends a student to the user dashboard and academic staff to the admin dashboard, as the profile login installed says |
| SignUpScreen.OrNull | src/screens/auth/SignUp.js:31 | `x \|\| null` is null exactly for the empty string |
| SignUpScreen.Payload | src/screens/auth/SignUp.js:25-36 | the payload carries every form field under its snake_case name; the department is null when empty; the enrollment and ID numbers are sent only for students |
| SignUpScreen.PayloadKeepsForm | src/screens/auth/SignUp.js:25-36 | reading the payload back gives the form, except that the student-only numbers of a non-student are lost |
| SignUpScreen.Errors | src/screens/auth/SignUp.js:49-71 | each fixed field fails exactly when empty or malformed; the mobile number must be 10 UTF-16 code units long; the student numbers are required only of students and the department only of department staff |
| SignUpScreen.CompleteFormPasses | src/screens/auth/SignUp.js:49-71 | a fully filled form with a valid e-mail and a mobile number of length 10 passes whatever the member type |
| SignUpScreen.StaffFormIgnoresStudentFields | src/screens/auth/SignUp.js:56-65 | for department staff the student numbers never affect validation |
| SignUpScreen.ShownIffDemanded | src/screens/auth/SignUp.js:170-192 | the department dropdown is shown exactly when a department is demanded, and likewise the student inputs; the two groups are never shown together |
| SignUpScreen.OfferedTypes | src/screens/auth/SignUp.js:155-162 | of the six member types offered, the first is "student" and exactly the last four need a department |
| SignUpScreen.Register | src/screens/auth/SignUp.js:38-46 | a failed registration does nothing visible; a successful one shows the "Success" / "User registered successfully!" alert and then ends on the login screen |
| SignUpScreen.Submit | src/screens/auth/SignUp.js:88-101 | the payload is posted exactly when no field fails; the reaction is the registration handler's; an invalid form sends nothing and shows nothing |
| SignUpScreen.CompleteFormRegisters | src/screens/auth/SignUp.js:25-47 | a complete form is sent, the server receives the form's fields back (a non-student's numbers as null), and success shows the registration alert and ends on the login screen while failure does nothing |
| Rooms.ChooseHostel | src/screens/app/user/Rooms.js:139-144 | choosing a hostel clears the floor, the room list and the room |
| Rooms.ChooseFloor | src/screens/app/user/Rooms.js:156-160 | choosing a floor keeps the hostel and clears the room list and the room |
| Rooms.ChooseRoom | src/screens/app/user/Rooms.js:172-181 | only a listed room whose status is exactly "available" can be picked; anything else leaves the picker unchanged |
| Rooms.LoadRooms | src/screens/app/user/Rooms.js:46-71 | with hostel and floor chosen, a response replaces the list and clears the room, and a failure alerts and keeps everything; otherwise the list and the room are cleared |
| Rooms.ChooseHostelKeepsWf | src/screens/app/user/Rooms.js:139-144 | choosing a hostel re-establishes the picker invariant (the selected room is listed and available; rooms only under a chosen hostel and floor) |
| Rooms.ChooseFloorKeepsWf | src/screens/app/user/Rooms.js:156-160 | choosing a floor re-establishes the picker invariant |
| Rooms.ChooseRoomKeepsWf | src/screens/app/user/Rooms.js:172-181 | picking a room preserves the picker invariant |
| Rooms.LoadRoomsKeepsWf | src/screens/app/user/Rooms.js:46-71 | loading rooms preserves the picker invariant |
| Rooms.RoomPickerEnabledMeansCascade | src/screens/app/user/Rooms.js:161-182 | under the invariant, an enabled room picker means the hostel and the floor are both chosen |
| Rooms.TryAllocate | src/screens/app/user/Rooms.js:74-100 | the guards in source order (profile still loading, already allocated, no room), then a request carrying the profile id, the hostel, the floor and the room |
| Rooms.Allocate | src/screens/app/user/Rooms.js:74-110 | a blocked attempt only alerts; a successful request alerts the server message and is exactly `updateUser` with the allocation: the three room fields are set, every other profile field is kept, and the profile is stored; a failed one alerts |
| Rooms.SecondAttemptBlocked | src/screens/app/user/Rooms.js:80-84 | after a successful allocation from a well-formed picker, a second attempt is stopped by the already-allocated guard |
| Rooms.AllocationPersists | src/screens/app/user/Rooms.js:102-105 | after a successful allocation, restoring the session from storage gives back the profile with the allocated room |
| Rooms.ConfirmEnabledIffRequest | src/screens/app/user/Rooms.js:193 | for an unallocated profile the confirm button is enabled exactly when pressing it sends a request |
| Chat.EditInput | src/components/LexChatBot.tsx:412 | the input keeps the longest prefix of what was typed that fits in 500 UTF-16 code units, never splitting a character, and nothing else changes |
| Chat.Send | src/components/LexChatBot.tsx:196-211 | an input blank under JavaScript's whitespace set is ignored; otherwise the trimmed text is appended as the user's message, the input is cleared, typing goes on and the greeting goes away |
| Chat.ReplyText | src/components/LexChatBot.tsx:228 | the first message's content when present, otherwise the fallback text; never empty |
| Chat.TypingDelay | src/components/LexChatBot.tsx:231 | 15 ms per UTF-16 code unit of the reply, clamped to between 1500 and 3000 ms |
| Chat.TypingDelayMonotone | src/components/LexChatBot.tsx:231 | a longer reply never types faster |
| Chat.BotText | src/components/LexChatBot.tsx:227-252 | the bot's reply text on an answer, the connection-trouble text on a throw |
| Chat.Receive | src/components/LexChatBot.tsx:234-252 | exactly the bot's message is appended, the typing indicator goes off, and the input and greeting are untouched |
| Chat.Elapsed | src/components/LexChatBot.tsx:225-252 | from send to the bot's message takes the 1 s wait, the Lex call's own latency, then the typing delay for the reply's UTF-16 length or the 1.5 s failure delay: at least 2.5 s plus the latency, and at most 4 s plus the latency |
| Chat.FailureAnswersFirst | src/components/LexChatBot.tsx:231-252 | for the same call latency a failed call is answered no later than any reply |
| Chat.LongerReplyArrivesLater | src/components/LexChatBot.tsx:231-234 | for the same call latency a reply longer in UTF-16 code units never arrives sooner |
| Chat.ExchangeAppendsPair | src/components/LexChatBot.tsx:196-254 | a send with non-blank input followed by its reply adds exactly the user's trimmed message and the bot's message, in that order |
| Chat.SendEnabledIffSends | src/components/LexChatBot.tsx:419 | the send button is enabled exactly when pressing it would send, blankness judged by JavaScript's full whitespace set |
| Chat.SendWhileTyping | src/components/LexChatBot.tsx:196-211 | nothing stops a second send while a reply is pending |
| Chat.Persist | src/components/LexChatBot.tsx:133-148 | a non-empty transcript is saved under "chat"; an empty one saves nothing; other keys are kept |
| Chat.Load | src/components/LexChatBot.tsx:117-131 | a non-empty saved entry that parses replaces the transcript, and one holding messages hides the greeting; a missing entry, a parse error or a failed read changes nothing |
| Chat.Clear | src/components/LexChatBot.tsx:174-190 | clearing empties the transcript, removes the saved entry, shows the greeting and keeps other keys |
| Chat.ReloadRestoresTranscript | src/components/LexChatBot.tsx:117-148 | with a lawful codec, reopening the screen shows the saved transcript without the greeting |
| Chat.ReloadAfterClear | src/components/LexChatBot.tsx:145-190 | after clearing, a reopened screen starts empty with the greeting |
| Chat.Label | src/components/LexChatBot.tsx:103-110 | "Today" exactly for today, "Yesterday" exactly for the day before, and otherwise the date itself |
| Chat.SameLabelIffSameDay | src/components/LexChatBot.tsx:103-110 | two messages get the same date header exactly when they were sent on the same day |
| Chat.AvatarAtBoundaries | src/components/LexChatBot.tsx:256-289 | the avatar appears exactly at the first message, a change of sender or a change of day; follow-up styling applies everywhere else |
| Complaints.FetchDepartment | src/screens/app/staff/Dashboard.js:28-39 | a request is made exactly when a token was read, with the normalised header; a response replaces the list; a missing token or a failure keeps it |
| Complaints.HeaderStable | src/screens/app/staff/Dashboard.js:31 | re-normalising the header that was sent leaves it unchanged |
| UserComplaints.ComputeStats | src/screens/app/user/Complains.js:57-67 | the total is the list length; each card counts the complaints with that lower-cased status; the three cards together never exceed the total |
| UserComplaints.StatusDetails | src/screens/app/user/Complains.js:93-134 | the badge for the lower-cased, trimmed status: "accepted" and "in progress" share the In Progress badge, and anything unknown gets the Unknown badge |
| UserComplaints.StatusDetailsIgnoresCase | src/screens/app/user/Complains.js:94 | the badge does not depend on letter case |
| UserComplaints.CountedComplaintsWearTheirBadge | src/screens/app/user/Complains.js:58-134 | every complaint a card counts wears that card's badge |
| UserComplaints.InProgressBadgeNotCounted | src/screens/app/user/Complains.js:59-110 | a complaint reading "in progress" wears the In Progress badge but is not counted on that card |
| UserComplaints.PaddedStatusNotCounted | src/screens/app/user/Complains.js:58-94 | a status that trimming changes gets a badge but is counted on no card |
| UserComplaints.DepartmentIcon | src/screens/app/user/Complains.js:137-156 | six known departments get their icons (electrical "lightbulb", water "water", maintenance "tools", security "shield-alt", housekeeping "broom", it "laptop"); a missing or unknown category gets the clipboard |
| UserComplaints.DepartmentIconIgnoresCase | src/screens/app/user/Complains.js:138 | the icon does not depend on letter case |
| UserComplaints.FetchComplaints | src/screens/app/user/Complains.js:34-74 | without a truthy token it alerts and sends nothing; otherwise the normalised header is sent, a response replaces the list and the statistics, and a failure keeps both; loading always ends |
| UserComplaints.FetchKeepsConsistent | src/screens/app/user/Complains.js:53-67 | the statistics always describe the listed complaints: initially, and after every fetch |
| DepartmentLists.PendingOnly | src/screens/app/staff/PendingComplaints.js:23 | exactly the complaints whose status is "pending", in order, as many as there are |
| DepartmentLists.ResolvedOnly | src/screens/app/staff/ResolvedComplaints.js:19 | exactly the complaints whose status is "resolved", in order, as many as there are |
| DepartmentLists.PendingKeepsEveryMatch | src/screens/app/staff/PendingComplaints.js:23 | every fetched pending complaint is listed as often as it was fetched |
| DepartmentLists.ResolvedKeepsEveryMatch | src/screens/app/staff/ResolvedComplaints.js:19 | every fetched resolved complaint is listed as often as it was fetched |
| DepartmentLists.ListsDisjoint | src/screens/app/staff/PendingComplaints.js:23 | the pending and resolved lists share no complaint and together hold at most what was fetched |
| DepartmentLists.FetchPending | src/screens/app/staff/PendingComplaints.js:15-28 | the department fetch keeps the pending complaints of a response and leaves the list on a missing token or a failure |
| DepartmentLists.FetchResolved | src/screens/app/staff/ResolvedComplaints.js:12-24 | the department fetch keeps the resolved complaints of a response and leaves the list on a missing token or a failure |
| DepartmentLists.PendingScreenStaysPending | src/screens/app/staff/PendingComplaints.js:15-28 | a pending screen lists only pending complaints after any fetch |
| DepartmentLists.ResolvedScreenStaysResolved | src/screens/app/staff/ResolvedComplaints.js:12-24 | a resolved screen lists only resolved complaints after any fetch |
| StaffDashboard.Todays | src/screens/app/staff/Dashboard.js:45-47 | the complaints created today, in list order, as many as the list holds |
| StaffDashboard.TodaysKeepsEveryMatch | src/screens/app/staff/Dashboard.js:46-47 | each complaint of today appears as often as in the fetched list |
| StaffDashboard.TodayOverview | src/screens/app/staff/Dashboard.js:45-48 | the first two of today's complaints, or fewer when there are fewer |
| StaffDashboard.Counts | src/screens/app/staff/Dashboard.js:50-52 | the total, and the exact-status resolved and pending counts, which together never exceed the total |
| StaffDashboard.CountsMatchLists | src/screens/app/staff/Dashboard.js:51-52 | the dashboard counts equal the lengths of the pending and resolved screens' lists |
| StaffDashboard.FirstLetters | src/screens/app/staff/Dashboard.js:64 | one letter per non-empty word, each that word's first character |
| StaffDashboard.Initials | src/screens/app/staff/Dashboard.js:64 | never empty; "ST" without a name; otherwise at most one letter per space-separated word |
| StaffDashboard.InitialsOfWords | src/screens/app/staff/Dashboard.js:64 | a name of words joined by single spaces gets exactly their first letters |
| StaffDashboard.Welcome | src/screens/app/staff/Dashboard.js:69 | the header always greets someone: a truthy name by its text, otherwise "Staff" |
| StaffDashboard.WelcomeMatchesInitials | src/screens/app/staff/Dashboard.js:64-69 | a text name is greeted as itself when non-empty, and the avatar's initials are the greeted words' first letters unless they fall back to "ST" |
| StaffDashboard.DepartmentLine | src/screens/app/staff/Dashboard.js:70 | the upper-cased department followed by " Department", or "N/A Department" without one |
| StaffDashboard.DepartmentLineIgnoresCase | src/screens/app/staff/Dashboard.js:70 | the line does not depend on how the department is cased |
| StaffComplaints.SetOpen | src/screens/app/staff/StaffComplaints.js:110-111 | opening a row's dropdown makes it the open row, and closing closes every row |
| StaffComplaints.AtMostOneOpen | src/screens/app/staff/StaffComplaints.js:110-111 | at most one dropdown is open at a time |
| StaffComplaints.OfferedStatuses | src/screens/app/staff/StaffComplaints.js:27-31 | the dropdown offers exactly pending, accepted and resolved |
| StaffComplaints.StatusColor | src/screens/app/staff/StaffComplaints.js:72-83 | the lower-cased status picks its colour, and any other status is gray |
| StaffComplaints.StatusColorIgnoresCase | src/screens/app/staff/StaffComplaints.js:73 | the colour does not depend on letter case, and a status gets a non-gray colour exactly when the dropdown offers it |
| StaffComplaints.Pick | src/screens/app/staff/StaffComplaints.js:114-117 | the patch is for the row's complaint, with the value the picker's callback gives for its status |
| StaffComplaints.PickSendsChoice | src/screens/app/staff/StaffComplaints.js:114-117 | picking an offered value sends exactly that value, whatever the row's status was |
| StaffComplaints.Load | src/screens/app/staff/StaffComplaints.js:33-47 | loading ends; a response replaces the list; a missing token or a failure keeps it |
| StaffComplaints.LoadKeepsLastResponse | src/screens/app/staff/StaffComplaints.js:33-47 | a failed reload keeps the last response's list; without a token the list stays |
| StaffComplaints.UpdateStatus | src/screens/app/staff/StaffComplaints.js:49-61 | a missing token or a failed patch alerts and leaves the board; a successful patch sends the normalised header and refetches |
| StaffComplaints.UpdateThenRefetch | src/screens/app/staff/StaffComplaints.js:49-61 | after a successful update and refetch the board shows the new list and is not loading; a failed update leaves loading alone |
| GatePasses.StatusColor | src/screens/app/admin/gate_passes/ViewGatePass.js:184-195 | exact, case-sensitive colours for approved, pending and rejected, and gray for anything else |
| GatePasses.StatusColorsDistinct | src/screens/app/admin/GatePasses.js:136-147 | the three known statuses get three different colours |
| GatePasses.BadgeText | src/screens/app/admin/gate_passes/ViewGatePass.js:121 | the badge is the status upper-cased: same length, the same text up to case, and no lower-case letter left |
| GatePasses.BadgeTextUnique | src/screens/app/admin/gate_passes/ViewGatePass.js:121 | those three properties fix the badge: any text with them is the badge |
| GatePasses.LaptopLine | src/screens/app/user/gate_passes/ViewGatePass.js:73-75 | "No Laptop" exactly when there is no truthy make; otherwise the make and the quantity |
| GatePasses.ActionsOrReason | src/screens/app/admin/gate_passes/ViewGatePass.js:125-134 | a pass never shows the actions and the rejection panel together |
| GatePasses.Shown | src/screens/app/admin/GatePasses.js:53 | the passes whose status equals the filter, in order, as many as there are |
| GatePasses.ShownKeepsEveryMatch | src/screens/app/admin/GatePasses.js:53 | each pass with the filter's status is listed as often as it was fetched |
| GatePasses.OnlyPendingOrApprovedListed | src/screens/app/admin/GatePasses.js:53-68 | under either filter a listed pass is pending or approved, never rejected |
| GatePasses.ListedUnderOneFilter | src/screens/app/admin/GatePasses.js:53-68 | every pending or approved pass is listed under exactly one filter |
| GatePasses.FetchPasses | src/screens/app/admin/GatePasses.js:24-38 | the request carries the raw header; a response replaces the passes, a failure keeps them, and loading ends |
| GatePasses.FetchThenShown | src/screens/app/admin/GatePasses.js:24-53 | after a fetch the list shows exactly the response's passes of the filter's status, and the two views together hold at most the response |
| GatePasses.Approve | src/screens/app/admin/gate_passes/ViewGatePass.js:23-37 | sends an approval with an empty reason; success confirms and goes back; failure alerts |
| GatePasses.Reject | src/screens/app/admin/gate_passes/ViewGatePass.js:40-58 | a reason that JavaScript trims to nothing (U+3000 and the other Unicode spaces included) is refused before any request; otherwise the reason is sent as typed; success confirms and goes back; failure alerts |
| GatePasses.DecisionsAsShown | src/screens/app/admin/gate_passes/ViewGatePass.js:23-58 | a sent rejection leaves the pass showing its reason, with no actions, in neither list; an approval lists it as approved with no reason panel |
| RequestGatePass.Prefill | src/screens/app/user/gate_passes/RequestGatePass.js:84-88 | a truthy profile field is prefilled as its text, and anything else as "" |
| RequestGatePass.InitialValues | src/screens/app/user/gate_passes/RequestGatePass.js:83-93 | each identity field is the prefill of its own profile key (name from `full_name`, enrollment from `enrollment_no`, ID from `id_number`, hostel block from `hostel_no`, room from `room_no`), the departure date is today, and the rest start empty |
| RequestGatePass.ReadOnlyIffSupplied | src/screens/app/user/gate_passes/RequestGatePass.js:106-154 | an identity field is read-only exactly when the profile supplies it, and then holds the profile's value; a numeric room number is prefilled as its decimal text |
| RequestGatePass.PrefillEmptyIffEditable | src/screens/app/user/gate_passes/RequestGatePass.js:106 | a field starts empty exactly when it is editable |
| RequestGatePass.Errors | src/screens/app/user/gate_passes/RequestGatePass.js:23-33 | six required fields, and a quantity that is empty or a whole number of at least 1; no errors exactly when all of these hold |
| RequestGatePass.QuantitySent | src/screens/app/user/gate_passes/RequestGatePass.js:52 | an empty quantity is sent as 0, one `parseInt` reads (decimal, or hex after `0x`) as its value, and an unparseable one as null |
| RequestGatePass.HexQuantitySent | src/screens/app/user/gate_passes/RequestGatePass.js:52 | a quantity typed with a `0x` prefix is sent as its hexadecimal value |
| RequestGatePass.AcceptedQuantitySent | src/screens/app/user/gate_passes/RequestGatePass.js:31-52 | a quantity the schema accepts is sent as 0 when left out and otherwise as its value, at least 1 |
| RequestGatePass.Request | src/screens/app/user/gate_passes/RequestGatePass.js:40-56 | the body carries the form, the profile's `_id` or null, a null make for an empty one, "No bags" for empty baggage, and status "pending" |
| RequestGatePass.CreatedPassAsShown | src/screens/app/user/gate_passes/RequestGatePass.js:40-56 | a created pass is listed under the administrator's pending filter with the actions, and its laptop line reads back the form's make and quantity |
| RequestGatePass.QuantityOfString | src/screens/app/user/gate_passes/RequestGatePass.js:52 | a quantity typed as a number's decimal text is sent as that number |
| RequestGatePass.Submitted | src/screens/app/user/gate_passes/RequestGatePass.js:62-69 | status 201 confirms and goes back, another status does nothing, and a failure alerts; it goes back exactly on 201 |
| Uploads.ImageName | src/screens/app/user/complains/AddNewComplain.js:71 | the file name is the URI's final segment and holds no "/" |
| Uploads.ImagePart | src/screens/app/user/complains/AddNewComplain.js:70-78 | the image part carries the URI, its last path segment as the name, and "image/" followed by the name's last "."-segment as the type |
| Uploads.ImagePartOfPath | src/screens/app/admin/announcements/AddAnnouncement.js:40-48 | for a path "dir/stem.ext", the part is named "stem.ext" and typed "image/ext" |
| Uploads.ImageNameIsLastPart | src/screens/app/user/complains/AddNewComplain.js:71 | the name is the last element of the URI split on "/" |
| Uploads.Pick | src/screens/app/user/payment_receipts/AddPaymentReceipt.js:43-54 | a cancel or an empty asset list keeps the current pick; otherwise the first asset is taken |
| Uploads.PickSettles | src/screens/app/user/payment_receipts/AddPaymentReceipt.js:43-54 | applying the same pick twice is applying it once, and a pick never loses a selection |
| Uploads.WithImage | src/screens/app/user/complains/AddNewComplain.js:70-79 | the image part is appended exactly when the image is truthy |
| Uploads.ImageKeepsTextValues | src/screens/app/user/complains/AddNewComplain.js:65-79 | appending the image, when there is one, changes no text field's value and adds exactly the key "image"; without one the keys are unchanged |
| Uploads.Keys | src/screens/app/user/complains/AddNewComplain.js:65-79 | the keys of the parts, one per part, in order |
| Uploads.Refused | src/screens/app/user/complains/AddNewComplain.js:58-61 | a refusal sends nothing and shows only its alert |
| Uploads.OnCreated | src/screens/app/user/complains/AddNewComplain.js:88-95 | 201 confirms and goes back, another status does nothing, and a failure alerts |
| Uploads.LeavesOnlyOnCreated | src/screens/app/user/complains/AddNewComplain.js:88-95 | the screen goes back exactly on status 201, and the failure alert appears only on a failure |
| NewComplaint.OfferedCategories | src/screens/app/user/complains/AddNewComplain.js:24-29 | the category dropdown offers exactly electrical, water, maintenance and security |
| NewComplaint.Errors | src/screens/app/user/complains/AddNewComplain.js:31-35 | category, title and description each fail exactly when empty, with their messages |
| NewComplaint.PassesIffFilled | src/screens/app/user/complains/AddNewComplain.js:31-35 | the form passes exactly when all three fields are filled in, so the empty initial form fails on every field |
| NewComplaint.PickImage | src/screens/app/user/complains/AddNewComplain.js:37-48 | a cancel keeps the selection, and a pick selects the first asset's URI |
| NewComplaint.RemoveImage | src/screens/app/user/complains/AddNewComplain.js:50-52 | removing clears the selection |
| NewComplaint.RemovedImageNotSent | src/screens/app/user/complains/AddNewComplain.js:50-79 | after removal no image part is sent |
| NewComplaint.TextParts | src/screens/app/user/complains/AddNewComplain.js:65-68 | the text parts are keyed category, title, description, in that order |
| NewComplaint.Submit | src/screens/app/user/complains/AddNewComplain.js:54-96 | without a truthy token it alerts and sends nothing; otherwise the text parts, plus the image when one is selected, go out under the normalised header, and the response is handled as created or failed |
| NewComplaint.SentFormReadsBack | src/screens/app/user/complains/AddNewComplain.js:65-79 | the sent parts read back the form's category, title and description, and the image part exactly when one was selected |
| NewComplaint.WithImageReadsBack | src/screens/app/user/complains/AddNewComplain.js:65-79 | the text parts with or without the image read back the form's fields, carry no text value under "image", and with an image carry exactly the four keys in order |
| NewAnnouncement.Errors | src/screens/app/admin/announcements/AddAnnouncement.js:19-23 | title and description fail exactly when empty, with their messages |
| NewAnnouncement.ImageNeverFails | src/screens/app/admin/announcements/AddAnnouncement.js:22 | the image field never changes the errors |
| NewAnnouncement.UploadImage | src/screens/app/admin/announcements/AddAnnouncement.js:69-84 | a cancel changes nothing; a pick fills the image field with the first URI; a throw or an empty asset list alerts and keeps the form |
| NewAnnouncement.TextParts | src/screens/app/admin/announcements/AddAnnouncement.js:36-38 | the text parts are keyed title, description, in that order |
| NewAnnouncement.Submit | src/screens/app/admin/announcements/AddAnnouncement.js:26-66 | without a truthy token it alerts and sends nothing; otherwise title and description, plus the image when the field is non-empty, go out under the normalised header |
| NewAnnouncement.PickedImageSent | src/screens/app/admin/announcements/AddAnnouncement.js:40-79 | after a successful pick, the submission's last part carries the picked URI, named by its last path segment |
| PaymentReceipts.Errors | src/screens/app/user/payment_receipts/AddPaymentReceipt.js:25-34 | the required fields fail when empty; the ID number fails unless it is exactly five digits; the form passes exactly when all of these hold |
| PaymentReceipts.FiveDigitIds | src/screens/app/user/payment_receipts/AddPaymentReceipt.js:29 | every number from 10000 to 99999, written out, is an accepted ID number |
| PaymentReceipts.PickFile | src/screens/app/user/payment_receipts/AddPaymentReceipt.js:36-59 | a throw alerts and keeps the file; a pick with assets takes the first; a cancel or an empty pick keeps the file silently |
| PaymentReceipts.ParseStored | src/screens/app/user/payment_receipts/AddPaymentReceipt.js:68-69 | an absent or empty entry parses to null; otherwise parsing throws exactly when the codec rejects the text |
| PaymentReceipts.StoredProfileReadsBack | src/screens/app/user/payment_receipts/AddPaymentReceipt.js:69 | with a lawful codec, a stored profile parses back to itself |
| PaymentReceipts.UserId | src/screens/app/user/payment_receipts/AddPaymentReceipt.js:79 | `_id` when truthy, else `id`; the result is truthy exactly when either is |
| PaymentReceipts.Body | src/screens/app/user/payment_receipts/AddPaymentReceipt.js:90-105 | eight parts under the sent keys, the last being the PDF receipt file |
| PaymentReceipts.BodyReadsBack | src/screens/app/user/payment_receipts/AddPaymentReceipt.js:90-105 | each text part reads back its form field, the name and the user id |
| PaymentReceipts.Submit | src/screens/app/user/payment_receipts/AddPaymentReceipt.js:63-123 | the guards in source order (stored profile parses, token, user id, file, signed in), each with its alert, a signed-out context failing with the submit-failure alert; otherwise the body goes out with the raw header; success alerts and goes back, failure alerts |
| PaymentReceipts.SignedInStudentIdentified | src/screens/app/user/payment_receipts/AddPaymentReceipt.js:63-118 | a signed-in student with a stored, lawful profile and a file always sends, under their own `_id`; the form's receipt field is never read |
| PaymentReceipts.StatusColor | src/screens/app/admin/payment_receipts/ViewPaymentReceipt.js:76-81 | yellow exactly for "pending", green exactly for "accepted", and red for everything else |
| PaymentReceipts.ActionStatus | src/screens/app/admin/payment_receipts/ViewPaymentReceipt.js:139-148 | Accept sends "accepted" and Decline sends "declined" |
| PaymentReceipts.UpdateStatus | src/screens/app/admin/payment_receipts/ViewPaymentReceipt.js:24-39 | the decision is sent with the raw header; success alerts "Receipt <status>!" and goes back; failure alerts; loading ends |
| PaymentReceipts.DecisionsFinal | src/screens/app/admin/payment_receipts/ViewPaymentReceipt.js:133-153 | after either decision the actions are no longer offered; actions are shown exactly for the yellow status |
| Text.LowerOfUpper | src/screens/app/admin/payment_receipts/ViewPaymentReceipt.js:85 | the upper-cased status badge reads back as the status up to letter case |
| PaymentReceipts.Step | src/screens/app/admin/payment_receipts/ViewPaymentReceipt.js:95-128 | a preview failure is permanent and is set only by a load error while the viewer is shown; View opens and Close closes the dialog |
| PaymentReceipts.FallbackOnlyAfterError | src/screens/app/admin/payment_receipts/ViewPaymentReceipt.js:107-126 | the fallback appears only after a load error, and once failed the viewer never comes back |
| PaymentReceipts.OpenInBrowserNeedsError | src/screens/app/admin/payment_receipts/ViewPaymentReceipt.js:107-126 | from the initial dialog, "Open in Browser" needs a load error, and it is never shown together with the viewer |
| FloatingBubble.Effect | src/components/ChatBotFloatingUI.js:12-27 | when shown the text restarts empty with a running timer; when hidden no timer runs |
| FloatingBubble.Tick | src/components/ChatBotFloatingUI.js:17-24 | below the end a tick appends the next character; at the end the timer stops; a stopped timer changes nothing; the typed text stays a prefix of the full text |
| FloatingBubble.Toggle | src/components/ChatBotFloatingUI.js:26-31 | toggling flips visibility; showing restarts the typing and hiding stops the timer |
| FloatingBubble.TypedAfterTicks | src/components/ChatBotFloatingUI.js:12-27 | n ticks into typing, the text is the first n more characters (capped at the full text), and the timer stops once a tick finds the text complete |
| FloatingBubble.StoppedStays | src/components/ChatBotFloatingUI.js:22-26 | once the timer is cleared, no tick changes the bubble |
| FloatingBubble.MountedTypesPrefix | src/components/ChatBotFloatingUI.js:7-27 | from mount the text is always a prefix of "I'm here to help!", and the whole of it from tick 17 on |
| FloatingBubble.ReshowRestarts | src/components/ChatBotFloatingUI.js:26-31 | ticks while hidden change nothing, and showing again starts typing from the beginning |
| UserDashboard.Greeting | src/screens/app/user/Dashboard.js:34-45 | morning before 12, afternoon before 15, evening otherwise |
| UserDashboard.GreetingPartition | src/screens/app/user/Dashboard.js:34-45 | every hour gets exactly one of the three greetings, never the placeholder, and the afternoon is hours 12 to 14 |
| UserDashboard.Store | src/screens/app/user/Dashboard.js:19-32 | a non-empty response replaces the announcements; an empty one or a failure keeps them |
| UserDashboard.CarouselAfterFetch | src/screens/app/user/Dashboard.js:19-32 | from the initial null, the carousel shows exactly when the fetch returned announcements, and then shows those |
| UserDashboard.CarouselStays | src/screens/app/user/Dashboard.js:23-25 | once shown, no response takes the carousel away |
| UserDashboard.Bullets | src/screens/app/user/Dashboard.js:123-125 | one bullet per announcement, active exactly at the current page |
| UserDashboard.OneActiveBullet | src/screens/app/user/Dashboard.js:123-125 | at most one bullet is active, and exactly one while the page is within the list |
| ComplaintTrends.RangeParam | src/components/ComplaintTrends.js:44 | each range queries one of "week", "month" and "3months" |
| ComplaintTrends.RangeParamInjective | src/components/ComplaintTrends.js:19 | distinct ranges query distinct parameters |
| ComplaintTrends.ButtonText | src/components/ComplaintTrends.js:51 | "This Week", "This Month" and "Last 3 Months" for the three ranges |
| ComplaintTrends.Mode | src/components/ComplaintTrends.js:47 | a button is contained exactly when its range is selected, and outlined otherwise |
| ComplaintTrends.OneContained | src/components/ComplaintTrends.js:44-51 | exactly one button is contained: the selected range's |
| ComplaintTrends.Label | src/components/ComplaintTrends.js:24 | the label is the day, "/", then the month |
| ComplaintTrends.LabelReadsBack | src/components/ComplaintTrends.js:24 | splitting a label at "/" and parsing gives back the bucket's day and month |
| ComplaintTrends.Format | src/components/ComplaintTrends.js:23-26 | one label and one count per bucket, in response order |
| ComplaintTrends.FormatReadsBack | src/components/ComplaintTrends.js:24-25 | every chart point reads back as its bucket: the label parses to the day and the month, the value is the count |
| ComplaintTrends.FetchStats | src/components/ComplaintTrends.js:17-34 | the request queries the selected range with the raw header; a response replaces the chart, a failure keeps it, and loading ends |
| ComplaintTrends.Select | src/components/ComplaintTrends.js:48 | pressing a button selects its range and leaves the chart |
| ComplaintTrends.SelectThenFetch | src/components/ComplaintTrends.js:36-48 | after selecting a range and fetching, the query is that range's and every bucket's count is charted, in order |
| Text.Trim | src/components/LexChatBot.tsx:197 | the trimmed text, under JavaScript's WhiteSpace and LineTerminator set, is empty exactly for a blank input, never longer than the input, has no whitespace at either end, and equals an input that already has none there |
| Text.PrintableNotSpace | src/components/LexChatBot.tsx:197 | no printable ASCII character other than the space is whitespace to `trim`, so trimming never eats a letter, digit, sign or "@" |
| Text.TrimDropsPadding | src/screens/app/admin/gate_passes/ViewGatePass.js:41 | any padding of JavaScript whitespace (the Unicode space separators, U+FEFF, U+2028 and U+2029 included) on either side is exactly what trimming removes |
| Text.TrimIdempotent | src/components/LexChatBot.tsx:205 | trimming a trimmed text changes nothing |
| Text.ParseIntToString | src/components/ComplaintTrends.js:24 | parsing an integer's decimal text gives the integer back |
| Text.ParseInt | src/screens/app/user/gate_passes/RequestGatePass.js:52 | `parseInt` without a radix is NaN for blank text and for text whose first non-space character is not a digit or a sign |
| Text.ParseIntHex | src/screens/app/user/gate_passes/RequestGatePass.js:52 | `parseInt` without a radix reads a `0x`/`0X` prefix followed by hex digits in base 16 |
| Text.Utf16Length | src/components/LexChatBot.tsx:231 | JavaScript's `length` is between the number of characters and twice it |
| Text.Utf16LengthBmp | src/components/LexChatBot.tsx:231 | JavaScript's `length` equals the number of characters exactly when none lies outside the Basic Multilingual Plane |
| Text.Utf16Take | src/components/LexChatBot.tsx:412 | the longest prefix that fits in the limit in UTF-16 code units; the whole text when it fits |
| Text.Split | src/screens/app/staff/Dashboard.js:64 | `split` with a one-character separator gives at least one piece, none holding the separator |
| Text.JoinSplit | src/screens/app/staff/Dashboard.js:64 | joining the pieces of a split gives back the text |
| Text.SplitJoin | src/screens/app/staff/Dashboard.js:64 | splitting a join of separator-free pieces gives back the pieces |
| Text.LastSegment | src/screens/app/user/complains/AddNewComplain.js:71-72 | `split(sep).pop()`: the separator-free suffix after the last separator, or the whole text |
| Text.LastSegmentIsLastPart | src/screens/app/admin/announcements/AddAnnouncement.js:41-42 | the suffix definition equals the last piece of the split |
| Text.ToLower | src/screens/app/user/Complains.js:94 | `toLowerCase` keeps the length and maps each character |
| Text.ToUpper | src/screens/app/admin/GatePasses.js:112 | `toUpperCase` keeps the length and maps each character |
| Text.IntToString | src/components/ComplaintTrends.js:24 | `String(n)` is non-empty decimal digits, after a minus sign for a negative number |
| Text.Show | src/screens/app/user/Rooms.js:83 | a value interpolated into a template: text as itself, a number as its decimal text, null as "null" |
| Lists.Filter | src/screens/app/staff/PendingComplaints.js:23 | `filter` keeps exactly the elements that satisfy the test, never more than the input |
| Lists.Count | src/screens/app/staff/Dashboard.js:51-52 | the count is at most the length, zero exactly when no element matches, and the length exactly when all do |
| Lists.FilterLengthIsCount | src/screens/app/staff/Dashboard.js:51-52 | `filter(p).length` is the number of elements satisfying `p` |
| Lists.FilterIsSubseq | src/screens/app/admin/GatePasses.js:53 | the filtered list keeps the original order |
| Lists.PrefixIsSubseq | src/screens/app/staff/Dashboard.js:46-48 | a prefix (`slice(0, n)`) of an order-keeping selection still keeps the order |
| Lists.Take | src/screens/app/staff/Dashboard.js:48 | `slice(0, n)` is the first n elements, or all of them when there are fewer |
| Forms.EmailOfParts | src/screens/auth/Login.js:61 | text with one "@" passes the e-mail test exactly when both sides are non-empty, the domain holds an inner ".", and there is no whitespace |
| Forms.EmailHasOneAt | src/screens/auth/SignUp.js:50 | an accepted address holds exactly one "@" |
| Lists.FilterCountsMatches | src/screens/app/staff/PendingComplaints.js:23 | filtering keeps every matching element with its multiplicity |

## Left out

- Network, storage, timers and animation are not modelled as effects. Each remote call, storage read, picker result and the current time is a parameter. Storage writes cannot fail in the model.
- Dates and locale: a message or complaint carries the calendar day it falls on. `toDateString` comparisons become equality of days, and `toLocaleDateString` and `toLocaleTimeString` formatting is not modelled.
- The carousel's page arithmetic (`Math.round(x / 320)`) is floating point and is not modelled. `UserDashboard.Bullets` takes the current page as given.
- Forms.IsEmail: approximates the e-mail format test with a simple shape (local part, one "@", dotted domain, no whitespace). It is not the validation library's regular expression.
- Yup message precedence between several failing rules on one field is not modelled. Each field's result is the message named in the schema for the rule that fails.
- RequestGatePass.Errors: `Yup.number()` coercion of the quantity is approximated as "empty or decimal digits with value at least 1". Signs, decimals, exponents, whitespace and `0x`/`0o`/`0b` prefixes, which `Number()` accepts, are not accepted.
- SignUpScreen.Errors: reads the `when("memberType", (memberType, schema) => …)` callbacks with the `(value, schema)` signature of Yup before 1.0. The Yup version is not part of this model; under Yup 1.x the first argument is an array of values, the tests `memberType === "student"` and `includes(memberType)` never hold, and the conditional requirements would never apply.
- Text.ToLower and Text.ToUpper: case mapping covers ASCII letters only.
- Text.Show: a missing key is modelled as null, so where JavaScript renders `undefined` the model renders "null" (GatePasses.LaptopLine for a laptop without a quantity, PaymentReceipts.Body for a profile without `full_name`).
- GatePasses.LaptopLine: a laptop entry without `quantity` reads "(Qty: null)" here where the screen shows "(Qty: undefined)", for the reason given under Text.Show.
- PaymentReceipts.Body: a stored profile without `full_name` sends the name "null" here where FormData sends "undefined", for the reason given under Text.Show.
- StaffDashboard.Initials: `n[0]` in JavaScript is one UTF-16 code unit, so a word starting outside the Basic Multilingual Plane contributes a lone high surrogate; the model takes the whole character.
- StaffDashboard.Initials: a truthy `full_name` that is not text makes `.split` throw and the screen fail to render; the model shows "ST" instead.
- StaffDashboard.DepartmentLine: a truthy `department` that is not text makes `.toUpperCase` throw and the screen fail to render; the model shows "N/A" instead.
- RequestGatePass.Prefill: a truthy non-text `enrollment_no`, `id_number` or `hostel_no` is kept as it is by `|| ""` and posted as a JSON number; the model prefills its text (only `room_no` goes through `String()`), because the form fields are text here.
- StaffDashboard.FirstLetters: takes each word's whole first character, not its first UTF-16 code unit, for the reason given under StaffDashboard.Initials.
- Palette colour values live in a file that is not part of this model. Palette entries are kept as their names (`textLightGray`, `yellowDark`, `darkGreen`, `darkRed`).
- PaymentReceipts.ParseStored: a codec rejection stands both for a `JSON.parse` throw and for a parsed value of the wrong shape.
- FloatingBubble.Tick: models the interval callback's updater as applied at once. React may defer functional updaters, and that interleaving is not modelled.
- NewComplaint.PickImage: when the picker returns no assets, `result.assets[0]` throws outside any `try`. That unhandled rejection is modelled as leaving the selection unchanged.
- Rendering, WebView previews, image URLs (`imageBaseUrl`), the Google Docs viewer link, `Linking.openURL`, pull-to-refresh spinners, and focus-triggered refetches other than the calls modelled are not modelled. They carry no logic beyond display.
- The Lex session id (`uuid`), the bot's configuration, and the credentials of the Lex client are not part of this model.
- Logging through `console` is left out. It has no observable effect on state.

## Findings

| source | as written | input that shows it | evidently intended | confidence | as-written member | corrected member |
|---|---|---|---|---|---|---|
| src/screens/auth/Login.js:46-52 | the role is read from the top level of the value `login` resolves to, which is the whole `{user, token}` response (src/context/AuthContext.js:77) | a response `{user: {member_type: "student"}, token: "t"}` with no top-level `member_type`: no navigation happens | dispatch on `user.member_type`, the profile `login` installs and the navigators route on | medium, not executed | LoginScreen.HandleLoginAsWritten (counterexample: LoginScreen.AsWrittenIgnoresProfileRole) | LoginScreen.HandleLogin (LoginScreen.DispatchFollowsLogin) |

=== FILE: chat.dfy ===
/**
 * The Lex chat screen: the conversation state, sending a message and
 * receiving the bot's reply, persisting the transcript under the "chat"
 * key, and the grouping rules the transcript is rendered with.
 *
 * Time is abstract: a message carries the calendar day it was sent on
 * (used for the date headers) and delays are whole milliseconds.
 */
module Chat {

  import opened Common
  import Text

  datatype Sender = User | Bot

  datatype Message = Message(sender: Sender, text: string, day: int)

  datatype ChatState = ChatState(
    input: string,
    messages: seq<Message>,
    typing: bool,
    showGreeting: bool)

  /** A freshly mounted screen, before the saved transcript is loaded. */
  const Mounted: ChatState := ChatState("", [], false, true)

  const ChatKey: string := "chat"
  const InputLimit: nat := 500
  const Fallback: string := "Sorry, I didn't understand that. Could you rephrase?"
  const ConnectionTrouble: string := "I'm having trouble connecting right now. Please try again later."
  const PreCallWait: int := 1000
  const FailureDelay: int := 1500
  const MinTypingDelay: int := 1500
  const MaxTypingDelay: int := 3000
  const MsPerChar: int := 15

  /**
   * The text field (`maxLength={500}`) keeps the longest prefix of what was
   * typed that fits in 500 UTF-16 code units.
   */
  function EditInput(s: ChatState, typed: string): (r: ChatState)
    ensures Text.Utf16Length(r.input) <= InputLimit && |r.input| <= InputLimit
    ensures |r.input| <= |typed| && r.input == typed[..|r.input|]
    ensures |r.input| < |typed| ==> Text.Utf16Length(typed[..|r.input| + 1]) > InputLimit
    ensures Text.Utf16Length(typed) <= InputLimit ==> r.input == typed
    ensures r.messages == s.messages && r.typing == s.typing && r.showGreeting == s.showGreeting
  {
    s.(input := Text.Utf16Take(typed, InputLimit))
  }

  /** The send button is disabled while the trimmed input is empty. */
  predicate SendDisabled(s: ChatState) {
    Text.Trim(s.input) == []
  }

  datatype SendStep = Ignored | Sent(state: ChatState, query: string)

  /**
   * `sendMessage`, up to the remote call: a blank input is ignored;
   * otherwise the trimmed text is appended as the user's message, the
   * input is cleared, the typing indicator goes on and the greeting goes
   * away. There is no guard against a reply still being pending.
   */
  function Send(s: ChatState, today: int): (r: SendStep)
    ensures r.Ignored? <==> Text.Blank(s.input)
    ensures r.Sent? ==>
              r.query == Text.Trim(s.input) && r.query != []
              && r.state.messages == s.messages + [Message(User, r.query, today)]
              && r.state.input == "" && r.state.typing && !r.state.showGreeting
  {
    var text := Text.Trim(s.input);
    if text == [] then Ignored
    else Sent(ChatState("", s.messages + [Message(User, text, today)], true, false), text)
  }

  /**
   * `response.messages?.[0]?.content || fallback`, where the response's
   * message list may be missing and its first entry may carry no content.
   */
  function ReplyText(messages: Option<seq<Option<string>>>): (r: string)
    ensures r != []
    ensures messages.Some? && |messages.value| > 0 && Present(messages.value[0])
            ==> r == messages.value[0].value
    ensures !(messages.Some? && |messages.value| > 0 && Present(messages.value[0]))
            ==> r == Fallback
  {
    if messages.Some? && |messages.value| > 0 && Present(messages.value[0]) then messages.value[0].value
    else Fallback
  }

  /** `min(max(len * 15, 1500), 3000)`, where `len` is the reply's `length` in UTF-16 code units. */
  function TypingDelay(len: nat): (d: int)
    ensures MinTypingDelay <= d <= MaxTypingDelay
    ensures MinTypingDelay <= len * MsPerChar <= MaxTypingDelay ==> d == len * MsPerChar
    ensures len * MsPerChar < MinTypingDelay ==> d == MinTypingDelay
    ensures len * MsPerChar > MaxTypingDelay ==> d == MaxTypingDelay
  {
    var d := if len * MsPerChar > MinTypingDelay then len * MsPerChar else MinTypingDelay;
    if d < MaxTypingDelay then d else MaxTypingDelay
  }

  /** Longer replies never type faster. */
  lemma TypingDelayMonotone(a: nat, b: nat)
    requires a <= b
    ensures TypingDelay(a) <= TypingDelay(b)
  {
    assert a * MsPerChar <= b * MsPerChar;
  }

  /** The bot's terminal message for an outcome: its reply, or the connection-trouble text. */
  function BotText(outcome: Fetch<Option<seq<Option<string>>>>): (text: string)
    ensures text != []
    ensures outcome.FetchFailed? ==> text == ConnectionTrouble
    ensures outcome.Fetched? ==> text == ReplyText(outcome.data)
  {
    if outcome.Fetched? then ReplyText(outcome.data) else ConnectionTrouble
  }

  /**
   * The second half of `sendMessage`: once the bot has answered (or the
   * call has thrown) and the typing delay has passed, the bot's message
   * is appended and the typing indicator goes off.
   */
  function Receive(s: ChatState, outcome: Fetch<Option<seq<Option<string>>>>, today: int): (r: ChatState)
    ensures r.messages == s.messages + [Message(Bot, BotText(outcome), today)]
    ensures !r.typing
    ensures r.input == s.input && r.showGreeting == s.showGreeting
  {
    s.(messages := s.messages + [Message(Bot, BotText(outcome), today)], typing := false)
  }

  /**
   * The time from a send to the bot's message: the one-second wait, then
   * however long the Lex call takes (`latency`; the call has no timeout),
   * then the typing delay for the reply's UTF-16 length, or the fixed
   * delay after a failure.
   */
  function Elapsed(outcome: Fetch<Option<seq<Option<string>>>>, latency: nat): (ms: int)
    ensures outcome.FetchFailed? ==> ms == PreCallWait + latency + FailureDelay
    ensures outcome.Fetched? ==>
              ms == PreCallWait + latency + TypingDelay(Text.Utf16Length(ReplyText(outcome.data)))
    ensures ms >= PreCallWait + latency + MinTypingDelay
    ensures ms - latency <= PreCallWait + MaxTypingDelay
  {
    match outcome
    case FetchFailed(_) => PreCallWait + latency + FailureDelay
    case Fetched(response) => PreCallWait + latency + TypingDelay(Text.Utf16Length(ReplyText(response)))
  }

  /** For the same call latency, a failure is answered no later than any reply. */
  lemma FailureAnswersFirst(fault: string, response: Option<seq<Option<string>>>, latency: nat)
    ensures Elapsed(FetchFailed(fault), latency) <= Elapsed(Fetched(response), latency)
  {
  }

  /** For the same call latency, a reply that is longer in JavaScript's count never arrives sooner. */
  lemma LongerReplyArrivesLater(a: Option<seq<Option<string>>>, b: Option<seq<Option<string>>>, latency: nat)
    requires Text.Utf16Length(ReplyText(a)) <= Text.Utf16Length(ReplyText(b))
    ensures Elapsed(Fetched(a), latency) <= Elapsed(Fetched(b), latency)
  {
    TypingDelayMonotone(Text.Utf16Length(ReplyText(a)), Text.Utf16Length(ReplyText(b)));
  }

  /** A whole exchange: a non-blank send followed by its reply adds exactly a user and a bot message. */
  lemma ExchangeAppendsPair(s: ChatState, outcome: Fetch<Option<seq<Option<string>>>>, today: int)
    requires Text.Trim(s.input) != []
    ensures Send(s, today).Sent?
    ensures var after := Receive(Send(s, today).state, outcome, today);
            after.messages == s.messages + [Message(User, Text.Trim(s.input), today), Message(Bot, BotText(outcome), today)]
            && !after.typing && after.input == "" && !after.showGreeting
  {
    var user := Message(User, Text.Trim(s.input), today);
    var bot := Message(Bot, BotText(outcome), today);
    SendAppendsUser(s, today);
    AppendTwo(s.messages, user, bot);
  }

  lemma SendAppendsUser(s: ChatState, today: int)
    requires Text.Trim(s.input) != []
    ensures Send(s, today) == Sent(ChatState("", s.messages + [Message(User, Text.Trim(s.input), today)], true, false),
                                   Text.Trim(s.input))
  {
  }

  lemma AppendTwo<T>(xs: seq<T>, a: T, b: T)
    ensures xs + [a] + [b] == xs + [a, b]
  {
  }

  /** The send button is enabled exactly when pressing it would send. */
  lemma SendEnabledIffSends(s: ChatState, today: int)
    ensures SendDisabled(s) <==> Send(s, today).Ignored?
  {
  }

  /** A second message can be sent while the first reply is still pending. */
  lemma SendWhileTyping(s: ChatState, today: int)
    requires s.typing && !Text.Blank(s.input)
    ensures Send(s, today).Sent?
    ensures |Send(s, today).state.messages| == |s.messages| + 1
  {
  }

  /** The effect on `messages`: save the transcript only when it is non-empty. */
  function Persist(messages: seq<Message>, store: Store, codec: Codec<seq<Message>>): (r: Store)
    ensures |messages| > 0 ==> ChatKey in r && r[ChatKey] == codec.encode(messages)
    ensures |messages| == 0 ==> r == store
    ensures forall k | k in store && k != ChatKey :: k in r && r[k] == store[k]
  {
    if |messages| > 0 then store[ChatKey := codec.encode(messages)] else store
  }

  /**
   * `loadChat`: a non-empty saved entry that parses replaces the
   * transcript (and hides the greeting when it holds messages); a missing
   * entry, a parse error or a failed read leaves the screen as it was.
   */
  function Load(s: ChatState, read: Fetch<Store>, codec: Codec<seq<Message>>): (r: ChatState)
    ensures r.input == s.input && r.typing == s.typing
    ensures (read.Fetched? && ChatKey in read.data && read.data[ChatKey] != ""
             && codec.decode(read.data[ChatKey]).Some?)
            ==> r.messages == codec.decode(read.data[ChatKey]).value
                && r.showGreeting == (s.showGreeting && |r.messages| == 0)
    ensures !(read.Fetched? && ChatKey in read.data && read.data[ChatKey] != ""
              && codec.decode(read.data[ChatKey]).Some?)
            ==> r == s
  {
    if read.Fetched? && ChatKey in read.data && read.data[ChatKey] != "" then
      match codec.decode(read.data[ChatKey])
      case None => s
      case Some(saved) =>
        s.(messages := saved, showGreeting := s.showGreeting && |saved| == 0)
    else s
  }

  /** The "Clear" confirmation: empty transcript, saved entry removed, greeting back. */
  function Clear(s: ChatState, store: Store): (r: (ChatState, Store))
    ensures r.0.messages == [] && r.0.showGreeting
    ensures ChatKey !in r.1
    ensures r.0.input == s.input && r.0.typing == s.typing
    ensures forall k | k in store && k != ChatKey :: k in r.1 && r.1[k] == store[k]
  {
    (s.(messages := [], showGreeting := true), store - {ChatKey})
  }

  /** A reopened screen shows the transcript that was saved, without the greeting. */
  lemma ReloadRestoresTranscript(messages: seq<Message>, store: Store, codec: Codec<seq<Message>>)
    requires Lawful(codec)
    requires |messages| > 0
    ensures var reopened := Load(Mounted, Fetched(Persist(messages, store, codec)), codec);
            reopened.messages == messages && !reopened.showGreeting
  {
    assert codec.encode(messages) != "" && codec.decode(codec.encode(messages)) == Some(messages);
  }

  /**
   * After clearing, the effect saves nothing (the transcript is empty), so
   * a reopened screen starts empty with the greeting.
   */
  lemma ReloadAfterClear(s: ChatState, store: Store, codec: Codec<seq<Message>>)
    ensures var (cleared, store') := Clear(s, store);
            Load(Mounted, Fetched(Persist(cleared.messages, store', codec)), codec) == Mounted
  {
  }

  /** The date header text: relative for today and yesterday, else the date itself. */
  datatype DayLabel = Today | Yesterday | OnDate(day: int)

  function Label(day: int, today: int): (l: DayLabel)
    ensures l == Today <==> day == today
    ensures l == Yesterday <==> day == today - 1
    ensures l.OnDate? ==> l.day == day
  {
    if day == today then Today
    else if day == today - 1 then Yesterday
    else OnDate(day)
  }

  /** Two messages get the same header exactly when they were sent on the same day. */
  lemma SameLabelIffSameDay(a: int, b: int, today: int)
    ensures Label(a, today) == Label(b, today) <==> a == b
  {
  }

  /** `renderItem`'s date header: shown for the first message or on a change of label. */
  predicate ShowDate(ms: seq<Message>, i: nat, today: int)
    requires i < |ms|
  {
    i == 0 || Label(ms[i - 1].day, today) != Label(ms[i].day, today)
  }

  /** `renderItem`'s sender group: the first message or a change of sender. */
  predicate NewSenderGroup(ms: seq<Message>, i: nat)
    requires i < |ms|
  {
    i == 0 || ms[i - 1].sender != ms[i].sender
  }

  /** The avatar is drawn at the start of a sender group or a day. */
  predicate ShowAvatar(ms: seq<Message>, i: nat, today: int)
    requires i < |ms|
  {
    NewSenderGroup(ms, i) || ShowDate(ms, i, today)
  }

  /** The bubble takes the tighter "follow-up" style exactly when no avatar is drawn. */
  predicate Followup(ms: seq<Message>, i: nat, today: int)
    requires i < |ms|
  {
    !NewSenderGroup(ms, i) && !ShowDate(ms, i, today)
  }

  /**
   * The rendering rule in terms of the messages alone: an avatar appears
   * exactly at a boundary of sender or of calendar day, and follow-up
   * styling everywhere else.
   */
  lemma AvatarAtBoundaries(ms: seq<Message>, i: nat, today: int)
    requires i < |ms|
    ensures ShowAvatar(ms, i, today) <==>
              i == 0 || ms[i - 1].sender != ms[i].sender || ms[i - 1].day != ms[i].day
    ensures Followup(ms, i, today) <==> !ShowAvatar(ms, i, today)
  {
    if i > 0 {
      SameLabelIffSameDay(ms[i - 1].day, ms[i].day, today);
    }
  }
}

=== FILE: common.dfy ===
/**
 * Shared vocabulary of the Hostel Mate client model: optional values, the
 * JSON scalars the app's records carry (with JavaScript truthiness), the
 * key-value store, an abstract JSON codec and the outcome of a remote call.
 */
module Common {

  datatype Option<+T> = None | Some(value: T)

  /** A JSON scalar as it appears in a profile or a request body. */
  datatype Value = Null | Bool(b: bool) | Num(n: int) | Str(s: string)

  /** JavaScript truthiness: null, false, 0 and "" are falsy. */
  predicate Truthy(v: Value) {
    match v
    case Null => false
    case Bool(b) => b
    case Num(n) => n != 0
    case Str(s) => s != ""
  }

  /** A flat JSON object, such as the user profile. */
  type Record = map<string, Value>

  /** `r.key`, where a missing key reads as null (undefined). */
  function Field(r: Record, key: string): Value {
    if key in r then r[key] else Null
  }

  /** `r?.key` on a possibly-null object. */
  function FieldOf(r: Option<Record>, key: string): Value {
    if r.Some? then Field(r.value, key) else Null
  }

  /** A string read that may be null, tested for truthiness. */
  predicate Present(s: Option<string>) {
    s.Some? && s.value != ""
  }

  /** The persisted key-value store: keys and values are strings. */
  type Store = map<string, string>

  function Lookup(store: Store, key: string): Option<string> {
    if key in store then Some(store[key]) else None
  }

  /**
   * An abstract JSON serialise/parse pair. `decode` returns None where
   * `JSON.parse` throws or yields a value of the wrong shape.
   */
  datatype Codec<!T> = Codec(encode: T -> string, decode: string -> Option<T>)

  /**
   * Parsing what was serialised gives the original value back, and
   * serialised JSON text is never the empty string.
   */
  ghost predicate Lawful<T(!new)>(c: Codec<T>) {
    forall x: T :: c.encode(x) != "" && c.decode(c.encode(x)) == Some(x)
  }

  /** The outcome of one remote request: a response body or a thrown fault. */
  datatype Fetch<+T> = Fetched(data: T) | FetchFailed(fault: string)

  /**
   * What a screen does in response to an event, besides changing its own
   * state. `Alert` is `Alert.alert(title, message)`; the global
   * `alert(message)` is React Native's `Alert.alert("Alert", message)`,
   * so it appears here with the title "Alert".
   */
  datatype Effect =
    | Alert(title: string, message: string)
    | Navigate(route: string)
    | GoBack

  /** The two flavours of the `Authorization` header the screens build. */
  const BearerPrefix: string := "Bearer "

  /** `token.startsWith("Bearer ") ? token : "Bearer " + token`. */
  function Bearer(token: string): (h: string)
    ensures |h| >= |BearerPrefix| && h[..|BearerPrefix|] == BearerPrefix
    ensures HasBearerPrefix(token) ==> h == token
  {
    if HasBearerPrefix(token) then token
    else BearerPrefix + token
  }

  /** Normalising twice is normalising once. */
  lemma BearerIdempotent(token: string)
    ensures Bearer(Bearer(token)) == Bearer(token)
  {
  }

  /** A normalised header still carries the token it was built from. */
  lemma BearerKeepsToken(token: string)
    ensures Bearer(token) == token || Bearer(token) == BearerPrefix + token
  {
  }

  /**
   * `"Bearer " + token` with no check, as several screens write it: a
   * missing token is interpolated as the text "null".
   */
  function RawBearer(token: Option<string>): (h: string)
    ensures token.Some? ==> h == BearerPrefix + token.value
    ensures token.None? ==> h == BearerPrefix + "null"
  {
    BearerPrefix + (if token.Some? then token.value else "null")
  }

  /** The text starts with "Bearer ". */
  predicate HasBearerPrefix(t: string) {
    |t| >= |BearerPrefix| && t[..|BearerPrefix|] == BearerPrefix
  }

  /**
   * The unchecked header agrees with the normalised one exactly when the
   * token does not already carry the prefix; otherwise it is sent as
   * "Bearer Bearer …".
   */
  lemma RawBearerVsBearer(t: string)
    ensures RawBearer(Some(t)) == Bearer(t) <==> !HasBearerPrefix(t)
    ensures HasBearerPrefix(t) ==> RawBearer(Some(t)) == BearerPrefix + BearerPrefix + t[|BearerPrefix|..]
  {
    if HasBearerPrefix(t) {
      assert |RawBearer(Some(t))| != |Bearer(t)|;
      assert t == BearerPrefix + t[|BearerPrefix|..];
    }
  }
}

=== FILE: complaint_trends.dfy ===
/**
 * The complaint-trends chart: the range buttons and the chart data built
 * from the per-day statistics the server returns.
 */
module ComplaintTrends {

  import opened Common
  import Text

  /** The three ranges the buttons offer. */
  datatype Range = Week | Month | ThreeMonths

  const Ranges: seq<Range> := [Week, Month, ThreeMonths]

  /** The `range` query parameter. */
  function RangeParam(r: Range): (p: string)
    ensures p in {"week", "month", "3months"}
  {
    match r
    case Week => "week"
    case Month => "month"
    case ThreeMonths => "3months"
  }

  /** Distinct ranges query distinct parameters. */
  lemma RangeParamInjective(a: Range, b: Range)
    ensures RangeParam(a) == RangeParam(b) <==> a == b
  {
  }

  const InitialRange: Range := Week

  /** The button captions: week and month by name, everything else "Last 3 Months". */
  function ButtonText(r: Range): (t: string)
    ensures r == Week ==> t == "This Week"
    ensures r == Month ==> t == "This Month"
    ensures r == ThreeMonths ==> t == "Last 3 Months"
  {
    if RangeParam(r) == "week" then "This Week"
    else if RangeParam(r) == "month" then "This Month"
    else "Last 3 Months"
  }

  /** A button is "contained" when its range is the selected one, "outlined" otherwise. */
  function Mode(selected: Range, r: Range): (m: string)
    ensures m == "contained" <==> RangeParam(r) == RangeParam(selected)
    ensures m != "contained" ==> m == "outlined"
  {
    if RangeParam(selected) == RangeParam(r) then "contained" else "outlined"
  }

  /** Exactly one button is contained: the selected range's. */
  lemma OneContained(selected: Range)
    ensures forall i | 0 <= i < |Ranges| :: Mode(selected, Ranges[i]) == "contained" <==> Ranges[i] == selected
    ensures exists i | 0 <= i < |Ranges| :: Mode(selected, Ranges[i]) == "contained"
  {
    forall i | 0 <= i < |Ranges|
      ensures Mode(selected, Ranges[i]) == "contained" <==> Ranges[i] == selected
    {
      RangeParamInjective(selected, Ranges[i]);
    }
    var i := match selected case Week => 0 case Month => 1 case ThreeMonths => 2;
    assert Ranges[i] == selected;
  }

  /** One item of the statistics response: the bucket's day and month and its complaint count. */
  datatype Bucket = Bucket(day: int, month: int, count: int)

  datatype ChartData = ChartData(labels: seq<string>, data: seq<int>)

  /** `${day}/${month}`. */
  function Label(b: Bucket): (l: string)
    ensures l == Text.IntToString(b.day) + "/" + Text.IntToString(b.month)
    ensures '/' in l
  {
    var l := Text.IntToString(b.day) + "/" + Text.IntToString(b.month);
    assert l[|Text.IntToString(b.day)|] == '/';
    l
  }

  /** The label splits at its "/" into the day and the month, which parse back. */
  lemma LabelReadsBack(b: Bucket)
    ensures Text.Split(Label(b), '/') == [Text.IntToString(b.day), Text.IntToString(b.month)]
    ensures Text.ParseInt(Text.Split(Label(b), '/')[0]) == Some(b.day)
    ensures Text.ParseInt(Text.Split(Label(b), '/')[1]) == Some(b.month)
  {
    var d := Text.IntToString(b.day);
    var m := Text.IntToString(b.month);
    assert Text.Split(Label(b), '/') == [d, m] by {
      NoSlash(b.day);
      NoSlash(b.month);
      assert Label(b) == d + ['/'] + m;
      Text.SplitAfterFirst(d, m, '/');
    }
    Text.ParseIntToString(b.day);
    Text.ParseIntToString(b.month);
  }

  /** A number's text holds no "/". */
  lemma NoSlash(n: int)
    ensures '/' !in Text.IntToString(n)
  {
  }

  /** `formattedData`: one label and one value per bucket, in response order. */
  function Format(items: seq<Bucket>): (c: ChartData)
    ensures |c.labels| == |items| && |c.data| == |items|
    ensures forall i | 0 <= i < |items| :: c.labels[i] == Label(items[i]) && c.data[i] == items[i].count
  {
    ChartData(seq(|items|, i requires 0 <= i < |items| => Label(items[i])),
              seq(|items|, i requires 0 <= i < |items| => items[i].count))
  }

  /** Every point of the chart reads back as its bucket: the label parses to the day and month, the value is the count. */
  lemma FormatReadsBack(items: seq<Bucket>, i: nat)
    requires i < |items|
    ensures var c := Format(items);
            Text.ParseInt(Text.Split(c.labels[i], '/')[0]) == Some(items[i].day)
            && Text.ParseInt(Text.Split(c.labels[i], '/')[1]) == Some(items[i].month)
            && c.data[i] == items[i].count
  {
    LabelReadsBack(items[i]);
  }

  /** The chart's state: the selected range, the last chart data, and the loading flag. */
  datatype Trends = Trends(range: Range, chart: Option<ChartData>, loading: bool)

  const Initial: Trends := Trends(InitialRange, None, true)

  /** The fetched chart and the header the request carried. */
  datatype Refetch = Refetch(trends: Trends, query: string, header: string)

  /**
   * `fetchStats` for the selected range: a response replaces the chart, a
   * failure keeps the previous one, and loading ends false either way.
   */
  function FetchStats(t: Trends, token: Option<string>, response: Fetch<seq<Bucket>>): (r: Refetch)
    ensures r.query == RangeParam(t.range) && r.header == RawBearer(token)
    ensures !r.trends.loading && r.trends.range == t.range
    ensures response.Fetched? ==> r.trends.chart == Some(Format(response.data))
    ensures response.FetchFailed? ==> r.trends.chart == t.chart
  {
    var chart := if response.Fetched? then Some(Format(response.data)) else t.chart;
    Refetch(Trends(t.range, chart, false), RangeParam(t.range), RawBearer(token))
  }

  /** Pressing a range button selects it; the effect then fetches for it. */
  function Select(t: Trends, r: Range): (u: Trends)
    ensures u.range == r && u.chart == t.chart && u.loading == t.loading
  {
    t.(range := r)
  }

  /**
   * After selecting a range and fetching, the query is that range's and a
   * response's buckets are all charted with their counts, in order.
   */
  lemma SelectThenFetch(t: Trends, r: Range, token: Option<string>, items: seq<Bucket>)
    ensures var f := FetchStats(Select(t, r), token, Fetched(items));
            f.query == RangeParam(r) && f.trends.chart.Some?
            && f.trends.chart.value.data == seq(|items|, i requires 0 <= i < |items| => items[i].count)
  {
  }
}

=== FILE: complaints.dfy ===
/**
 * The complaint record the complaint screens list, and the department
 * fetch the staff screens share: read the stored token, normalise it into
 * a `Bearer` header, and replace the list with the response.
 */
module Complaints {

  import opened Common
  import Lists

  /**
   * The fields of a complaint the screens compute with. `day` is the
   * calendar day `createdAt` falls on; title, description, image and the
   * author are only displayed.
   */
  datatype Complaint = Complaint(id: string, status: string, category: Option<string>, day: int)

  /** `c.status === "pending"`, case-sensitive. */
  predicate IsPending(c: Complaint) {
    c.status == "pending"
  }

  /** `c.status === "resolved"`, case-sensitive. */
  predicate IsResolved(c: Complaint) {
    c.status == "resolved"
  }

  /** The list a department fetch leaves, and the header it sent, if it sent a request. */
  datatype Refresh = Refresh(complaints: seq<Complaint>, header: Option<string>)

  /**
   * `complaints/department` as every staff screen calls it. A missing
   * token makes `token.startsWith` throw before any request, and the
   * catch keeps the list; any token, even "", is sent normalised; a failed
   * request also keeps the list.
   */
  function FetchDepartment(prev: seq<Complaint>, token: Option<string>, response: Fetch<seq<Complaint>>)
    : (r: Refresh)
    ensures r.header.Some? <==> token.Some?
    ensures token.Some? ==> r.header == Some(Bearer(token.value))
    ensures token.Some? && response.Fetched? ==> r.complaints == response.data
    ensures token.None? || response.FetchFailed? ==> r.complaints == prev
  {
    match token
    case None => Refresh(prev, None)
    case Some(t) =>
      match response
      case Fetched(data) => Refresh(data, Some(Bearer(t)))
      case FetchFailed(_) => Refresh(prev, Some(Bearer(t)))
  }

  /** The header a second fetch sends is the one the first sent: normalising is idempotent. */
  lemma HeaderStable(prev: seq<Complaint>, token: string, response: Fetch<seq<Complaint>>)
    ensures var h := FetchDepartment(prev, Some(token), response).header.value;
            FetchDepartment(prev, Some(h), response).header == Some(h)
  {
    BearerIdempotent(token);
  }
}

=== FILE: department_lists.dfy ===
/**
 * The staff member's pending and resolved lists: each fetches the
 * department's complaints and keeps those with one exact status.
 */
module DepartmentLists {

  import opened Common
  import Lists
  import opened Complaints

  /** `data.filter(c => c.status === "pending")`. */
  function PendingOnly(cs: seq<Complaint>): (r: seq<Complaint>)
    ensures forall i | 0 <= i < |r| :: IsPending(r[i])
    ensures forall c :: c in r <==> c in cs && IsPending(c)
    ensures |r| == Lists.Count(cs, IsPending) && |r| <= |cs|
    ensures Lists.IsSubseq(r, cs)
  {
    Lists.FilterLengthIsCount(cs, IsPending);
    Lists.FilterIsSubseq(cs, IsPending);
    Lists.Filter(cs, IsPending)
  }

  /** `data.filter(c => c.status === "resolved")`. */
  function ResolvedOnly(cs: seq<Complaint>): (r: seq<Complaint>)
    ensures forall i | 0 <= i < |r| :: IsResolved(r[i])
    ensures forall c :: c in r <==> c in cs && IsResolved(c)
    ensures |r| == Lists.Count(cs, IsResolved) && |r| <= |cs|
    ensures Lists.IsSubseq(r, cs)
  {
    Lists.FilterLengthIsCount(cs, IsResolved);
    Lists.FilterIsSubseq(cs, IsResolved);
    Lists.Filter(cs, IsResolved)
  }

  /** Every fetched pending complaint is listed as often as it was fetched. */
  lemma PendingKeepsEveryMatch(cs: seq<Complaint>, c: Complaint)
    requires IsPending(c)
    ensures multiset(PendingOnly(cs))[c] == multiset(cs)[c]
  {
    Lists.FilterCountsMatches(cs, IsPending, c);
  }

  /** Every fetched resolved complaint is listed as often as it was fetched. */
  lemma ResolvedKeepsEveryMatch(cs: seq<Complaint>, c: Complaint)
    requires IsResolved(c)
    ensures multiset(ResolvedOnly(cs))[c] == multiset(cs)[c]
  {
    Lists.FilterCountsMatches(cs, IsResolved, c);
  }

  /** The two lists never share a complaint and together hold at most what was fetched. */
  lemma ListsDisjoint(cs: seq<Complaint>)
    ensures |PendingOnly(cs)| + |ResolvedOnly(cs)| <= |cs|
    ensures forall c :: !(c in PendingOnly(cs) && c in ResolvedOnly(cs))
  {
    Lists.DisjointPairBounded(cs, IsPending, IsResolved);
  }

  /** `fetchPending`: the department fetch, keeping the pending complaints of a response. */
  function FetchPending(prev: seq<Complaint>, token: Option<string>, response: Fetch<seq<Complaint>>)
    : (r: Refresh)
    ensures r.header.Some? <==> token.Some?
    ensures token.Some? ==> r.header == Some(Bearer(token.value))
    ensures token.Some? && response.Fetched? ==> r.complaints == PendingOnly(response.data)
    ensures token.None? || response.FetchFailed? ==> r.complaints == prev
  {
    match response
    case Fetched(data) => FetchDepartment(prev, token, Fetched(PendingOnly(data)))
    case FetchFailed(fault) => FetchDepartment(prev, token, FetchFailed(fault))
  }

  /** `fetchResolved`: the department fetch, keeping the resolved complaints of a response. */
  function FetchResolved(prev: seq<Complaint>, token: Option<string>, response: Fetch<seq<Complaint>>)
    : (r: Refresh)
    ensures r.header.Some? <==> token.Some?
    ensures token.Some? ==> r.header == Some(Bearer(token.value))
    ensures token.Some? && response.Fetched? ==> r.complaints == ResolvedOnly(response.data)
    ensures token.None? || response.FetchFailed? ==> r.complaints == prev
  {
    match response
    case Fetched(data) => FetchDepartment(prev, token, Fetched(ResolvedOnly(data)))
    case FetchFailed(fault) => FetchDepartment(prev, token, FetchFailed(fault))
  }

  /** A pending screen that lists only pending complaints keeps doing so after any fetch. */
  lemma PendingScreenStaysPending(prev: seq<Complaint>, token: Option<string>, response: Fetch<seq<Complaint>>)
    requires forall i | 0 <= i < |prev| :: IsPending(prev[i])
    ensures var r := FetchPending(prev, token, response).complaints;
            forall i | 0 <= i < |r| :: IsPending(r[i])
  {
  }

  /** A resolved screen that lists only resolved complaints keeps doing so after any fetch. */
  lemma ResolvedScreenStaysResolved(prev: seq<Complaint>, token: Option<string>, response: Fetch<seq<Complaint>>)
    requires forall i | 0 <= i < |prev| :: IsResolved(prev[i])
    ensures var r := FetchResolved(prev, token, response).complaints;
            forall i | 0 <= i < |r| :: IsResolved(r[i])
  {
  }
}

=== FILE: floating_bubble.dfy ===
/**
 * The floating chat-bot bubble: while it is shown, a timer types
 * "I'm here to help!" one character per tick and stops at the end;
 * hiding it clears the timer, and showing it again starts over.
 */
module FloatingBubble {

  const FullText: string := "I'm here to help!"

  /**
   * The component's state: whether the bubble is shown, the text typed so
   * far, the effect's character index, and whether its timer is running.
   */
  datatype Bubble = Bubble(shown: bool, displayed: string, index: nat, ticking: bool)

  /** The typed text is the first `index` characters of the full text. */
  predicate Typed(b: Bubble) {
    b.index <= |FullText| && b.displayed == FullText[..b.index]
  }

  /**
   * The effect that runs whenever `shown` changes: when shown, clear the
   * text and start a timer from index 0; when hidden, start nothing.
   */
  function Effect(b: Bubble): (r: Bubble)
    ensures r.shown == b.shown
    ensures b.shown ==> r.displayed == "" && r.index == 0 && r.ticking && Typed(r)
    ensures !b.shown ==> !r.ticking && r.displayed == b.displayed
  {
    if b.shown then b.(displayed := "", index := 0, ticking := true)
    else b.(index := 0, ticking := false)
  }

  /** On mount the bubble is shown and its effect has run. */
  const Mounted: Bubble := Effect(Bubble(true, "", 0, false))

  /**
   * One timer tick: below the end, append the character at the index and
   * advance; at the end, clear the timer. A cleared timer never ticks.
   */
  function Tick(b: Bubble): (r: Bubble)
    ensures !b.ticking ==> r == b
    ensures b.ticking && b.index < |FullText| ==>
              r.displayed == b.displayed + [FullText[b.index]] && r.index == b.index + 1 && r.ticking
    ensures b.ticking && b.index >= |FullText| ==> r == b.(ticking := false)
    ensures Typed(b) ==> Typed(r)
  {
    if !b.ticking then b
    else if b.index < |FullText| then
      assert FullText[..b.index + 1] == FullText[..b.index] + [FullText[b.index]];
      b.(displayed := b.displayed + [FullText[b.index]], index := b.index + 1)
    else b.(ticking := false)
  }

  /** `handleToggleBubble`: the cleanup clears the running timer, then the effect runs for the flipped flag. */
  function Toggle(b: Bubble): (r: Bubble)
    ensures r.shown == !b.shown
    ensures r.shown ==> r.displayed == "" && r.ticking
    ensures !r.shown ==> !r.ticking
  {
    Effect(b.(shown := !b.shown, ticking := false))
  }

  function Ticks(b: Bubble, n: nat): Bubble
    decreases n
  {
    if n == 0 then b else Ticks(Tick(b), n - 1)
  }

  /**
   * `n` ticks after the bubble appears the text is the first `n`
   * characters (all of them once `n` reaches the length), and the timer
   * has stopped once a tick found the text complete.
   */
  lemma {:induction false} TypedAfterTicks(b: Bubble, n: nat)
    requires b.ticking && Typed(b)
    ensures var r := Ticks(b, n);
            Typed(r) && r.shown == b.shown
            && r.index == (if b.index + n < |FullText| then b.index + n else |FullText|)
            && (r.ticking <==> b.index + n <= |FullText|)
    decreases n
  {
    if n > 0 {
      var t := Tick(b);
      if b.index < |FullText| {
        TypedAfterTicks(t, n - 1);
      } else {
        StoppedStays(t, n - 1);
      }
    }
  }

  /** A stopped timer leaves the bubble as it is. */
  lemma {:induction false} StoppedStays(b: Bubble, n: nat)
    requires !b.ticking
    ensures Ticks(b, n) == b
    decreases n
  {
    if n > 0 {
      StoppedStays(Tick(b), n - 1);
    }
  }

  /** From mount, every tick count shows a prefix of the full text, and the whole text from tick 17 on. */
  lemma MountedTypesPrefix(n: nat)
    ensures var r := Ticks(Mounted, n);
            |r.displayed| <= |FullText| && r.displayed == FullText[..|r.displayed|]
    ensures n >= |FullText| ==> Ticks(Mounted, n).displayed == FullText
  {
    TypedAfterTicks(Mounted, n);
  }

  /** Hiding and showing again types from the start; ticks while hidden change nothing. */
  lemma ReshowRestarts(b: Bubble, n: nat)
    requires b.shown
    ensures Ticks(Toggle(b), n) == Toggle(b)
    ensures Toggle(Ticks(Toggle(b), n)).displayed == "" && Typed(Toggle(Toggle(b)))
  {
    StoppedStays(Toggle(b), n);
  }
}

=== FILE: forms.dfy ===
/**
 * The validation vocabulary the screens' schemas are restated in: a
 * schema's result holds, for each field, the message that field fails
 * with (none when it passes), and a form is valid when no field fails.
 */
module Forms {

  import opened Common
  import Text

  /** A required string field: present and non-empty (whitespace counts as content). */
  predicate Filled(s: string) {
    s != ""
  }

  /**
   * The outcome of one field's rules, as the message it fails with: the
   * required message when the field is empty, the format message when it
   * is filled but malformed, and none otherwise.
   */
  function Rule(value: string, required: string, wellFormed: bool, malformed: string): (m: Option<string>)
    ensures m.Some? <==> value == "" || !wellFormed
    ensures value == "" ==> m == Some(required)
    ensures value != "" && !wellFormed ==> m == Some(malformed)
  {
    if value == "" then Some(required)
    else if !wellFormed then Some(malformed)
    else None
  }

  /** A required field with no format rule. */
  function Require(value: string, message: string): (m: Option<string>)
    ensures m.Some? <==> value == ""
    ensures m.Some? ==> m.value == message
  {
    Rule(value, message, true, message)
  }

  /** A rule that applies only when `active`; a stripped field never fails. */
  function When(active: bool, m: Option<string>): (r: Option<string>)
    ensures r.Some? <==> active && m.Some?
    ensures active ==> r == m
  {
    if active then m else None
  }

  /**
   * An approximation of the e-mail format test: a non-empty local part, a
   * single "@", and a domain holding a "." that is neither its first nor
   * its last character, with no whitespace anywhere.
   */
  predicate IsEmail(s: string) {
    var parts := Text.Split(s, '@');
    |parts| == 2 && parts[0] != [] && parts[1] != []
    && '.' in parts[1] && parts[1][0] != '.' && parts[1][|parts[1]| - 1] != '.'
    && forall i | 0 <= i < |s| :: !Text.IsSpace(s[i])
  }

  /**
   * Text with exactly one "@" is accepted exactly when both sides are
   * non-empty, the domain holds an inner ".", and there is no whitespace.
   */
  lemma EmailOfParts(local: string, domain: string)
    requires '@' !in local && '@' !in domain
    ensures IsEmail(local + "@" + domain) <==>
              local != [] && domain != [] && '.' in domain && domain[0] != '.' && domain[|domain| - 1] != '.'
              && (forall i | 0 <= i < |local| :: !Text.IsSpace(local[i]))
              && (forall i | 0 <= i < |domain| :: !Text.IsSpace(domain[i]))
  {
    EmailSplit(local, domain);
    EmailNoSpace(local, domain);
  }

  lemma EmailSplit(local: string, domain: string)
    requires '@' !in local && '@' !in domain
    ensures Text.Split(local + "@" + domain, '@') == [local, domain]
  {
    assert local + "@" + domain == local + ['@'] + domain;
    Text.SplitAfterFirst(local, domain, '@');
  }

  lemma EmailNoSpace(local: string, domain: string)
    ensures var s := local + "@" + domain;
      (forall i | 0 <= i < |s| :: !Text.IsSpace(s[i])) <==>
      (forall i | 0 <= i < |local| :: !Text.IsSpace(local[i])) && (forall i | 0 <= i < |domain| :: !Text.IsSpace(domain[i]))
  {
    var s := local + "@" + domain;
    assert forall i | 0 <= i < |local| :: s[i] == local[i];
    assert forall i | 0 <= i < |domain| :: s[|local| + 1 + i] == domain[i];
    assert s[|local|] == '@';
    Text.PrintableNotSpace('@');
    if (forall i | 0 <= i < |local| :: !Text.IsSpace(local[i])) && (forall i | 0 <= i < |domain| :: !Text.IsSpace(domain[i])) {
      forall i | 0 <= i < |s| ensures !Text.IsSpace(s[i]) {
        if i > |local| {
          assert s[i] == domain[i - |local| - 1];
        }
      }
    }
  }

  /** An accepted address holds exactly one "@". */
  lemma EmailHasOneAt(s: string)
    requires IsEmail(s)
    ensures exists i | 0 <= i < |s| :: s[i] == '@' && '@' !in s[..i] && '@' !in s[i + 1..]
  {
    var i := Text.IndexOf(s, '@');
    var a, t := s[..i], s[i + 1..];
    assert s == a + ['@'] + t;
    Text.SplitAfterFirst(a, t, '@');
    assert Text.Split(t, '@') == Text.Split(s, '@')[1..];
  }
}

=== FILE: gate_passes.dfy ===
/**
 * Gate passes as the screens show them: the status colour, the status
 * badge, the laptop line and the rejection panel shared by the student's
 * and the administrator's views, and the administrator's list with its
 * pending/approved filter and its approve and reject actions.
 *
 * The palette file of the app is not part of this model: palette entries
 * are kept as their names.
 */
module GatePasses {

  import opened Common
  import Text
  import Lists

  /** `laptop_details`: the make and quantity as the server stores them. */
  datatype Laptop = Laptop(make: Value, quantity: Value)

  /** The fields of a gate pass the screens compute with. */
  datatype GatePass = GatePass(id: string, status: string, laptop: Option<Laptop>, rejectionReason: Value)

  const TextLightGray: string := "textLightGray"

  /** `getStatusColor` / `getStatusStyle`: exact, case-sensitive matches, gray for anything else. */
  function StatusColor(status: string): (color: string)
    ensures status == "approved" ==> color == "#4CAF50"
    ensures status == "pending" ==> color == "#FFC107"
    ensures status == "rejected" ==> color == "#F44336"
    ensures color == TextLightGray <==> status !in {"approved", "pending", "rejected"}
  {
    match status
    case "approved" => "#4CAF50"
    case "pending" => "#FFC107"
    case "rejected" => "#F44336"
    case _ => TextLightGray
  }

  /** The three known statuses get three different colours. */
  lemma StatusColorsDistinct(a: string, b: string)
    requires a in {"approved", "pending", "rejected"} && b in {"approved", "pending", "rejected"}
    ensures StatusColor(a) == StatusColor(b) <==> a == b
  {
  }

  /** The badge text: the status upper-cased. */
  function BadgeText(status: string): (r: string)
    ensures |r| == |status|
    ensures Text.ToLower(r) == Text.ToLower(status)
    ensures Text.ToUpper(r) == r
  {
    Text.LowerOfUpper(status);
    Text.ToUpperIdempotent(status);
    Text.ToUpper(status)
  }

  /**
   * The badge is the only text of the status's length that reads as the
   * status up to case and has no lower-case letter left.
   */
  lemma BadgeTextUnique(status: string, r: string)
    requires |r| == |status| && Text.ToLower(r) == Text.ToLower(status) && Text.ToUpper(r) == r
    ensures r == BadgeText(status)
  {
    var b := BadgeText(status);
    forall i | 0 <= i < |r| ensures r[i] == b[i] {
      assert Text.ToLower(r)[i] == Text.ToLower(status)[i];
      assert Text.ToUpper(r)[i] == r[i];
    }
  }

  /** `${make} (Qty: ${quantity})` when the pass has a truthy make, "No Laptop" otherwise. */
  function LaptopLine(laptop: Option<Laptop>): (r: string)
    ensures r == "No Laptop" <==> !(laptop.Some? && Truthy(laptop.value.make))
    ensures laptop.Some? && Truthy(laptop.value.make) ==>
              r == Text.Show(laptop.value.make) + " (Qty: " + Text.Show(laptop.value.quantity) + ")"
  {
    if laptop.Some? && Truthy(laptop.value.make) then
      var r := Text.Show(laptop.value.make) + " (Qty: " + Text.Show(laptop.value.quantity) + ")";
      assert r[|r| - 1] == ')';
      r
    else "No Laptop"
  }

  /** The rejection panel: only for a rejected pass with a truthy reason. */
  predicate RejectionShown(p: GatePass) {
    p.status == "rejected" && Truthy(p.rejectionReason)
  }

  /** The Approve and Reject buttons: only for a pending pass. */
  predicate ActionsShown(p: GatePass) {
    p.status == "pending"
  }

  /** A pass never offers the actions and the rejection panel together. */
  lemma ActionsOrReason(p: GatePass)
    ensures !(ActionsShown(p) && RejectionShown(p))
  {
  }

  /** The two values of the segmented filter. */
  datatype PassFilter = PendingPasses | ApprovedPasses

  function FilterStatus(f: PassFilter): string {
    match f
    case PendingPasses => "pending"
    case ApprovedPasses => "approved"
  }

  /** `filterStatus` starts at "pending". */
  const InitialFilter: PassFilter := PendingPasses

  /** The pass's status is the one the filter selects. */
  function Selected(f: PassFilter): GatePass -> bool {
    (p: GatePass) => p.status == FilterStatus(f)
  }

  /** `filteredGatePasses`: the passes whose status equals the filter, in order, as many as there are. */
  function Shown(passes: seq<GatePass>, f: PassFilter): (r: seq<GatePass>)
    ensures forall i | 0 <= i < |r| :: r[i].status == FilterStatus(f)
    ensures forall p :: p in r <==> p in passes && p.status == FilterStatus(f)
    ensures |r| == Lists.Count(passes, Selected(f))
    ensures Lists.IsSubseq(r, passes)
  {
    Lists.FilterIsSubseq(passes, Selected(f));
    Lists.FilterLengthIsCount(passes, Selected(f));
    Lists.Filter(passes, Selected(f))
  }

  /** Every pass with the filter's status is listed as often as it was fetched. */
  lemma ShownKeepsEveryMatch(passes: seq<GatePass>, f: PassFilter, p: GatePass)
    requires p.status == FilterStatus(f)
    ensures multiset(Shown(passes, f))[p] == multiset(passes)[p]
  {
    Lists.FilterCountsMatches(passes, Selected(f), p);
  }

  /** Whatever the filter, a rejected pass is never listed, and neither is any other status. */
  lemma OnlyPendingOrApprovedListed(passes: seq<GatePass>, f: PassFilter, p: GatePass)
    requires p in Shown(passes, f)
    ensures p.status in {"pending", "approved"}
    ensures p.status != "rejected"
  {
  }

  /** Every pending or approved pass is listed under exactly one filter. */
  lemma ListedUnderOneFilter(passes: seq<GatePass>, p: GatePass)
    requires p in passes && p.status in {"pending", "approved"}
    ensures p in Shown(passes, PendingPasses) <==> !(p in Shown(passes, ApprovedPasses))
  {
  }

  datatype PassList = PassList(passes: seq<GatePass>, filter: PassFilter, loading: bool)

  const InitialList: PassList := PassList([], InitialFilter, true)

  /** The list after a fetch and the header the request carried. */
  datatype Listing = Listing(list: PassList, header: string)

  /**
   * `fetchGatePasses`: the request always goes out with the raw
   * `Bearer ${token}` header; a response replaces the passes, a failure
   * keeps them, and loading ends either way.
   */
  function FetchPasses(l: PassList, token: Option<string>, response: Fetch<seq<GatePass>>): (r: Listing)
    ensures r.header == RawBearer(token)
    ensures !r.list.loading && r.list.filter == l.filter
    ensures response.Fetched? ==> r.list.passes == response.data
    ensures response.FetchFailed? ==> r.list.passes == l.passes
  {
    match response
    case Fetched(data) => Listing(l.(passes := data, loading := false), RawBearer(token))
    case FetchFailed(_) => Listing(l.(loading := false), RawBearer(token))
  }

  /**
   * After a fetch the list shows passes of the response only: under each
   * filter, exactly its pending (or approved) passes, and the two views
   * together never hold more passes than were fetched.
   */
  lemma FetchThenShown(l: PassList, token: Option<string>, data: seq<GatePass>)
    ensures var shown := FetchPasses(l, token, Fetched(data)).list;
            (forall p :: p in Shown(shown.passes, shown.filter) <==> p in data && p.status == FilterStatus(l.filter))
            && |Shown(shown.passes, PendingPasses)| + |Shown(shown.passes, ApprovedPasses)| <= |data|
  {
    Lists.FilterLengthIsCount(data, Selected(PendingPasses));
    Lists.FilterLengthIsCount(data, Selected(ApprovedPasses));
    Lists.DisjointPairBounded(data, Selected(PendingPasses), Selected(ApprovedPasses));
  }

  /** The body of `PUT gate-pass/:id`. */
  datatype Decision = Decision(status: string, rejectionReason: string)

  /** What the server records for a pass once a decision is applied. */
  function Apply(p: GatePass, d: Decision): GatePass {
    p.(status := d.status, rejectionReason := Str(d.rejectionReason))
  }

  /** A decision, the header it went out with (none when nothing was sent), and what the screen does. */
  datatype Decided = Decided(sent: Option<Decision>, header: Option<string>, effects: seq<Effect>)

  const Approval: Decision := Decision("approved", "")
  const ApproveFailed: Effect := Alert("❌ Error", "Failed to approve gate pass.")
  const RejectFailed: Effect := Alert("❌ Error", "Failed to reject gate pass.")
  const NoReason: Effect := Alert("⚠️ Warning", "Please provide a reason for rejection.")

  /** `handleApprove`: approve and clear any earlier reason; on success confirm and go back. */
  function Approve(token: Option<string>, outcome: Fetch<()>): (r: Decided)
    ensures r.sent == Some(Approval) && r.header == Some(RawBearer(token))
    ensures outcome.Fetched? ==>
              r.effects == [Alert("✅ Success", "Gate pass approved successfully."), GoBack]
    ensures outcome.FetchFailed? ==> r.effects == [ApproveFailed]
  {
    Decided(Some(Approval), Some(RawBearer(token)),
            if outcome.Fetched? then [Alert("✅ Success", "Gate pass approved successfully."), GoBack]
            else [ApproveFailed])
  }

  /**
   * `handleReject`: a reason that trims to nothing is refused before any
   * request; otherwise the reason is sent as typed.
   */
  function Reject(reason: string, token: Option<string>, outcome: Fetch<()>): (r: Decided)
    ensures r.sent.None? <==> Text.Blank(reason)
    ensures r.sent.None? ==> r.header.None? && r.effects == [NoReason]
    ensures r.sent.Some? ==> r.sent.value == Decision("rejected", reason) && r.header == Some(RawBearer(token))
    ensures r.sent.Some? && outcome.Fetched? ==>
              r.effects == [Alert("🚫 Rejected", "Gate pass rejected successfully."), GoBack]
    ensures r.sent.Some? && outcome.FetchFailed? ==> r.effects == [RejectFailed]
  {
    if Text.Trim(reason) == "" then Decided(None, None, [NoReason])
    else
      Decided(Some(Decision("rejected", reason)), Some(RawBearer(token)),
              if outcome.Fetched? then [Alert("🚫 Rejected", "Gate pass rejected successfully."), GoBack]
              else [RejectFailed])
  }

  /**
   * A rejection that is sent leaves the pass showing its reason, with no
   * actions and in neither list; an approval leaves it listed as approved
   * with no reason panel.
   */
  lemma DecisionsAsShown(p: GatePass, reason: string, token: Option<string>, outcome: Fetch<()>,
                         passes: seq<GatePass>)
    ensures var r := Reject(reason, token, outcome);
            r.sent.Some? ==>
              (var q := Apply(p, r.sent.value);
               RejectionShown(q) && !ActionsShown(q)
               && q !in Shown(passes, PendingPasses) && q !in Shown(passes, ApprovedPasses))
    ensures var q := Apply(p, Approve(token, outcome).sent.value);
            !RejectionShown(q) && !ActionsShown(q) && (q in passes ==> q in Shown(passes, ApprovedPasses))
  {
    var r := Reject(reason, token, outcome);
    if r.sent.Some? {
      var q := Apply(p, r.sent.value);
      assert q.status == "rejected" && q.rejectionReason == Str(reason);
    }
    var q := Apply(p, Approval);
    assert q.status == "approved" && q.rejectionReason == Str("");
  }
}

=== FILE: lists.dfy ===
/**
 * `Array.prototype.filter` and the counting the list screens do with it.
 */
module Lists {

  /** `xs.filter(p)`: the elements satisfying `p`, in their original order. */
  function Filter<T(==,!new)>(xs: seq<T>, p: T -> bool): (r: seq<T>)
    ensures |r| <= |xs|
    ensures forall i | 0 <= i < |r| :: p(r[i])
    ensures forall x :: x in r <==> x in xs && p(x)
  {
    if xs == [] then []
    else if p(xs[0]) then [xs[0]] + Filter(xs[1..], p)
    else Filter(xs[1..], p)
  }

  /** The number of elements of `xs` satisfying `p`, counted one by one. */
  function Count<T>(xs: seq<T>, p: T -> bool): (n: nat)
    ensures n <= |xs|
    ensures n == 0 <==> forall i | 0 <= i < |xs| :: !p(xs[i])
    ensures n == |xs| <==> forall i | 0 <= i < |xs| :: p(xs[i])
  {
    if xs == [] then 0
    else
      assert forall i | 1 <= i < |xs| :: xs[1..][i - 1] == xs[i];
      (if p(xs[0]) then 1 else 0) + Count(xs[1..], p)
  }

  /** `xs.filter(p).length` is the number of elements satisfying `p`. */
  lemma {:induction false} FilterLengthIsCount<T(!new)>(xs: seq<T>, p: T -> bool)
    ensures |Filter(xs, p)| == Count(xs, p)
    decreases |xs|
  {
    if xs != [] {
      FilterLengthIsCount(xs[1..], p);
    }
  }

  /** `r` can be obtained from `xs` by deleting elements (order is kept). */
  ghost predicate IsSubseq<T>(r: seq<T>, xs: seq<T>)
    decreases |xs|
  {
    r == [] ||
    (xs != [] &&
     ((r[0] == xs[0] && IsSubseq(r[1..], xs[1..])) || IsSubseq(r, xs[1..])))
  }

  /** The filtered list keeps the relative order of the original. */
  lemma {:induction false} FilterIsSubseq<T(!new)>(xs: seq<T>, p: T -> bool)
    ensures IsSubseq(Filter(xs, p), xs)
    decreases |xs|
  {
    if xs != [] {
      FilterIsSubseq(xs[1..], p);
    }
  }

  /** A prefix of a subsequence is a subsequence. */
  lemma {:induction false} PrefixIsSubseq<T>(r: seq<T>, xs: seq<T>, n: nat)
    requires IsSubseq(r, xs) && n <= |r|
    ensures IsSubseq(r[..n], xs)
    decreases |xs|
  {
    if n > 0 {
      if r[0] == xs[0] && IsSubseq(r[1..], xs[1..]) {
        PrefixIsSubseq(r[1..], xs[1..], n - 1);
        assert r[..n][1..] == r[1..][..n - 1];
      } else {
        PrefixIsSubseq(r, xs[1..], n);
      }
    }
  }

  /** Elements satisfying `p` are kept with their multiplicity. */
  lemma {:induction false} FilterCountsMatches<T(!new)>(xs: seq<T>, p: T -> bool, x: T)
    requires p(x)
    ensures multiset(Filter(xs, p))[x] == multiset(xs)[x]
    decreases |xs|
  {
    if xs != [] {
      FilterCountsMatches(xs[1..], p, x);
      assert xs == [xs[0]] + xs[1..];
    }
  }

  /** Three mutually exclusive filters together keep at most every element. */
  lemma {:induction false} DisjointCountsBounded<T(!new)>(xs: seq<T>, p: T -> bool, q: T -> bool, r: T -> bool)
    requires forall x :: !(p(x) && q(x)) && !(p(x) && r(x)) && !(q(x) && r(x))
    ensures |Filter(xs, p)| + |Filter(xs, q)| + |Filter(xs, r)| <= |xs|
    decreases |xs|
  {
    if xs != [] {
      DisjointCountsBounded(xs[1..], p, q, r);
    }
  }

  /** Two mutually exclusive filters together keep at most every element. */
  lemma {:induction false} DisjointPairBounded<T(!new)>(xs: seq<T>, p: T -> bool, q: T -> bool)
    requires forall x :: !(p(x) && q(x))
    ensures |Filter(xs, p)| + |Filter(xs, q)| <= |xs|
    decreases |xs|
  {
    if xs != [] {
      DisjointPairBounded(xs[1..], p, q);
    }
  }

  /** `xs.slice(0, n)`. */
  function Take<T>(xs: seq<T>, n: nat): (r: seq<T>)
    ensures |r| == if |xs| < n then |xs| else n
    ensures r == xs[..|r|]
  {
    if |xs| <= n then xs else xs[..n]
  }
}

=== FILE: login.dfy ===
/**
 * The login screen: its schema, the button rule and what it does with the
 * value `login` resolves to.
 */
module LoginScreen {

  import opened Common
  import Forms
  import Session

  datatype LoginForm = LoginForm(email: string, password: string)

  /** The message each field currently fails with, if any. */
  datatype LoginErrors = LoginErrors(email: Option<string>, password: Option<string>)

  /** `loginSchema`: e-mail required and well-formed, password required. */
  function Errors(f: LoginForm): (e: LoginErrors)
    ensures e.email.Some? <==> f.email == "" || !Forms.IsEmail(f.email)
    ensures e.password.Some? <==> f.password == ""
    ensures f.email == "" ==> e.email == Some("Email is required!")
    ensures f.email != "" && !Forms.IsEmail(f.email) ==> e.email == Some("Enter a valid email!")
    ensures f.password == "" ==> e.password == Some("Password is required!")
  {
    LoginErrors(
      Forms.Rule(f.email, "Email is required!", Forms.IsEmail(f.email), "Enter a valid email!"),
      Forms.Require(f.password, "Password is required!"))
  }

  /** The Login button is disabled while either field has an error. */
  predicate ButtonDisabled(e: LoginErrors) {
    e.email.Some? || e.password.Some?
  }

  /**
   * Once Formik has validated the form, the button is enabled exactly for
   * a well-formed e-mail and a non-empty password.
   */
  lemma ButtonEnabledIffValid(f: LoginForm)
    ensures !ButtonDisabled(Errors(f)) <==> Forms.IsEmail(f.email) && f.email != "" && f.password != ""
    ensures !ButtonDisabled(Errors(f)) <==> Errors(f) == LoginErrors(None, None)
  {
  }

  /**
   * The `errors` the button reads: Formik starts from no errors and sets
   * no `validateOnMount`, so they are the schema's only once a change, a
   * blur or a submit has validated the form.
   */
  function ShownErrors(f: LoginForm, validated: bool): (e: LoginErrors)
    ensures validated ==> e == Errors(f)
    ensures !validated ==> !ButtonDisabled(e)
  {
    if validated then Errors(f) else LoginErrors(None, None)
  }

  /**
   * Before validation the button is enabled whatever the form holds (the
   * empty initial form included); after it, exactly the invalid forms
   * disable it.
   */
  lemma FirstRenderEnabled(f: LoginForm)
    ensures !ButtonDisabled(ShownErrors(f, false))
    ensures ButtonDisabled(ShownErrors(f, true)) <==> f.email == "" || !Forms.IsEmail(f.email) || f.password == ""
  {
  }

  const UserDashboard: string := "UserDashboard"
  const AdminDashboard: string := "AdminDashboard"
  const LoginFailed: Effect := Alert("Failure", "Login failed!")

  /**
   * `handleLogin` as written: the role is read off the top level of the
   * resolved body, which is the `{user, token}` envelope rather than the
   * profile inside it.
   */
  function HandleLoginAsWritten(result: Option<Session.LoginBody>): (effects: seq<Effect>)
    ensures result.None? ==> effects == [LoginFailed]
    ensures result.Some? && Field(result.value.fields, "member_type") == Str("student")
            ==> effects == [Navigate(UserDashboard)]
    ensures result.Some? && Field(result.value.fields, "member_type") == Str("academicStaff")
            ==> effects == [Navigate(AdminDashboard)]
    ensures (result.Some? && Field(result.value.fields, "member_type") != Str("student")
             && Field(result.value.fields, "member_type") != Str("academicStaff"))
            ==> effects == []
  {
    match result
    case None => [LoginFailed]
    case Some(body) =>
      var role := Field(body.fields, "member_type");
      if role == Str("student") then [Navigate(UserDashboard)]
      else if role == Str("academicStaff") then [Navigate(AdminDashboard)]
      else []
  }

  /** The profile's role, where `login` stored it: inside `user`. */
  function ProfileRole(body: Session.LoginBody): Value {
    FieldOf(body.user, "member_type")
  }

  /** `handleLogin` reading the role from the returned profile. */
  function HandleLogin(result: Option<Session.LoginBody>): (effects: seq<Effect>)
    ensures |effects| <= 1
    ensures effects == [LoginFailed] <==> result.None?
    ensures effects == [Navigate(UserDashboard)] <==>
              result.Some? && ProfileRole(result.value) == Str("student")
    ensures effects == [Navigate(AdminDashboard)] <==>
              result.Some? && ProfileRole(result.value) == Str("academicStaff")
  {
    match result
    case None => [LoginFailed]
    case Some(body) =>
      var role := ProfileRole(body);
      if role == Str("student") then [Navigate(UserDashboard)]
      else if role == Str("academicStaff") then [Navigate(AdminDashboard)]
      else []
  }

  /**
   * When the envelope carries the role only inside `user` (which is all
   * the session relies on), the dispatch as written sends a student
   * nowhere; reading the profile sends them to the user dashboard.
   */
  lemma AsWrittenIgnoresProfileRole()
    ensures var body := Session.LoginBody(Some(map["member_type" := Str("student")]), Some("t"), map[]);
            HandleLoginAsWritten(Some(body)) == []
            && HandleLogin(Some(body)) == [Navigate(UserDashboard)]
  {
  }

  /**
   * For every complete login the corrected dispatch agrees with the
   * routing the session change itself causes: a student is sent to the
   * user dashboard, an academic staff member to the admin dashboard.
   */
  lemma DispatchFollowsLogin(s: Session.Session, store: Store, outcome: Session.LoginOutcome, codec: Codec<Session.Profile>)
    ensures var r := Session.Login(s, store, outcome, codec);
            (r.returned.None? ==> HandleLogin(r.returned) == [LoginFailed])
            && (r.returned.Some? && FieldOf(r.session.profile, "member_type") == Str("student")
                ==> HandleLogin(r.returned) == [Navigate(UserDashboard)])
            && (r.returned.Some? && FieldOf(r.session.profile, "member_type") == Str("academicStaff")
                ==> HandleLogin(r.returned) == [Navigate(AdminDashboard)])
  {
  }
}

=== FILE: navigation.dfy ===
/**
 * Role routing: the root navigator chosen from the session's token and the
 * profile's `member_type`, and the student navigator's admin-versus-user
 * choice.
 */
module Navigation {

  import opened Common

  const Student: string := "student"
  const AcademicStaff: string := "academicStaff"
  const Admin: string := "admin"

  /** The department-staff member types a sign-up can choose. */
  const DepartmentStaff: seq<string> := ["electricalStaff", "waterStaff", "maintenanceStaff", "securityStaff"]

  function MemberType(profile: Option<Record>): Value {
    FieldOf(profile, "member_type")
  }

  /** What the root navigator renders. */
  datatype Root = AuthStack | UserNav | AppStack | RootNothing

  /** `AppNav`: a null token means signed out; otherwise route on `member_type`. */
  function RootFor(token: Option<string>, profile: Option<Record>): (r: Root)
    ensures r == AuthStack <==> token.None?
    ensures r == UserNav <==> token.Some? && MemberType(profile) == Str(Student)
    ensures r == AppStack <==> token.Some? && MemberType(profile) == Str(AcademicStaff)
    ensures r == RootNothing <==>
              token.Some? && MemberType(profile) != Str(Student) && MemberType(profile) != Str(AcademicStaff)
  {
    if token.None? then AuthStack
    else if MemberType(profile) == Str(Student) then UserNav
    else if MemberType(profile) == Str(AcademicStaff) then AppStack
    else RootNothing
  }

  /** What the student navigator renders. */
  datatype UserRoute = UserNothing | AdminStack | UserStack

  /** `UserNav`: nothing without a profile; the admin stack for "admin"; else the user stack. */
  function UserNavFor(profile: Option<Record>): (r: UserRoute)
    ensures r == UserNothing <==> profile.None?
    ensures r == AdminStack <==> profile.Some? && MemberType(profile) == Str(Admin)
    ensures r == UserStack <==> profile.Some? && MemberType(profile) != Str(Admin)
  {
    if profile.None? then UserNothing
    else if MemberType(profile) == Str(Admin) then AdminStack
    else UserStack
  }

  /** The screens a session finally sees, composing the two navigators. */
  datatype Screens = SignIn | AdminScreens | UserScreens | Blank

  function Destination(token: Option<string>, profile: Option<Record>): (d: Screens)
    ensures d == SignIn <==> token.None?
    ensures d == AdminScreens <==>
              (RootFor(token, profile) == AppStack
               || (RootFor(token, profile) == UserNav && UserNavFor(profile) == AdminStack))
    ensures d == UserScreens <==> RootFor(token, profile) == UserNav && UserNavFor(profile) == UserStack
  {
    match RootFor(token, profile)
    case AuthStack => SignIn
    case AppStack => AdminScreens
    case RootNothing => Blank
    case UserNav =>
      match UserNavFor(profile)
      case UserNothing => Blank
      case AdminStack => AdminScreens
      case UserStack => UserScreens
  }

  /**
   * A signed-in student always reaches the user screens: the student
   * navigator's admin branch is unreachable from the root, since
   * "student" is not "admin".
   */
  lemma StudentReachesUserScreens(token: string, profile: Record)
    requires Field(profile, "member_type") == Str(Student)
    ensures Destination(Some(token), Some(profile)) == UserScreens
  {
    assert UserNavFor(Some(profile)) == UserStack;
  }

  /** The admin stack inside the student navigator is never reached from the root. */
  lemma AdminBranchUnreachable(token: Option<string>, profile: Option<Record>)
    ensures !(RootFor(token, profile) == UserNav && UserNavFor(profile) == AdminStack)
  {
  }

  /** Department staff are signed in but routed nowhere: the screen is blank. */
  lemma DepartmentStaffSeeBlank(token: string, profile: Record, i: nat)
    requires i < |DepartmentStaff|
    requires Field(profile, "member_type") == Str(DepartmentStaff[i])
    ensures Destination(Some(token), Some(profile)) == Blank
  {
    assert DepartmentStaff[i] != Student && DepartmentStaff[i] != AcademicStaff;
  }

  /** An empty token is still a token: it is routed by role, not to sign-in. */
  lemma EmptyTokenIsSignedIn(profile: Option<Record>)
    ensures Destination(Some(""), profile) != SignIn
  {
  }
}

=== FILE: new_announcement.dfy ===
/**
 * The administrator's announcement form: the schema, the image field
 * filled from the picker, and the multipart request.
 */
module NewAnnouncement {

  import opened Common
  import Forms
  import Uploads

  /** The form values; `image` holds the picked URI, or "" for none. */
  datatype AnnouncementForm = AnnouncementForm(title: string, description: string, image: string)

  const InitialValues: AnnouncementForm := AnnouncementForm("", "", "")

  datatype AnnouncementErrors = AnnouncementErrors(title: Option<string>, description: Option<string>)

  /** `addAnnouncementSchema`: title and description are required; the image is free. */
  function Errors(f: AnnouncementForm): (e: AnnouncementErrors)
    ensures e.title.Some? <==> f.title == ""
    ensures e.description.Some? <==> f.description == ""
    ensures e.title.Some? ==> e.title.value == "Title is required"
    ensures e.description.Some? ==> e.description.value == "Description is required"
  {
    AnnouncementErrors(
      Forms.Require(f.title, "Title is required"),
      Forms.Require(f.description, "Description is required"))
  }

  /** Whatever image is picked or cleared, the errors stay the same. */
  lemma ImageNeverFails(f: AnnouncementForm, image: string)
    ensures Errors(f.(image := image)) == Errors(f)
  {
  }

  const PickFailed: Effect := Alert("Error", "Failed to select image. Please try again.")

  /** The form after a pick and what the screen shows. */
  datatype Picked = Picked(form: AnnouncementForm, effects: seq<Effect>)

  /**
   * `handleUploadImage`: a cancelled pick changes nothing; otherwise the
   * first asset's URI fills `image`. A picker that throws, or a result
   * with no asset (reading `assets[0]` throws), is caught and alerted.
   */
  function UploadImage(f: AnnouncementForm, result: Fetch<Uploads.PickResult>): (r: Picked)
    ensures result == Fetched(Uploads.Cancelled) ==> r == Picked(f, [])
    ensures result.Fetched? && result.data.Picked? && |result.data.assets| > 0 ==>
              r == Picked(f.(image := result.data.assets[0].uri), [])
    ensures r.effects == [PickFailed] <==>
              result.FetchFailed? || (result.data.Picked? && |result.data.assets| == 0)
    ensures r.effects != [] ==> r.form == f
  {
    match result
    case FetchFailed(_) => Picked(f, [PickFailed])
    case Fetched(Cancelled) => Picked(f, [])
    case Fetched(Picked(assets)) =>
      if |assets| > 0 then Picked(f.(image := assets[0].uri), []) else Picked(f, [PickFailed])
  }

  const NoToken: Effect := Alert("Error", "Authentication required. Please log in again.")
  const Added: Effect := Alert("Success", "Announcement added successfully!")
  const AddFailed: Effect := Alert("Error", "Failed to add announcement. Please try again.")

  /** The text parts, in the order the form appends them. */
  function TextParts(f: AnnouncementForm): (ps: seq<Uploads.Part>)
    ensures Uploads.Keys(ps) == ["title", "description"]
  {
    [Uploads.TextPart("title", f.title), Uploads.TextPart("description", f.description)]
  }

  /**
   * `handleAddAnnouncement`: without a token alert and send nothing;
   * otherwise post title and description, plus the image when the field
   * is non-empty, under the normalised `Bearer` header.
   */
  function Submit(f: AnnouncementForm, token: Option<string>, outcome: Fetch<int>): (r: Uploads.Posted)
    ensures r.parts.None? <==> !Present(token)
    ensures !Present(token) ==> r == Uploads.Refused(NoToken)
    ensures Present(token) ==> r.header == Some(Bearer(token.value))
    ensures Present(token) && f.image == "" ==> r.parts == Some(TextParts(f))
    ensures Present(token) && f.image != "" ==>
              r.parts == Some(TextParts(f) + [Uploads.ImagePart(f.image)])
    ensures Present(token) ==> r.effects == Uploads.OnCreated(outcome, Added, AddFailed)
  {
    if !Present(token) then Uploads.Refused(NoToken)
    else
      Uploads.Posted(Some(Uploads.WithImage(TextParts(f), Some(f.image))), Some(Bearer(token.value)),
                     Uploads.OnCreated(outcome, Added, AddFailed))
  }

  /**
   * A picked image reaches the request: after a successful pick the
   * submission carries the asset's URI as its last part, named after the
   * URI's last path segment.
   */
  lemma PickedImageSent(f: AnnouncementForm, assets: seq<Uploads.Asset>, token: Option<string>, outcome: Fetch<int>)
    requires |assets| > 0 && assets[0].uri != "" && Present(token)
    ensures var g := UploadImage(f, Fetched(Uploads.Picked(assets))).form;
            var ps := Submit(g, token, outcome).parts.value;
            |ps| == 3 && ps[2].FilePart? && ps[2].uri == assets[0].uri
            && ps[2].name == Uploads.ImageName(assets[0].uri)
  {
  }
}

=== FILE: new_complaint.dfy ===
/**
 * The student's new-complaint form: the category choices, the schema, the
 * image selection and the multipart request.
 */
module NewComplaint {

  import opened Common
  import Forms
  import Uploads

  /** One entry of the category dropdown. */
  datatype Choice = Choice(caption: string, value: string)

  const Categories: seq<Choice> := [
    Choice("Electrical", "electrical"),
    Choice("Water", "water"),
    Choice("Maintenance", "maintenance"),
    Choice("Security", "security")
  ]

  /** The categories the dropdown offers. */
  predicate Offered(category: string) {
    exists i | 0 <= i < |Categories| :: Categories[i].value == category
  }

  /** The dropdown offers exactly the four service departments. */
  lemma OfferedCategories(category: string)
    ensures Offered(category) <==> category in {"electrical", "water", "maintenance", "security"}
  {
    if category in {"electrical", "water", "maintenance", "security"} {
      var i := if category == "electrical" then 0 else if category == "water" then 1
               else if category == "maintenance" then 2 else 3;
      assert Categories[i].value == category;
    }
  }

  datatype ComplaintForm = ComplaintForm(category: string, title: string, description: string)

  const InitialValues: ComplaintForm := ComplaintForm("", "", "")

  datatype ComplaintErrors = ComplaintErrors(category: Option<string>, title: Option<string>, description: Option<string>)

  /** `addNewComplainSchema`: the three fields are required. */
  function Errors(f: ComplaintForm): (e: ComplaintErrors)
    ensures e.category.Some? <==> f.category == ""
    ensures e.title.Some? <==> f.title == ""
    ensures e.description.Some? <==> f.description == ""
    ensures e.category.Some? ==> e.category.value == "Category is required!"
    ensures e.title.Some? ==> e.title.value == "Title is required!"
    ensures e.description.Some? ==> e.description.value == "Description is required!"
  {
    ComplaintErrors(
      Forms.Require(f.category, "Category is required!"),
      Forms.Require(f.title, "Title is required!"),
      Forms.Require(f.description, "Description is required!"))
  }

  /**
   * The form passes exactly when all three fields are filled in, so the
   * initial empty form fails on every field.
   */
  lemma PassesIffFilled(f: ComplaintForm)
    ensures Errors(f) == ComplaintErrors(None, None, None) <==> f.category != "" && f.title != "" && f.description != ""
    ensures var e := Errors(InitialValues); e.category.Some? && e.title.Some? && e.description.Some?
  {
  }

  /**
   * `pickImage`: a cancelled pick leaves the selection as it was, otherwise
   * the first asset's URI is selected.
   */
  function PickImage(selected: Option<string>, result: Uploads.PickResult): (r: Option<string>)
    ensures result.Cancelled? ==> r == selected
    ensures result.Picked? && |result.assets| > 0 ==> r == Some(result.assets[0].uri)
  {
    var current := if selected.Some? then Some(Uploads.Asset(selected.value, "")) else None;
    match Uploads.Pick(current, result)
    case None => None
    case Some(a) => Some(a.uri)
  }

  /** `removeImage`. */
  function RemoveImage(selected: Option<string>): (r: Option<string>)
    ensures r.None?
  {
    None
  }

  /** After a removal nothing is attached to the next submission, whatever was selected before. */
  lemma RemovedImageNotSent(selected: Option<string>, parts: seq<Uploads.Part>)
    ensures Uploads.WithImage(parts, RemoveImage(selected)) == parts
  {
  }

  /** The text parts, in the order the form appends them. */
  function TextParts(f: ComplaintForm): (ps: seq<Uploads.Part>)
    ensures Uploads.Keys(ps) == ["category", "title", "description"]
  {
    [Uploads.TextPart("category", f.category), Uploads.TextPart("title", f.title),
     Uploads.TextPart("description", f.description)]
  }

  const NoToken: Effect := Alert("Authentication Error", "No token found, please login again!")
  const Submitted: Effect := Alert("Success", "Complaint submitted successfully!")
  const SubmitFailed: Effect := Alert("Error", "Failed to submit complaint. Please try again.")

  /**
   * `handleAddNewComplain`: without a token alert and send nothing;
   * otherwise post the three fields, plus the image when one is selected,
   * under the normalised `Bearer` header.
   */
  function Submit(f: ComplaintForm, selected: Option<string>, token: Option<string>, outcome: Fetch<int>)
    : (r: Uploads.Posted)
    ensures r.parts.None? <==> !Present(token)
    ensures !Present(token) ==> r == Uploads.Refused(NoToken)
    ensures Present(token) ==> r.header == Some(Bearer(token.value))
    ensures Present(token) && !Present(selected) ==> r.parts == Some(TextParts(f))
    ensures Present(token) && Present(selected) ==>
              r.parts == Some(TextParts(f) + [Uploads.ImagePart(selected.value)])
    ensures Present(token) ==> r.effects == Uploads.OnCreated(outcome, Submitted, SubmitFailed)
  {
    if !Present(token) then Uploads.Refused(NoToken)
    else
      Uploads.Posted(Some(Uploads.WithImage(TextParts(f), selected)), Some(Bearer(token.value)),
                     Uploads.OnCreated(outcome, Submitted, SubmitFailed))
  }

  /**
   * What the server receives reads back as the form: each field under its
   * own name, whether or not an image rides along, and the image (when
   * sent) is the last part.
   */
  lemma SentFormReadsBack(f: ComplaintForm, selected: Option<string>, token: Option<string>, outcome: Fetch<int>)
    requires Present(token)
    ensures var ps := Submit(f, selected, token, outcome).parts.value;
            Uploads.ValueOf(ps, "category") == Some(f.category)
            && Uploads.ValueOf(ps, "title") == Some(f.title)
            && Uploads.ValueOf(ps, "description") == Some(f.description)
            && Uploads.ValueOf(ps, "image") == None
    ensures Present(selected) ==>
              Uploads.Keys(Submit(f, selected, token, outcome).parts.value)
              == ["category", "title", "description", "image"]
  {
    SubmitSendsWithImage(f, selected, token, outcome);
    WithImageReadsBack(f, selected);
  }

  lemma SubmitSendsWithImage(f: ComplaintForm, selected: Option<string>, token: Option<string>, outcome: Fetch<int>)
    requires Present(token)
    ensures Submit(f, selected, token, outcome).parts == Some(Uploads.WithImage(TextParts(f), selected))
  {
  }

  /** The text parts, with the selected image appended or not, read back as the form. */
  lemma WithImageReadsBack(f: ComplaintForm, selected: Option<string>)
    ensures var ps := Uploads.WithImage(TextParts(f), selected);
            Uploads.ValueOf(ps, "category") == Some(f.category)
            && Uploads.ValueOf(ps, "title") == Some(f.title)
            && Uploads.ValueOf(ps, "description") == Some(f.description)
            && Uploads.ValueOf(ps, "image") == None
    ensures Present(selected) ==>
              Uploads.Keys(Uploads.WithImage(TextParts(f), selected)) == ["category", "title", "description", "image"]
  {
    var tp := TextParts(f);
    TextPartsReadBack(f);
    Uploads.ImageKeepsTextValues(tp, selected, "category");
    Uploads.ImageKeepsTextValues(tp, selected, "title");
    Uploads.ImageKeepsTextValues(tp, selected, "description");
    Uploads.ImageKeepsTextValues(tp, selected, "image");
    assert Uploads.Keys(tp) + ["image"] == ["category", "title", "description", "image"];
  }

  lemma TextPartsReadBack(f: ComplaintForm)
    ensures var ps := TextParts(f);
            Uploads.ValueOf(ps, "category") == Some(f.category)
            && Uploads.ValueOf(ps, "title") == Some(f.title)
            && Uploads.ValueOf(ps, "description") == Some(f.description)
            && Uploads.ValueOf(ps, "image") == None
  {
    var ps := TextParts(f);
    Uploads.ValueAt(ps, "category", 0);
    Uploads.ValueAt(ps, "title", 1);
    Uploads.ValueAt(ps, "description", 2);
    Uploads.ValueAbsent(ps, "image");
  }
}

=== FILE: payment_receipts.dfy ===
/**
 * Payment receipts: the student's upload form (schema, file pick, the
 * guards before the request and the multipart body) and the
 * administrator's receipt view (status colour, accept/decline, and the
 * PDF preview with its fallback).
 *
 * The screens report through the global `alert(message)`, which React
 * Native shows as an alert titled "Alert".
 */
module PaymentReceipts {

  import opened Common
  import Text
  import Forms
  import Session
  import Uploads

  /** The categories the picker offers. */
  const Categories: seq<string> := ["Hostel Fees 8th Sem", "Hostel Fees 7th Sem", "Hostel Fees 6th Sem"]

  /** The form values; `receipt` is a form field the screen never fills or sends. */
  datatype ReceiptForm = ReceiptForm(
    category: string,
    enrollmentNo: string,
    idNumber: string,
    challanNo: string,
    amount: string,
    receipt: string)

  /** `/^\d{5}$/`. */
  predicate FiveDigits(s: string) {
    |s| == 5 && Text.AllDigits(s)
  }

  datatype ReceiptErrors = ReceiptErrors(
    category: Option<string>,
    enrollmentNo: Option<string>,
    idNumber: Option<string>,
    challanNo: Option<string>,
    amount: Option<string>)

  const NoErrors: ReceiptErrors := ReceiptErrors(None, None, None, None, None)

  /** `addPaymentReceiptSchema`: five required fields, the ID number exactly five digits. */
  function Errors(f: ReceiptForm): (e: ReceiptErrors)
    ensures e.category.Some? <==> f.category == ""
    ensures e.enrollmentNo.Some? <==> f.enrollmentNo == ""
    ensures e.idNumber.Some? <==> !FiveDigits(f.idNumber)
    ensures e.challanNo.Some? <==> f.challanNo == ""
    ensures e.amount.Some? <==> f.amount == ""
    ensures f.idNumber != "" && !FiveDigits(f.idNumber) ==> e.idNumber == Some("ID Number must be 5 digits")
    ensures e == NoErrors <==>
              f.category != "" && f.enrollmentNo != "" && FiveDigits(f.idNumber)
              && f.challanNo != "" && f.amount != ""
  {
    ReceiptErrors(
      Forms.Require(f.category, "Category is required!"),
      Forms.Require(f.enrollmentNo, "Enrollment number is required!"),
      Forms.Rule(f.idNumber, "ID Number is required!", FiveDigits(f.idNumber), "ID Number must be 5 digits"),
      Forms.Require(f.challanNo, "Challan number is required!"),
      Forms.Require(f.amount, "Amount is required!"))
  }

  /** An ID number passes exactly when it is the five-digit text of a number below 100000. */
  lemma FiveDigitIds(n: nat)
    ensures 10000 <= n < 100000 ==> Errors(ReceiptForm("c", "e", Text.NatToString(n), "x", "1", "")).idNumber.None?
  {
    if 10000 <= n < 100000 {
      NatToStringLength(n);
    }
  }

  /** Numbers with five digits are written with five characters. */
  lemma {:induction false} NatToStringLength(n: nat)
    ensures 10000 <= n < 100000 ==> |Text.NatToString(n)| == 5
    ensures 1000 <= n < 10000 ==> |Text.NatToString(n)| == 4
    ensures 100 <= n < 1000 ==> |Text.NatToString(n)| == 3
    ensures 10 <= n < 100 ==> |Text.NatToString(n)| == 2
    ensures n < 10 ==> |Text.NatToString(n)| == 1
  {
    if n >= 10 {
      NatToStringLength(n / 10);
    }
  }

  const PickFailed: Effect := Alert("Alert", "Failed to select file. Please try again.")

  /** The file after a pick and what the screen shows. */
  datatype FilePick = FilePick(file: Option<Uploads.Asset>, effects: seq<Effect>)

  /**
   * `handleUploadFile`: a cancelled pick or one with no asset keeps the
   * previous file, otherwise the first asset becomes the file; a picker
   * that throws is alerted and keeps the file too.
   */
  function PickFile(file: Option<Uploads.Asset>, result: Fetch<Uploads.PickResult>): (r: FilePick)
    ensures result.FetchFailed? ==> r == FilePick(file, [PickFailed])
    ensures result.Fetched? ==> r.effects == []
    ensures result.Fetched? && result.data.Picked? && |result.data.assets| > 0 ==>
              r.file == Some(result.data.assets[0])
    ensures !(result.Fetched? && result.data.Picked? && |result.data.assets| > 0) ==> r.file == file
  {
    match result
    case FetchFailed(_) => FilePick(file, [PickFailed])
    case Fetched(pick) => FilePick(Uploads.Pick(file, pick), [])
  }

  /**
   * `storedUserInfo ? JSON.parse(storedUserInfo) : null`: an absent or
   * empty entry is null; None stands for a parse that throws.
   */
  function ParseStored(stored: Option<string>, codec: Codec<Session.Profile>): (r: Option<Option<Session.Profile>>)
    ensures !Present(stored) ==> r == Some(None)
    ensures Present(stored) ==> (r.None? <==> codec.decode(stored.value).None?)
    ensures Present(stored) && r.Some? ==> r.value == codec.decode(stored.value)
  {
    if !Present(stored) then Some(None)
    else match codec.decode(stored.value)
      case None => None
      case Some(p) => Some(Some(p))
  }

  /** What login stored reads back as the same profile. */
  lemma StoredProfileReadsBack(codec: Codec<Session.Profile>, p: Session.Profile)
    requires Lawful(codec)
    ensures ParseStored(Some(codec.encode(p)), codec) == Some(Some(p))
  {
    assert codec.encode(p) != "" && codec.decode(codec.encode(p)) == Some(p);
  }

  /** `parsedUserInfo?._id || parsedUserInfo?.id`. */
  function UserId(profile: Option<Session.Profile>): (id: Value)
    ensures Truthy(FieldOf(profile, "_id")) ==> id == FieldOf(profile, "_id")
    ensures !Truthy(FieldOf(profile, "_id")) ==> id == FieldOf(profile, "id")
    ensures Truthy(id) <==> Truthy(FieldOf(profile, "_id")) || Truthy(FieldOf(profile, "id"))
  {
    var primary := FieldOf(profile, "_id");
    if Truthy(primary) then primary else FieldOf(profile, "id")
  }

  const NoToken: Effect := Alert("Alert", "Authentication required. Please log in again.")
  const NoUser: Effect := Alert("Alert", "User information is missing.")
  const NoFile: Effect := Alert("Alert", "Please select a PDF file before submitting.")
  const Submitted: Effect := Alert("Alert", "Payment receipt submitted successfully!")
  const SubmitFailed: Effect := Alert("Alert", "Failed to submit payment receipt. Please try again.")

  /** The field names of the request body, in the order they are appended. */
  const SentKeys: seq<string> :=
    ["name", "category", "enrollment_number", "id_number", "challan_number", "amount", "user", "receipt"]

  /** The body: the name from the signed-in profile, the form under snake_case names, the user id, the PDF. */
  function Body(f: ReceiptForm, profile: Session.Profile, userId: Value, file: Uploads.Asset): (ps: seq<Uploads.Part>)
    ensures |ps| == 8 && Uploads.Keys(ps) == SentKeys
    ensures ps[7] == Uploads.FilePart("receipt", file.uri, file.name, "application/pdf")
  {
    [Uploads.TextPart("name", Text.Show(Field(profile, "full_name"))),
     Uploads.TextPart("category", f.category),
     Uploads.TextPart("enrollment_number", f.enrollmentNo),
     Uploads.TextPart("id_number", f.idNumber),
     Uploads.TextPart("challan_number", f.challanNo),
     Uploads.TextPart("amount", f.amount),
     Uploads.TextPart("user", Text.Show(userId)),
     Uploads.FilePart("receipt", file.uri, file.name, "application/pdf")]
  }

  /**
   * `handleAddPaymentReceipt`. The stored profile is parsed first (a
   * parse that throws is caught as a failure), then the guards run in
   * order: token, user id, file. Reading the name off a signed-out
   * context throws and is caught the same way. The header is the raw
   * `Bearer ${token}`; any response counts as success.
   */
  function Submit(f: ReceiptForm, token: Option<string>, stored: Option<string>, codec: Codec<Session.Profile>,
                  signedIn: Option<Session.Profile>, file: Option<Uploads.Asset>, outcome: Fetch<()>)
    : (r: Uploads.Posted)
    ensures r.parts.Some? <==>
              ParseStored(stored, codec).Some? && Present(token)
              && Truthy(UserId(ParseStored(stored, codec).value)) && file.Some? && signedIn.Some?
    ensures ParseStored(stored, codec).None? ==> r == Uploads.Refused(SubmitFailed)
    ensures ParseStored(stored, codec).Some? && !Present(token) ==> r == Uploads.Refused(NoToken)
    ensures (ParseStored(stored, codec).Some? && Present(token)
             && !Truthy(UserId(ParseStored(stored, codec).value))) ==> r == Uploads.Refused(NoUser)
    ensures (ParseStored(stored, codec).Some? && Present(token)
             && Truthy(UserId(ParseStored(stored, codec).value)) && file.None?) ==> r == Uploads.Refused(NoFile)
    ensures (ParseStored(stored, codec).Some? && Present(token)
             && Truthy(UserId(ParseStored(stored, codec).value)) && file.Some? && signedIn.None?)
              ==> r == Uploads.Refused(SubmitFailed)
    ensures r.parts.Some? ==>
              r.parts.value == Body(f, signedIn.value, UserId(ParseStored(stored, codec).value), file.value)
              && r.header == Some(BearerPrefix + token.value)
              && r.effects == (if outcome.Fetched? then [Submitted, GoBack] else [SubmitFailed])
    ensures GoBack in r.effects ==> r.parts.Some? && outcome.Fetched?
  {
    match ParseStored(stored, codec)
    case None => Uploads.Refused(SubmitFailed)
    case Some(parsed) =>
      var userId := UserId(parsed);
      if !Present(token) then Uploads.Refused(NoToken)
      else if !Truthy(userId) then Uploads.Refused(NoUser)
      else if file.None? then Uploads.Refused(NoFile)
      else if signedIn.None? then Uploads.Refused(SubmitFailed)
      else
        Uploads.Posted(Some(Body(f, signedIn.value, userId, file.value)), Some(RawBearer(token)),
                       if outcome.Fetched? then [Submitted, GoBack] else [SubmitFailed])
  }

  /**
   * The body reads back as the form: every schema field under its
   * snake_case name, the user id beside them, the unused `receipt` field
   * nowhere.
   */
  lemma BodyReadsBack(f: ReceiptForm, profile: Session.Profile, userId: Value, file: Uploads.Asset)
    ensures Uploads.ValueOf(Body(f, profile, userId, file), "category") == Some(f.category)
    ensures Uploads.ValueOf(Body(f, profile, userId, file), "enrollment_number") == Some(f.enrollmentNo)
    ensures Uploads.ValueOf(Body(f, profile, userId, file), "id_number") == Some(f.idNumber)
    ensures Uploads.ValueOf(Body(f, profile, userId, file), "challan_number") == Some(f.challanNo)
    ensures Uploads.ValueOf(Body(f, profile, userId, file), "amount") == Some(f.amount)
    ensures Uploads.ValueOf(Body(f, profile, userId, file), "user") == Some(Text.Show(userId))
    ensures Uploads.ValueOf(Body(f, profile, userId, file), "receipt") == None
  {
    var ps := Body(f, profile, userId, file);
    Uploads.ValueAt(ps, "category", 1);
    Uploads.ValueAt(ps, "enrollment_number", 2);
    Uploads.ValueAt(ps, "id_number", 3);
    Uploads.ValueAt(ps, "challan_number", 4);
    Uploads.ValueAt(ps, "amount", 5);
    Uploads.ValueAt(ps, "user", 6);
    Uploads.ValueAbsent(ps, "receipt");
  }

  /**
   * A student whose login stored a profile with an `_id` gets past the
   * user guard, and the request names that `_id` as the user; the form's
   * own `receipt` field never changes what is sent.
   */
  lemma SignedInStudentIdentified(f: ReceiptForm, token: string, codec: Codec<Session.Profile>,
                                  profile: Session.Profile, file: Uploads.Asset, outcome: Fetch<()>, other: string)
    requires Lawful(codec) && token != "" && Truthy(Field(profile, "_id"))
    ensures var r := Submit(f, Some(token), Some(codec.encode(profile)), codec, Some(profile), Some(file), outcome);
            r.parts.Some? && Uploads.ValueOf(r.parts.value, "user") == Some(Text.Show(Field(profile, "_id")))
    ensures Submit(f.(receipt := other), Some(token), Some(codec.encode(profile)), codec, Some(profile), Some(file), outcome)
            == Submit(f, Some(token), Some(codec.encode(profile)), codec, Some(profile), Some(file), outcome)
  {
    StoredProfileReadsBack(codec, profile);
    BodyReadsBack(f, profile, Field(profile, "_id"), file);
  }

  // ---------------------------------------------------------------------
  // The administrator's view of one receipt.

  /** The palette entries the status is drawn in, kept as their names. */
  const YellowDark: string := "yellowDark"
  const DarkGreen: string := "darkGreen"
  const DarkRed: string := "darkRed"

  /** Pending is yellow, accepted green, and anything else red. */
  function StatusColor(status: string): (color: string)
    ensures color == YellowDark <==> status == "pending"
    ensures color == DarkGreen <==> status == "accepted"
    ensures color == DarkRed <==> status != "pending" && status != "accepted"
  {
    if status == "pending" then YellowDark
    else if status == "accepted" then DarkGreen
    else DarkRed
  }

  /** The Accept and Decline buttons: only for a pending receipt. */
  predicate ActionsShown(status: string) {
    status == "pending"
  }

  /** The two buttons and the status each sends. */
  datatype ReceiptAction = Accept | Decline

  function ActionStatus(a: ReceiptAction): (status: string)
    ensures a.Accept? ==> status == "accepted"
    ensures a.Decline? ==> status == "declined"
  {
    match a
    case Accept => "accepted"
    case Decline => "declined"
  }

  const UpdateFailed: Effect := Alert("Alert", "Failed to update receipt status. Please try again.")

  /** The request `PUT payment-receipts/:id` with `{status}`, and what the screen does. */
  datatype StatusUpdate = StatusUpdate(id: string, status: string, header: string, effects: seq<Effect>, loading: bool)

  /**
   * `handleStatusUpdate`: send the button's status for this receipt under
   * the raw `Bearer ${token}` header; on success announce the new status
   * and go back, on failure alert; loading ends false either way.
   */
  function UpdateStatus(id: string, a: ReceiptAction, token: Option<string>, outcome: Fetch<()>): (r: StatusUpdate)
    ensures r.id == id && r.status == ActionStatus(a) && r.header == RawBearer(token)
    ensures !r.loading
    ensures outcome.Fetched? ==> r.effects == [Alert("Alert", "Receipt " + ActionStatus(a) + "!"), GoBack]
    ensures outcome.FetchFailed? ==> r.effects == [UpdateFailed]
  {
    var status := ActionStatus(a);
    StatusUpdate(id, status, RawBearer(token),
                 if outcome.Fetched? then [Alert("Alert", "Receipt " + status + "!"), GoBack] else [UpdateFailed],
                 false)
  }

  /**
   * A decided receipt offers no more actions: accepted shows green,
   * declined red, and only a pending receipt is yellow.
   */
  lemma DecisionsFinal(id: string, a: ReceiptAction, token: Option<string>, outcome: Fetch<()>)
    ensures var s := UpdateStatus(id, a, token, outcome).status;
            !ActionsShown(s) && StatusColor(s) == (if a.Accept? then DarkGreen else DarkRed)
    ensures forall status :: ActionsShown(status) <==> StatusColor(status) == YellowDark
  {
  }

  /** The preview dialog: whether it is open, and whether the embedded PDF failed to load. */
  datatype Preview = Preview(visible: bool, pdfFailed: bool)

  const InitialPreview: Preview := Preview(false, false)

  /** The preview's events: the View Receipt button, Close or dismiss, and the web view's load error. */
  datatype PreviewEvent = ViewReceipt | CloseDialog | LoadError

  /** The embedded viewer is mounted while the dialog is open and no load has failed. */
  predicate ViewerShown(p: Preview) {
    p.visible && !p.pdfFailed
  }

  /** "Open in Browser" is offered once a load has failed. */
  predicate OpenInBrowserShown(p: Preview) {
    p.visible && p.pdfFailed
  }

  /** A load error can only come from a mounted viewer, and nothing resets it. */
  function Step(p: Preview, e: PreviewEvent): (q: Preview)
    ensures p.pdfFailed ==> q.pdfFailed
    ensures q.pdfFailed && !p.pdfFailed ==> e == LoadError && ViewerShown(p)
    ensures e == ViewReceipt ==> q.visible
    ensures e == CloseDialog ==> !q.visible
  {
    match e
    case ViewReceipt => p.(visible := true)
    case CloseDialog => p.(visible := false)
    case LoadError => if ViewerShown(p) then p.(pdfFailed := true) else p
  }

  function Run(p: Preview, events: seq<PreviewEvent>): Preview
    decreases |events|
  {
    if events == [] then p else Run(Step(p, events[0]), events[1..])
  }

  /**
   * Starting from a closed dialog, "Open in Browser" is offered only after
   * a load error, and once a load has failed every reopening shows the
   * fallback instead of the viewer.
   */
  lemma {:induction false} FallbackOnlyAfterError(p: Preview, events: seq<PreviewEvent>)
    ensures Run(p, events).pdfFailed ==> p.pdfFailed || LoadError in events
    ensures p.pdfFailed ==> Run(p, events).pdfFailed && !ViewerShown(Run(p, events))
    decreases |events|
  {
    if events != [] {
      FallbackOnlyAfterError(Step(p, events[0]), events[1..]);
      assert events == [events[0]] + events[1..];
    }
  }

  /** From the first render, the fallback button implies a load error happened. */
  lemma OpenInBrowserNeedsError(events: seq<PreviewEvent>)
    ensures OpenInBrowserShown(Run(InitialPreview, events)) ==> LoadError in events
    ensures !(ViewerShown(Run(InitialPreview, events)) && OpenInBrowserShown(Run(InitialPreview, events)))
  {
    FallbackOnlyAfterError(InitialPreview, events);
  }
}

=== FILE: request_gate_pass.dfy ===
/**
 * The student's gate pass request: the form prefilled from the profile,
 * which fields stay editable, the schema, and the request body built from
 * the form.
 */
module RequestGatePass {

  import opened Common
  import Text
  import Forms
  import Session
  import GatePasses

  /** The form values; the departure date is a calendar day, absent once cleared. */
  datatype GateForm = GateForm(
    name: string,
    enrollmentNo: string,
    idNumber: string,
    hostelBlock: string,
    roomNo: string,
    departure: Option<int>,
    laptopMake: string,
    laptopQuantity: string,
    baggage: string)

  /** `userInfo?.key || ""`, as text. */
  function Prefill(profile: Option<Session.Profile>, key: string): (r: string)
    ensures Truthy(FieldOf(profile, key)) ==> r == Text.Show(FieldOf(profile, key))
    ensures !Truthy(FieldOf(profile, key)) ==> r == ""
  {
    var v := FieldOf(profile, key);
    if Truthy(v) then Text.Show(v) else ""
  }

  /** `initialValues`: identity fields from the profile, today's date, the rest empty. */
  function InitialValues(profile: Option<Session.Profile>, today: int): (f: GateForm)
    ensures f.name == Prefill(profile, "full_name") && f.enrollmentNo == Prefill(profile, "enrollment_no")
    ensures f.idNumber == Prefill(profile, "id_number") && f.hostelBlock == Prefill(profile, "hostel_no")
    ensures f.roomNo == Prefill(profile, "room_no")
    ensures f.departure == Some(today)
    ensures f.laptopMake == "" && f.laptopQuantity == "" && f.baggage == ""
  {
    GateForm(
      Prefill(profile, "full_name"), Prefill(profile, "enrollment_no"), Prefill(profile, "id_number"),
      Prefill(profile, "hostel_no"), Prefill(profile, "room_no"),
      Some(today), "", "", "")
  }

  /** `editable={!userInfo?.key}`. */
  predicate Editable(profile: Option<Session.Profile>, key: string) {
    !Truthy(FieldOf(profile, key))
  }

  /**
   * An identity field is read-only exactly when the profile supplies it,
   * and then it holds the profile's value; an editable one starts empty.
   * A numeric room number is prefilled as its decimal text.
   */
  lemma ReadOnlyIffSupplied(profile: Option<Session.Profile>, today: int)
    ensures var f := InitialValues(profile, today);
            (Editable(profile, "full_name") <==> f.name == "")
            && (Editable(profile, "enrollment_no") <==> f.enrollmentNo == "")
            && (Editable(profile, "id_number") <==> f.idNumber == "")
            && (Editable(profile, "hostel_no") <==> f.hostelBlock == "")
            && (Editable(profile, "room_no") <==> f.roomNo == "")
    ensures !Editable(profile, "full_name") ==> InitialValues(profile, today).name == Text.Show(FieldOf(profile, "full_name"))
    ensures !Editable(profile, "enrollment_no") ==>
              InitialValues(profile, today).enrollmentNo == Text.Show(FieldOf(profile, "enrollment_no"))
    ensures !Editable(profile, "id_number") ==> InitialValues(profile, today).idNumber == Text.Show(FieldOf(profile, "id_number"))
    ensures !Editable(profile, "hostel_no") ==> InitialValues(profile, today).hostelBlock == Text.Show(FieldOf(profile, "hostel_no"))
    ensures !Editable(profile, "room_no") ==> InitialValues(profile, today).roomNo == Text.Show(FieldOf(profile, "room_no"))
    ensures FieldOf(profile, "room_no").Num? && FieldOf(profile, "room_no").n != 0 ==>
              InitialValues(profile, today).roomNo == Text.IntToString(FieldOf(profile, "room_no").n)
  {
    PrefillEmptyIffEditable(profile, "full_name");
    PrefillEmptyIffEditable(profile, "enrollment_no");
    PrefillEmptyIffEditable(profile, "id_number");
    PrefillEmptyIffEditable(profile, "hostel_no");
    PrefillEmptyIffEditable(profile, "room_no");
  }

  /** A field starts empty exactly when it is editable: the text of a truthy value is never empty. */
  lemma PrefillEmptyIffEditable(profile: Option<Session.Profile>, key: string)
    ensures Editable(profile, key) <==> Prefill(profile, key) == ""
  {
  }

  /** `Yup.number().min(1)` on the quantity text: empty (left out), or a whole number of at least 1. */
  predicate QuantityOk(q: string) {
    q == "" || (Text.AllDigits(q) && Text.DigitsValue(q) >= 1)
  }

  datatype GateErrors = GateErrors(
    name: Option<string>,
    enrollmentNo: Option<string>,
    idNumber: Option<string>,
    hostelBlock: Option<string>,
    roomNo: Option<string>,
    departure: Option<string>,
    laptopQuantity: Option<string>)

  const NoErrors: GateErrors := GateErrors(None, None, None, None, None, None, None)

  /** `requestGatePassSchema`: six required fields and an optional quantity of at least 1. */
  function Errors(f: GateForm): (e: GateErrors)
    ensures e.name.Some? <==> f.name == ""
    ensures e.enrollmentNo.Some? <==> f.enrollmentNo == ""
    ensures e.idNumber.Some? <==> f.idNumber == ""
    ensures e.hostelBlock.Some? <==> f.hostelBlock == ""
    ensures e.roomNo.Some? <==> f.roomNo == ""
    ensures e.departure.Some? <==> f.departure.None?
    ensures e.laptopQuantity.Some? <==> !QuantityOk(f.laptopQuantity)
    ensures e == NoErrors <==>
              f.name != "" && f.enrollmentNo != "" && f.idNumber != "" && f.hostelBlock != ""
              && f.roomNo != "" && f.departure.Some? && QuantityOk(f.laptopQuantity)
  {
    GateErrors(
      Forms.Require(f.name, "Name is required"),
      Forms.Require(f.enrollmentNo, "Enrollment No. is required"),
      Forms.Require(f.idNumber, "ID No. is required"),
      Forms.Require(f.hostelBlock, "Hostel Block is required"),
      Forms.Require(f.roomNo, "Room No. is required"),
      if f.departure.None? then Some("Departure Date is required") else None,
      if QuantityOk(f.laptopQuantity) then None else Some("Quantity must be at least 1"))
  }

  /** The body of `POST gate-pass/`. */
  datatype GateRequest = GateRequest(
    user: Value,
    name: string,
    enrollmentNo: string,
    idNumber: string,
    hostelBlock: string,
    roomNo: string,
    departure: Option<int>,
    laptop: GatePasses.Laptop,
    baggage: string,
    status: string)

  /**
   * `laptop_quantity ? parseInt(laptop_quantity) : 0`, with no radix, so a
   * `0x` prefix reads hexadecimal; a NaN is sent as null.
   */
  function QuantitySent(q: string): (v: Value)
    ensures q == "" ==> v == Num(0)
    ensures q != "" && Text.ParseInt(q).Some? ==> v == Num(Text.ParseInt(q).value)
    ensures q != "" && Text.ParseInt(q).None? ==> v == Null
  {
    if q == "" then Num(0)
    else match Text.ParseInt(q)
      case Some(n) => Num(n)
      case None => Null
  }

  /** A quantity the schema accepts is sent as its value: 0 when left out, else at least 1. */
  lemma AcceptedQuantitySent(q: string)
    requires QuantityOk(q)
    ensures q == "" ==> QuantitySent(q) == Num(0)
    ensures q != "" ==> QuantitySent(q) == Num(Text.DigitsValue(q)) && Text.DigitsValue(q) >= 1
  {
    if q != "" {
      Text.ParseIntDigits(q);
    }
  }

  /** `handleRequestGatePass`'s body: the form plus the user, the laptop object and the defaults. */
  function Request(profile: Option<Session.Profile>, f: GateForm): (r: GateRequest)
    ensures r.status == "pending"
    ensures profile.None? ==> r.user == Null
    ensures profile.Some? ==> r.user == Field(profile.value, "_id")
    ensures r.laptop.make == Null <==> f.laptopMake == ""
    ensures r.laptop.quantity == QuantitySent(f.laptopQuantity)
    ensures f.baggage == "" ==> r.baggage == "No bags"
    ensures f.baggage != "" ==> r.baggage == f.baggage
    ensures r.name == f.name && r.enrollmentNo == f.enrollmentNo && r.idNumber == f.idNumber
    ensures r.hostelBlock == f.hostelBlock && r.roomNo == f.roomNo && r.departure == f.departure
  {
    GateRequest(
      if profile.Some? then Field(profile.value, "_id") else Null,
      f.name, f.enrollmentNo, f.idNumber, f.hostelBlock, f.roomNo, f.departure,
      GatePasses.Laptop(if f.laptopMake != "" then Str(f.laptopMake) else Null, QuantitySent(f.laptopQuantity)),
      if f.baggage != "" then f.baggage else "No bags",
      "pending")
  }

  /** The pass the server creates from a request, as the gate pass screens see it. */
  function Created(id: string, r: GateRequest): GatePasses.GatePass {
    GatePasses.GatePass(id, r.status, Some(r.laptop), Null)
  }

  /**
   * A created pass reaches the administrator under the pending filter
   * with the actions shown, and its laptop line reads back what the form
   * held: "No Laptop" without a make, else the make and the quantity.
   */
  lemma CreatedPassAsShown(profile: Option<Session.Profile>, f: GateForm, id: string, n: nat)
    ensures var p := Created(id, Request(profile, f));
            GatePasses.ActionsShown(p) && !GatePasses.RejectionShown(p)
            && p in GatePasses.Shown([p], GatePasses.PendingPasses)
    ensures f.laptopMake == "" ==> GatePasses.LaptopLine(Created(id, Request(profile, f)).laptop) == "No Laptop"
    ensures f.laptopMake != "" && f.laptopQuantity == Text.IntToString(n) ==>
              GatePasses.LaptopLine(Created(id, Request(profile, f)).laptop)
              == f.laptopMake + " (Qty: " + Text.IntToString(n) + ")"
  {
    var r := Request(profile, f);
    if f.laptopMake != "" && f.laptopQuantity == Text.IntToString(n) {
      QuantityOfString(n);
      assert r.laptop == GatePasses.Laptop(Str(f.laptopMake), Num(n));
    }
  }

  /** A quantity typed with a `0x` prefix is sent as its hexadecimal value. */
  lemma HexQuantitySent(hs: string)
    requires hs != [] && Text.AllHexDigits(hs)
    ensures QuantitySent("0x" + hs) == Num(Text.HexDigitsValue(hs))
  {
    Text.ParseIntHex(hs, 'x');
    assert "0x" + hs == ['0', 'x'] + hs;
  }

  /** A quantity typed as a number's decimal text is sent as that number. */
  lemma QuantityOfString(n: nat)
    ensures QuantitySent(Text.IntToString(n)) == Num(n)
  {
    Text.ParseIntToString(n);
  }

  /** What the screen does with the response: status 201 confirms and goes back. */
  function Submitted(outcome: Fetch<int>): (effects: seq<Effect>)
    ensures outcome.Fetched? && outcome.data == 201 ==>
              effects == [Alert("Alert", "Gate Pass Requested Successfully"), GoBack]
    ensures outcome.Fetched? && outcome.data != 201 ==> effects == []
    ensures outcome.FetchFailed? ==> effects == [Alert("Alert", "Failed to request gate pass. Please try again.")]
    ensures GoBack in effects <==> outcome == Fetched(201)
  {
    match outcome
    case Fetched(status) =>
      if status == 201 then [Alert("Alert", "Gate Pass Requested Successfully"), GoBack] else []
    case FetchFailed(_) => [Alert("Alert", "Failed to request gate pass. Please try again.")]
  }
}

=== FILE: rooms.dfy ===
/**
 * The room request screen: the hostel, floor and room pickers with their
 * reset rules, the effect that loads the rooms of a hostel floor, and the
 * guarded allocation request that writes the allocation into the profile.
 *
 * Hostel and floor values are kept as JSON scalars because the pickers
 * test them for truthiness; room numbers are integers.
 */
module Rooms {

  import opened Common
  import Text
  import Session

  datatype RoomOption = RoomOption(no: int, status: string)

  /** Only rooms whose status is exactly "available" can be picked. */
  predicate Available(r: RoomOption) {
    r.status == "available"
  }

  datatype Picker = Picker(hostel: Value, floor: Value, rooms: seq<RoomOption>, room: Option<int>)

  const Unpicked: Picker := Picker(Null, Null, [], None)

  /** `!selectedRoom`: no room, or room number 0. */
  predicate RoomChosen(p: Picker) {
    p.room.Some? && p.room.value != 0
  }

  /** The room number is one the picker offered as pickable. */
  ghost predicate Offered(rooms: seq<RoomOption>, n: int) {
    exists i | 0 <= i < |rooms| :: rooms[i].no == n && Available(rooms[i])
  }

  /**
   * What the pickers keep true between events: a selected room is one of
   * the listed, available rooms, and rooms are listed only under a chosen
   * hostel and floor.
   */
  ghost predicate Wf(p: Picker) {
    (p.room.Some? ==> Offered(p.rooms, p.room.value))
    && (|p.rooms| > 0 ==> Truthy(p.hostel) && Truthy(p.floor))
  }

  /** Choosing a hostel clears the floor, the room list and the room. */
  function ChooseHostel(p: Picker, hostel: Value): (r: Picker)
    ensures r.hostel == hostel && r.floor == Null && r.rooms == [] && r.room == None
  {
    Picker(hostel, Null, [], None)
  }

  /** Choosing a floor clears the room list and the room, keeping the hostel. */
  function ChooseFloor(p: Picker, floor: Value): (r: Picker)
    ensures r.hostel == p.hostel && r.floor == floor && r.rooms == [] && r.room == None
  {
    p.(floor := floor, rooms := [], room := None)
  }

  /** Picking entry `i` of the room list; a disabled entry cannot be picked. */
  function ChooseRoom(p: Picker, i: nat): (r: Picker)
    ensures r.hostel == p.hostel && r.floor == p.floor && r.rooms == p.rooms
    ensures i < |p.rooms| && Available(p.rooms[i]) ==> r.room == Some(p.rooms[i].no)
    ensures !(i < |p.rooms| && Available(p.rooms[i])) ==> r == p
  {
    if i < |p.rooms| && Available(p.rooms[i]) then p.(room := Some(p.rooms[i].no)) else p
  }

  datatype Loaded = Loaded(picker: Picker, effects: seq<Effect>)

  /**
   * The effect on the hostel and floor: with both chosen, the fetched rooms
   * replace the list and the room is cleared (a failed fetch alerts and
   * changes nothing); otherwise the list is emptied and the room cleared.
   */
  function LoadRooms(p: Picker, fetched: Fetch<seq<RoomOption>>): (r: Loaded)
    ensures r.picker.hostel == p.hostel && r.picker.floor == p.floor
    ensures !(Truthy(p.hostel) && Truthy(p.floor)) ==> r.picker.rooms == [] && r.picker.room == None && r.effects == []
    ensures Truthy(p.hostel) && Truthy(p.floor) && fetched.Fetched? ==>
              r.picker.rooms == fetched.data && r.picker.room == None && r.effects == []
    ensures Truthy(p.hostel) && Truthy(p.floor) && fetched.FetchFailed? ==>
              r.picker == p && r.effects == [Alert("Error", "Could not fetch available rooms.")]
  {
    if Truthy(p.hostel) && Truthy(p.floor) then
      match fetched
      case Fetched(rooms) => Loaded(p.(rooms := rooms, room := None), [])
      case FetchFailed(_) => Loaded(p, [Alert("Error", "Could not fetch available rooms.")])
    else Loaded(p.(rooms := [], room := None), [])
  }

  lemma ChooseHostelKeepsWf(p: Picker, hostel: Value)
    ensures Wf(ChooseHostel(p, hostel))
  {
  }

  lemma ChooseFloorKeepsWf(p: Picker, floor: Value)
    ensures Wf(ChooseFloor(p, floor))
  {
  }

  lemma ChooseRoomKeepsWf(p: Picker, i: nat)
    requires Wf(p)
    ensures Wf(ChooseRoom(p, i))
  {
    var r := ChooseRoom(p, i);
    if i < |p.rooms| && Available(p.rooms[i]) {
      assert r.rooms[i].no == r.room.value && Available(r.rooms[i]);
    }
  }

  lemma LoadRoomsKeepsWf(p: Picker, fetched: Fetch<seq<RoomOption>>)
    requires Wf(p)
    ensures Wf(LoadRooms(p, fetched).picker)
  {
  }

  /** The floor picker needs a hostel. */
  predicate FloorPickerDisabled(p: Picker) {
    !Truthy(p.hostel)
  }

  /** The room picker needs a floor and a non-empty room list. */
  predicate RoomPickerDisabled(p: Picker) {
    !Truthy(p.floor) || |p.rooms| == 0
  }

  /** The confirm button needs a room. */
  predicate ConfirmDisabled(p: Picker) {
    !RoomChosen(p)
  }

  /** Under the picker invariant an enabled room picker means the whole cascade is chosen. */
  lemma RoomPickerEnabledMeansCascade(p: Picker)
    requires Wf(p)
    requires !RoomPickerDisabled(p)
    ensures !FloorPickerDisabled(p) && Truthy(p.floor)
  {
  }

  /** `rooms/request`'s body. */
  datatype Request = Request(userId: Value, hostel: Value, floor: Value, roomNo: int)

  datatype Attempt = Blocked(alert: Effect) | Requested(request: Request)

  /** A profile with both `hostel_no` and `room_no` truthy already has a room. */
  predicate Allocated(profile: Session.Profile) {
    Truthy(Field(profile, "hostel_no")) && Truthy(Field(profile, "room_no"))
  }

  function AlreadyAllocated(profile: Session.Profile): Effect {
    Alert("Already Allocated",
          "You have already been assigned Room " + Text.Show(Field(profile, "room_no"))
          + " in " + Text.Show(Field(profile, "hostel_no")) + ".")
  }

  const StillLoading: Effect := Alert("Error", "User data is still loading. Please try again.")
  const NoRoom: Effect := Alert("Error", "Please select a room.")

  /**
   * `handleRoomSelection` up to the request: the three guards in order
   * (profile not loaded, already allocated, no room), then the request.
   */
  function TryAllocate(profile: Option<Session.Profile>, p: Picker): (a: Attempt)
    ensures profile.None? ==> a == Blocked(StillLoading)
    ensures profile.Some? && Allocated(profile.value) ==> a == Blocked(AlreadyAllocated(profile.value))
    ensures profile.Some? && !Allocated(profile.value) && !RoomChosen(p) ==> a == Blocked(NoRoom)
    ensures a.Requested? <==> profile.Some? && !Allocated(profile.value) && RoomChosen(p)
    ensures a.Requested? ==>
              a.request == Request(Field(profile.value, "_id"), p.hostel, p.floor, p.room.value)
  {
    if profile.None? then Blocked(StillLoading)
    else if Allocated(profile.value) then Blocked(AlreadyAllocated(profile.value))
    else if !RoomChosen(p) then Blocked(NoRoom)
    else Requested(Request(Field(profile.value, "_id"), p.hostel, p.floor, p.room.value))
  }

  /** The allocation written into the profile on success. */
  function AllocationUpdate(p: Picker): Record
    requires p.room.Some?
  {
    map["hostel_no" := p.hostel, "floor_no" := p.floor, "room_no" := Num(p.room.value)]
  }

  datatype Allocation = Allocation(session: Session.Session, store: Store, effects: seq<Effect>)

  /**
   * The whole of `handleRoomSelection`: a blocked attempt only alerts; a
   * request that succeeds alerts the server's message and merges the
   * allocation into the profile; one that fails alerts the server's
   * message or a fixed fallback.
   */
  function Allocate(s: Session.Session, store: Store, p: Picker, outcome: Fetch<string>, codec: Codec<Session.Profile>)
    : (r: Allocation)
    ensures TryAllocate(s.profile, p).Blocked? ==>
              r == Allocation(s, store, [TryAllocate(s.profile, p).alert])
    ensures TryAllocate(s.profile, p).Requested? && outcome.FetchFailed? ==>
              r.session == s && r.store == store
              && r.effects == [Alert("Error", if outcome.fault != "" then outcome.fault
                                              else "Room allocation failed. Please try again.")]
    ensures TryAllocate(s.profile, p).Requested? && outcome.Fetched? ==>
              r.effects == [Alert("Success", outcome.data)]
              && r.session.profile.Some?
              && Field(r.session.profile.value, "hostel_no") == p.hostel
              && Field(r.session.profile.value, "floor_no") == p.floor
              && Field(r.session.profile.value, "room_no") == Num(p.room.value)
              && r.session.token == s.token
    ensures TryAllocate(s.profile, p).Requested? && outcome.Fetched? ==>
              var u := Session.UpdateUser(s, store, AllocationUpdate(p), codec);
              r.session == u.session && r.store == u.store
              && (forall k | k in s.profile.value && k !in {"hostel_no", "floor_no", "room_no"} ::
                    k in r.session.profile.value && r.session.profile.value[k] == s.profile.value[k])
              && r.store == store[Session.ProfileKey := codec.encode(r.session.profile.value)]
  {
    match TryAllocate(s.profile, p)
    case Blocked(alert) => Allocation(s, store, [alert])
    case Requested(_) =>
      match outcome
      case FetchFailed(message) =>
        Allocation(s, store, [Alert("Error", if message != "" then message else "Room allocation failed. Please try again.")])
      case Fetched(message) =>
        var u := Session.UpdateUser(s, store, AllocationUpdate(p), codec);
        Allocation(u.session, u.store, [Alert("Success", message)])
  }

  /**
   * After a successful allocation from a well-formed picker, trying again
   * is stopped by the already-allocated guard: the hostel was chosen, and
   * a chosen room is non-zero.
   */
  lemma SecondAttemptBlocked(s: Session.Session, store: Store, p: Picker, message: string,
                             codec: Codec<Session.Profile>, later: Picker)
    requires Wf(p)
    requires TryAllocate(s.profile, p).Requested?
    ensures var r := Allocate(s, store, p, Fetched(message), codec);
            TryAllocate(r.session.profile, later) == Blocked(AlreadyAllocated(r.session.profile.value))
  {
    var i :| 0 <= i < |p.rooms| && p.rooms[i].no == p.room.value && Available(p.rooms[i]);
    assert Truthy(p.hostel);
  }

  /**
   * A successful allocation survives a restart: with a stored token,
   * restoring the session gives back the profile with the room in it.
   */
  lemma AllocationPersists(s: Session.Session, store: Store, p: Picker, message: string,
                           codec: Codec<Session.Profile>, later: Session.Session)
    requires Lawful(codec)
    requires Present(Lookup(store, Session.TokenKey))
    requires TryAllocate(s.profile, p).Requested?
    ensures var r := Allocate(s, store, p, Fetched(message), codec);
            var back := Session.Restore(later, Session.Read(r.store), codec).profile;
            back == r.session.profile && Field(back.value, "room_no") == Num(p.room.value)
  {
    Session.RestoreAfterUpdate(s, store, AllocationUpdate(p), codec, later);
  }

  /** The confirm button is enabled exactly when a loaded, unallocated profile would send a request. */
  lemma ConfirmEnabledIffRequest(profile: Session.Profile, p: Picker)
    requires !Allocated(profile)
    ensures !ConfirmDisabled(p) <==> TryAllocate(Some(profile), p).Requested?
  {
  }
}

=== FILE: session.dfy ===
/**
 * The authentication context: the session record `{token, profile, err,
 * isLoading}` and its four transitions (restore at launch, login, profile
 * merge-update, logout), each acting on the persisted key-value store.
 */
module Session {

  import opened Common

  type Profile = Record

  /** A caught exception, recorded in `err`. */
  datatype Fault = Fault(message: string)

  datatype Session = Session(
    token: Option<string>,
    profile: Option<Profile>,
    err: Option<Fault>,
    isLoading: bool)

  const TokenKey: string := "userToken"
  const ProfileKey: string := "userInfo"

  /** The state before restore has run: nothing known, still loading. */
  const Initial: Session := Session(None, None, None, true)

  predicate SignedIn(s: Session) {
    s.token.Some? && s.profile.Some?
  }

  /** The two storage reads at launch either succeed or throw. */
  datatype StoreRead = Read(store: Store) | ReadFailed(fault: Fault)

  /**
   * The stored profile as restore sees it: an empty or absent entry is
   * null, and one that does not parse is null as well (the parse error is
   * caught and only logged).
   */
  function StoredProfile(store: Store, codec: Codec<Profile>): (p: Option<Profile>)
    ensures p.Some? ==> ProfileKey in store && store[ProfileKey] != ""
                        && codec.decode(store[ProfileKey]) == p
    ensures ProfileKey in store && store[ProfileKey] != "" ==> p == codec.decode(store[ProfileKey])
  {
    if ProfileKey in store && store[ProfileKey] != "" then codec.decode(store[ProfileKey]) else None
  }

  /** `isLoggedIn`: hydrate the session from storage, failing closed. */
  function Restore(s: Session, read: StoreRead, codec: Codec<Profile>): (r: Session)
    ensures !r.isLoading
    ensures r.token.Some? <==> r.profile.Some?
    ensures SignedIn(r) <==>
              read.Read? && Present(Lookup(read.store, TokenKey))
              && StoredProfile(read.store, codec).Some?
    ensures SignedIn(r) ==>
              r.token == Lookup(read.store, TokenKey)
              && r.profile == StoredProfile(read.store, codec)
    ensures read.ReadFailed? ==> r.err == Some(read.fault)
    ensures read.Read? ==> r.err == s.err
  {
    match read
    case ReadFailed(fault) =>
      Session(None, None, Some(fault), false)
    case Read(store) =>
      var token := Lookup(store, TokenKey);
      var parsed := StoredProfile(store, codec);
      if parsed.Some? && Present(token) then Session(token, parsed, s.err, false)
      else Session(None, None, s.err, false)
  }

  /** The response body of `POST auth/login`, as far as login inspects it. */
  datatype LoginBody = LoginBody(user: Option<Profile>, token: Option<string>, fields: Record)

  /** The remote login either answers (possibly with no body) or throws. */
  datatype LoginOutcome = Responded(body: Option<LoginBody>) | Threw(fault: Fault)

  predicate Complete(body: Option<LoginBody>) {
    body.Some? && body.value.user.Some? && Present(body.value.token)
  }

  datatype LoginResult = LoginResult(session: Session, store: Store, returned: Option<LoginBody>)

  /**
   * `login(email, password)`: the credentials themselves only reach the
   * remote call, which is the `outcome` parameter here.
   */
  function Login(s: Session, store: Store, outcome: LoginOutcome, codec: Codec<Profile>): (r: LoginResult)
    ensures !r.session.isLoading
    ensures r.returned.Some? <==> outcome.Responded? && Complete(outcome.body)
    ensures r.returned.Some? ==>
              r.returned == outcome.body
              && r.session.token == outcome.body.value.token
              && r.session.profile == outcome.body.value.user
              && r.store == store[TokenKey := outcome.body.value.token.value]
                                 [ProfileKey := codec.encode(outcome.body.value.user.value)]
              && r.session.err == s.err
    ensures r.returned.None? ==>
              r.session.token == s.token && r.session.profile == s.profile && r.store == store
    ensures outcome.Threw? ==> r.session.err == Some(outcome.fault)
    ensures outcome.Responded? ==> r.session.err == s.err
  {
    match outcome
    case Threw(fault) =>
      LoginResult(s.(err := Some(fault), isLoading := false), store, None)
    case Responded(body) =>
      if Complete(body) then
        var user := body.value.user.value;
        var token := body.value.token.value;
        var store' := store[TokenKey := token][ProfileKey := codec.encode(user)];
        LoginResult(s.(token := Some(token), profile := Some(user), isLoading := false), store', body)
      else
        LoginResult(s.(isLoading := false), store, None)
  }

  /** `{ ...prev, ...updated }` where a null `prev` spreads as nothing. */
  function Merge(prev: Option<Profile>, updated: Record): (m: Profile)
    ensures m.Keys == updated.Keys + (if prev.Some? then prev.value.Keys else {})
    ensures forall k | k in updated :: m[k] == updated[k]
    ensures prev.Some? ==> forall k | k in prev.value && k !in updated :: m[k] == prev.value[k]
  {
    (if prev.Some? then prev.value else map[]) + updated
  }

  datatype Update = Update(session: Session, store: Store)

  /** `updateUser(updated)`: shallow-merge into the profile and persist the result. */
  function UpdateUser(s: Session, store: Store, updated: Record, codec: Codec<Profile>): (r: Update)
    ensures r.session.profile.Some?
    ensures forall k | k in updated :: k in r.session.profile.value && r.session.profile.value[k] == updated[k]
    ensures s.profile.Some? ==>
              forall k | k in s.profile.value && k !in updated ::
                k in r.session.profile.value && r.session.profile.value[k] == s.profile.value[k]
    ensures r.store == store[ProfileKey := codec.encode(r.session.profile.value)]
    ensures r.session.token == s.token && r.session.err == s.err && r.session.isLoading == s.isLoading
  {
    var merged := Merge(s.profile, updated);
    Update(s.(profile := Some(merged)), store[ProfileKey := codec.encode(merged)])
  }

  /** `logout()`: clear memory and both storage keys; no remote call. */
  function Logout(s: Session, store: Store): (r: Update)
    ensures r.session == Session(None, None, None, false)
    ensures TokenKey !in r.store && ProfileKey !in r.store
    ensures forall k | k in store && k != TokenKey && k != ProfileKey :: k in r.store && r.store[k] == store[k]
  {
    Update(Session(None, None, None, false), store - {TokenKey, ProfileKey})
  }

  /** After a successful login, a restart restores exactly the session login set up. */
  lemma RestoreAfterLogin(s: Session, store: Store, outcome: LoginOutcome, codec: Codec<Profile>, later: Session)
    requires Lawful(codec)
    requires Login(s, store, outcome, codec).returned.Some?
    ensures var r := Login(s, store, outcome, codec);
            var restored := Restore(later, Read(r.store), codec);
            SignedIn(restored)
            && restored.token == r.session.token
            && restored.profile == r.session.profile
  {
    var user := outcome.body.value.user.value;
    assert codec.decode(codec.encode(user)) == Some(user);
  }

  /** After logout a restart is signed out, whatever the codec. */
  lemma RestoreAfterLogout(s: Session, store: Store, codec: Codec<Profile>, later: Session)
    ensures !SignedIn(Restore(later, Read(Logout(s, store).store), codec))
  {
  }

  /** A merge-update made while signed in survives a restart. */
  lemma RestoreAfterUpdate(s: Session, store: Store, updated: Record, codec: Codec<Profile>, later: Session)
    requires Lawful(codec)
    requires Present(Lookup(store, TokenKey))
    ensures var u := UpdateUser(s, store, updated, codec);
            Restore(later, Read(u.store), codec).profile == u.session.profile
  {
    var merged := UpdateUser(s, store, updated, codec).session.profile.value;
    assert codec.decode(codec.encode(merged)) == Some(merged);
  }

  /**
   * Two updates in a row merge as one update holding both, the later
   * one winning on the keys they share.
   */
  lemma MergeComposes(prev: Option<Profile>, first: Record, second: Record)
    ensures Merge(Some(Merge(prev, first)), second) == Merge(prev, first + second)
  {
  }

  /** A corrupt stored profile never signs anyone in, however good the token. */
  lemma CorruptProfileFailsClosed(s: Session, store: Store, codec: Codec<Profile>)
    requires ProfileKey in store && codec.decode(store[ProfileKey]).None?
    ensures Restore(s, Read(store), codec).token.None?
    ensures Restore(s, Read(store), codec).profile.None?
  {
  }
}

=== FILE: signup.dfy ===
/**
 * The sign-up screen: the registration payload built from the form, the
 * schema with its member-type-dependent rules, and which fields the form
 * shows.
 */
module SignUpScreen {

  import opened Common
  import Forms
  import Navigation
  import Text

  datatype SignUpForm = SignUpForm(
    email: string,
    name: string,
    password: string,
    memberType: string,
    department: string,
    mobileNo: string,
    gender: string,
    enrollmentNo: string,
    idNumber: string)

  /** The member types the dropdown offers, in order. */
  const MemberTypes: seq<string> :=
    ["student", "academicStaff", "electricalStaff", "waterStaff", "maintenanceStaff", "securityStaff"]

  /** The departments the department dropdown offers. */
  const Departments: seq<string> := ["electrical", "water", "maintenance", "security"]

  predicate IsStudent(f: SignUpForm) {
    f.memberType == "student"
  }

  /** The member types that must name a department. */
  predicate NeedsDepartment(memberType: string) {
    memberType in Navigation.DepartmentStaff
  }

  /** `values.x || null` for a string. */
  function OrNull(s: string): (v: Value)
    ensures v == Null <==> s == ""
    ensures s != "" ==> v == Str(s)
  {
    if s == "" then Null else Str(s)
  }

  /** `handleSignUp`'s payload, under the server's snake_case names. */
  function Payload(f: SignUpForm): (p: Record)
    ensures p.Keys == {"email", "full_name", "password", "member_type", "department",
                       "mobile_no", "gender", "enrollment_no", "id_number"}
    ensures p["email"] == Str(f.email) && p["password"] == Str(f.password) && p["gender"] == Str(f.gender)
    ensures p["full_name"] == Str(f.name)
    ensures p["mobile_no"] == Str(f.mobileNo)
    ensures p["member_type"] == Str(f.memberType)
    ensures p["department"] == Null <==> f.department == ""
    ensures p["enrollment_no"] != Null <==> IsStudent(f)
    ensures IsStudent(f) ==> p["enrollment_no"] == Str(f.enrollmentNo) && p["id_number"] == Str(f.idNumber)
    ensures !IsStudent(f) ==> p["id_number"] == Null
  {
    map[
      "email" := Str(f.email),
      "full_name" := Str(f.name),
      "password" := Str(f.password),
      "member_type" := Str(f.memberType),
      "department" := OrNull(f.department),
      "mobile_no" := Str(f.mobileNo),
      "gender" := Str(f.gender),
      "enrollment_no" := if IsStudent(f) then Str(f.enrollmentNo) else Null,
      "id_number" := if IsStudent(f) then Str(f.idNumber) else Null
    ]
  }

  function AsText(v: Value): string {
    if v.Str? then v.s else ""
  }

  /** Reads a form back out of a payload, undoing the renaming. */
  function FormOf(p: Record): SignUpForm {
    SignUpForm(
      AsText(Field(p, "email")), AsText(Field(p, "full_name")), AsText(Field(p, "password")),
      AsText(Field(p, "member_type")), AsText(Field(p, "department")), AsText(Field(p, "mobile_no")),
      AsText(Field(p, "gender")), AsText(Field(p, "enrollment_no")), AsText(Field(p, "id_number")))
  }

  /**
   * The payload is the form renamed, losing exactly the enrollment and ID
   * numbers of non-students (an empty department becomes null and reads
   * back as empty).
   */
  lemma PayloadKeepsForm(f: SignUpForm)
    ensures FormOf(Payload(f)) ==
              if IsStudent(f) then f else f.(enrollmentNo := "", idNumber := "")
  {
  }

  /** The message each field currently fails with, if any. */
  datatype SignUpErrors = SignUpErrors(
    email: Option<string>,
    name: Option<string>,
    mobileNo: Option<string>,
    memberType: Option<string>,
    gender: Option<string>,
    password: Option<string>,
    enrollmentNo: Option<string>,
    idNumber: Option<string>,
    department: Option<string>)

  const NoErrors: SignUpErrors := SignUpErrors(None, None, None, None, None, None, None, None, None)

  /**
   * `signUpSchema`: the fixed required fields, a mobile number ten UTF-16
   * code units long, enrollment and ID numbers for students only, and a department
   * for department staff only.
   */
  function Errors(f: SignUpForm): (e: SignUpErrors)
    ensures e.email.Some? <==> f.email == "" || !Forms.IsEmail(f.email)
    ensures e.name.Some? <==> f.name == ""
    ensures e.mobileNo.Some? <==> Text.Utf16Length(f.mobileNo) != 10
    ensures f.mobileNo != "" && Text.Utf16Length(f.mobileNo) != 10 ==> e.mobileNo == Some("Enter a valid phone number!")
    ensures e.memberType.Some? <==> f.memberType == ""
    ensures e.gender.Some? <==> f.gender == ""
    ensures e.password.Some? <==> f.password == ""
    ensures e.enrollmentNo.Some? <==> IsStudent(f) && f.enrollmentNo == ""
    ensures e.idNumber.Some? <==> IsStudent(f) && f.idNumber == ""
    ensures e.department.Some? <==> NeedsDepartment(f.memberType) && f.department == ""
  {
    SignUpErrors(
      Forms.Rule(f.email, "Email is required!", Forms.IsEmail(f.email), "Enter a valid email!"),
      Forms.Require(f.name, "Name is required!"),
      Forms.Rule(f.mobileNo, "Mobile No is required!", Text.Utf16Length(f.mobileNo) == 10, "Enter a valid phone number!"),
      Forms.Require(f.memberType, "Member type is required!"),
      Forms.Require(f.gender, "Gender is required!"),
      Forms.Require(f.password, "Password is required!"),
      Forms.When(IsStudent(f), Forms.Require(f.enrollmentNo, "Enrollment number is required!")),
      Forms.When(IsStudent(f), Forms.Require(f.idNumber, "ID number is required!")),
      Forms.When(NeedsDepartment(f.memberType), Forms.Require(f.department, "Department is required!")))
  }

  /**
   * Whatever the member type, a form with every field filled in, a valid
   * e-mail and a mobile number of length 10 passes: the stripped fields
   * never block a submission.
   */
  lemma CompleteFormPasses(f: SignUpForm)
    requires Forms.IsEmail(f.email) && Text.Utf16Length(f.mobileNo) == 10
    requires f.name != "" && f.memberType != "" && f.gender != "" && f.password != ""
    requires f.enrollmentNo != "" && f.idNumber != "" && f.department != ""
    ensures Errors(f) == NoErrors
  {
  }

  /** A department-staff form passes with the student-only numbers left empty. */
  lemma StaffFormIgnoresStudentFields(f: SignUpForm)
    requires NeedsDepartment(f.memberType)
    ensures Errors(f) == Errors(f.(enrollmentNo := "", idNumber := ""))
  {
  }

  /** The department dropdown is rendered for the department-staff types. */
  predicate DepartmentShown(f: SignUpForm) {
    f.memberType in ["electricalStaff", "waterStaff", "maintenanceStaff", "securityStaff"]
  }

  /** The enrollment and ID inputs are rendered for students. */
  predicate StudentFieldsShown(f: SignUpForm) {
    f.memberType == "student"
  }

  /**
   * A conditional field is demanded only while it is on screen, and the
   * two conditional groups are never shown together.
   */
  lemma ShownIffDemanded(f: SignUpForm)
    ensures DepartmentShown(f) <==> NeedsDepartment(f.memberType)
    ensures StudentFieldsShown(f) <==> IsStudent(f)
    ensures !(DepartmentShown(f) && StudentFieldsShown(f))
    ensures f.department == "" ==> (Errors(f).department.Some? <==> DepartmentShown(f))
  {
  }

  /** Of the six member types offered, exactly the four department-staff ones need a department. */
  lemma OfferedTypes(i: nat)
    requires i < |MemberTypes|
    ensures NeedsDepartment(MemberTypes[i]) <==> 2 <= i
    ensures MemberTypes[i] == "student" <==> i == 0
  {
  }

  const Registered: Effect := Alert("Success", "User registered successfully!")

  /** `handleSignUp`'s reaction: a toast and the login screen on success; a failure is only logged. */
  function Register(outcome: Fetch<Record>): (effects: seq<Effect>)
    ensures outcome.FetchFailed? <==> effects == []
    ensures outcome.Fetched? ==> effects == [Registered, Navigate("Login")]
    ensures outcome.Fetched? ==> Navigate("Login") in effects && effects[|effects| - 1] == Navigate("Login")
  {
    if outcome.Fetched? then [Registered, Navigate("Login")] else []
  }

  /** What pressing Sign Up sends, if anything, and what the screen does after. */
  datatype Submission = Submission(sent: Option<Record>, effects: seq<Effect>)

  /**
   * Formik's submit: the schema runs first and `handleSignUp` is called
   * only when no field fails; it posts the payload and reacts to the
   * outcome.
   */
  function Submit(f: SignUpForm, outcome: Fetch<Record>): (r: Submission)
    ensures r.sent.Some? <==> Errors(f) == NoErrors
    ensures r.sent.Some? ==> r.sent.value == Payload(f) && r.effects == Register(outcome)
    ensures r.sent.None? ==> r.effects == []
  {
    if Errors(f) == NoErrors then Submission(Some(Payload(f)), Register(outcome)) else Submission(None, [])
  }

  /**
   * A complete form is registered: the server receives the form's fields
   * (a student's numbers included) and, on success, the screen ends on
   * the login screen; a failed request leaves the screen where it is.
   */
  lemma CompleteFormRegisters(f: SignUpForm, outcome: Fetch<Record>)
    requires Forms.IsEmail(f.email) && Text.Utf16Length(f.mobileNo) == 10
    requires f.name != "" && f.memberType != "" && f.gender != "" && f.password != ""
    requires f.enrollmentNo != "" && f.idNumber != "" && f.department != ""
    ensures Submit(f, outcome).sent.Some?
    ensures FormOf(Submit(f, outcome).sent.value) == if IsStudent(f) then f else f.(enrollmentNo := "", idNumber := "")
    ensures outcome.Fetched? ==> Submit(f, outcome).effects == [Registered, Navigate("Login")]
    ensures outcome.FetchFailed? ==> Submit(f, outcome).effects == []
  {
    CompleteFormPasses(f);
    PayloadKeepsForm(f);
  }
}

=== FILE: staff_complaints.dfy ===
/**
 * The staff member's department board: one status dropdown per row, at
 * most one of them open, and the status update with its refetch.
 */
module StaffComplaints {

  import opened Common
  import Text
  import opened Complaints

  /** `openIndex === index`: the dropdown of row `row` is open. */
  predicate IsOpen(openIndex: Option<nat>, row: nat) {
    openIndex == Some(row)
  }

  /** `setOpen` of row `row`: opening makes it the open row, closing closes every row. */
  function SetOpen(row: nat, open: bool): (openIndex: Option<nat>)
    ensures open ==> IsOpen(openIndex, row)
    ensures !open ==> openIndex == None
  {
    if open then Some(row) else None
  }

  /** At most one dropdown is open at a time, whatever the rows do. */
  lemma AtMostOneOpen(row: nat, open: bool, i: nat, j: nat)
    requires IsOpen(SetOpen(row, open), i) && IsOpen(SetOpen(row, open), j)
    ensures i == j == row && open
  {
  }

  datatype StatusOption = StatusOption(caption: string, value: string)

  /** `statusOptions`, in order. */
  const StatusOptions: seq<StatusOption> := [
    StatusOption("Pending", "pending"),
    StatusOption("Accepted", "accepted"),
    StatusOption("Resolved", "resolved")
  ]

  /** A value the dropdown offers. */
  predicate Offered(value: string) {
    exists i | 0 <= i < |StatusOptions| :: StatusOptions[i].value == value
  }

  /** The dropdown offers exactly the statuses pending, accepted and resolved. */
  lemma OfferedStatuses(value: string)
    ensures Offered(value) <==> value in {"pending", "accepted", "resolved"}
  {
    if value in {"pending", "accepted", "resolved"} {
      var i := if value == "pending" then 0 else if value == "accepted" then 1 else 2;
      assert StatusOptions[i].value == value;
    }
  }

  const OtherColor: string := "#808080"

  /** `getStatusColor`, on the lower-cased status. */
  function StatusColor(status: string): (color: string)
    ensures Text.ToLower(status) == "pending" ==> color == "#FFA500"
    ensures Text.ToLower(status) == "accepted" ==> color == "#007bff"
    ensures Text.ToLower(status) == "resolved" ==> color == "#28a745"
    ensures color == OtherColor <==> Text.ToLower(status) !in {"pending", "accepted", "resolved"}
  {
    match Text.ToLower(status)
    case "pending" => "#FFA500"
    case "accepted" => "#007bff"
    case "resolved" => "#28a745"
    case _ => OtherColor
  }

  /** The colour does not depend on letter case, and every offered status has its own colour. */
  lemma StatusColorIgnoresCase(status: string)
    ensures StatusColor(Text.ToUpper(status)) == StatusColor(status)
    ensures Offered(Text.ToLower(status)) <==> StatusColor(status) != OtherColor
  {
    Text.LowerOfUpper(status);
    OfferedStatuses(Text.ToLower(status));
  }

  /** The body of `PATCH complaints/:id/status`. */
  datatype Patch = Patch(id: string, status: string)

  /**
   * `setValue`: the picker hands over a callback from the current value to
   * the new one; it is applied to the row's status and the result is sent
   * for that row's complaint.
   */
  function Pick(item: Complaint, choose: string -> string): (p: Patch)
    ensures p.id == item.id
    ensures p.status == choose(item.status)
  {
    Patch(item.id, choose(item.status))
  }

  /** Picking an offered value sends exactly that value, whatever the row's status was. */
  lemma PickSendsChoice(item: Complaint, value: string)
    requires Offered(value)
    ensures Pick(item, _ => value) == Patch(item.id, value)
    ensures Pick(item, _ => value).status in {"pending", "accepted", "resolved"}
  {
    OfferedStatuses(value);
  }

  datatype Board = Board(complaints: seq<Complaint>, loading: bool)

  /** `fetchDepartmentComplaints`: the department fetch, after which loading has ended. */
  function Load(b: Board, token: Option<string>, response: Fetch<seq<Complaint>>): (r: Board)
    ensures !r.loading
    ensures token.Some? && response.Fetched? ==> r.complaints == response.data
    ensures token.None? || response.FetchFailed? ==> r.complaints == b.complaints
  {
    Board(FetchDepartment(b.complaints, token, response).complaints, false)
  }

  /**
   * A failed reload keeps the list of the last response, and without a
   * token nothing is fetched and the list stays.
   */
  lemma LoadKeepsLastResponse(b: Board, token: string, data: seq<Complaint>, fault: string, response: Fetch<seq<Complaint>>)
    ensures Load(Load(b, Some(token), Fetched(data)), Some(token), FetchFailed(fault)).complaints == data
    ensures Load(b, None, response).complaints == b.complaints
  {
  }

  const UpdateFailed: Effect := Alert("Error", "Failed to update complaint status.")

  /** The board after an update, the header the patch carried (none when none was sent), and the alerts. */
  datatype Updated = Updated(board: Board, header: Option<string>, effects: seq<Effect>)

  /**
   * `updateStatus`: a missing token throws before the patch and a failed
   * patch is caught; both alert and leave the board. A successful patch
   * refetches the list.
   */
  function UpdateStatus(b: Board, token: Option<string>, patch: Fetch<()>, refetch: Fetch<seq<Complaint>>)
    : (r: Updated)
    ensures r.header.Some? <==> token.Some?
    ensures token.Some? ==> r.header == Some(Bearer(token.value))
    ensures r.effects == [] <==> token.Some? && patch.Fetched?
    ensures token.None? || patch.FetchFailed? ==> r.board == b && r.effects == [UpdateFailed]
    ensures token.Some? && patch.Fetched? ==> r.board == Load(b, token, refetch)
  {
    match token
    case None => Updated(b, None, [UpdateFailed])
    case Some(t) =>
      if patch.FetchFailed? then Updated(b, Some(Bearer(t)), [UpdateFailed])
      else Updated(Load(b, token, refetch), Some(Bearer(t)), [])
  }

  /**
   * After a successful update whose refetch succeeds the board shows the
   * refetched list and is no longer loading; a failed update never
   * touches the loading flag.
   */
  lemma UpdateThenRefetch(b: Board, token: string, refetch: seq<Complaint>)
    ensures UpdateStatus(b, Some(token), Fetched(()), Fetched(refetch)).board == Board(refetch, false)
    ensures UpdateStatus(b, Some(token), FetchFailed(""), Fetched(refetch)).board.loading == b.loading
  {
  }
}

=== FILE: staff_dashboard.dfy ===
/**
 * The staff dashboard: today's overview, the status counts, and the
 * header built from the staff member's profile.
 */
module StaffDashboard {

  import opened Common
  import Text
  import Lists
  import opened Complaints
  import DepartmentLists

  /** The complaint was created on `day`. */
  function OnDay(day: int): Complaint -> bool {
    (c: Complaint) => c.day == day
  }

  /** The complaints created on `today`, in list order, as many as there are. */
  function Todays(cs: seq<Complaint>, today: int): (r: seq<Complaint>)
    ensures forall i | 0 <= i < |r| :: r[i].day == today
    ensures forall c :: c in r <==> c in cs && c.day == today
    ensures |r| == Lists.Count(cs, OnDay(today))
    ensures Lists.IsSubseq(r, cs)
  {
    Lists.FilterIsSubseq(cs, OnDay(today));
    Lists.FilterLengthIsCount(cs, OnDay(today));
    Lists.Filter(cs, OnDay(today))
  }

  /** Every complaint of today is listed as often as it was fetched. */
  lemma TodaysKeepsEveryMatch(cs: seq<Complaint>, today: int, c: Complaint)
    requires c.day == today
    ensures multiset(Todays(cs, today))[c] == multiset(cs)[c]
  {
    Lists.FilterCountsMatches(cs, OnDay(today), c);
  }

  /** `todayComplaints`: the first two of today's complaints. */
  function TodayOverview(cs: seq<Complaint>, today: int): (r: seq<Complaint>)
    ensures |r| == if |Todays(cs, today)| < 2 then |Todays(cs, today)| else 2
    ensures r == Todays(cs, today)[..|r|]
    ensures forall i | 0 <= i < |r| :: r[i].day == today
    ensures Lists.IsSubseq(r, cs)
  {
    var all := Todays(cs, today);
    var r := Lists.Take(all, 2);
    Lists.PrefixIsSubseq(all, cs, |r|);
    r
  }

  /** The three numbers of the overview. */
  datatype Tally = Tally(total: nat, resolved: nat, pending: nat)

  /** The counts compare the status exactly, without case folding. */
  function Counts(cs: seq<Complaint>): (t: Tally)
    ensures t.total == |cs|
    ensures t.resolved == Lists.Count(cs, IsResolved)
    ensures t.pending == Lists.Count(cs, IsPending)
    ensures t.resolved + t.pending <= t.total
  {
    Lists.FilterLengthIsCount(cs, IsResolved);
    Lists.FilterLengthIsCount(cs, IsPending);
    Lists.DisjointPairBounded(cs, IsResolved, IsPending);
    Tally(|cs|, |Lists.Filter(cs, IsResolved)|, |Lists.Filter(cs, IsPending)|)
  }

  /** The dashboard's counts are the lengths of the pending and resolved screens' lists. */
  lemma CountsMatchLists(cs: seq<Complaint>)
    ensures Counts(cs).pending == |DepartmentLists.PendingOnly(cs)|
    ensures Counts(cs).resolved == |DepartmentLists.ResolvedOnly(cs)|
  {
  }

  /** `words.map(n => n[0]).join('')`: an empty word contributes nothing. */
  function FirstLetters(words: seq<string>): (r: string)
    ensures |r| <= |words|
    ensures (forall k | 0 <= k < |words| :: words[k] != []) ==>
              |r| == |words| && forall k | 0 <= k < |words| :: r[k] == words[k][0]
  {
    if words == [] then []
    else (if words[0] == [] then [] else [words[0][0]]) + FirstLetters(words[1..])
  }

  const DefaultInitials: string := "ST"

  /**
   * The avatar label: the first letter of every space-separated word of
   * `full_name`, or "ST" when that is empty or there is no name.
   */
  function Initials(name: Value): (r: string)
    ensures r != []
    ensures !name.Str? || name.s == "" ==> r == DefaultInitials
    ensures name.Str? && r != DefaultInitials ==> |r| <= |Text.Split(name.s, ' ')|
  {
    if name.Str? then
      var letters := FirstLetters(Text.Split(name.s, ' '));
      if letters == [] then DefaultInitials else letters
    else DefaultInitials
  }

  /** A name written as words separated by single spaces gets one letter per word. */
  lemma InitialsOfWords(words: seq<string>)
    requires |words| >= 1
    requires forall k | 0 <= k < |words| :: words[k] != [] && ' ' !in words[k]
    ensures var r := Initials(Str(Text.Join(words, ' ')));
            |r| == |words| && forall k | 0 <= k < |words| :: r[k] == words[k][0]
  {
    Text.SplitJoin(words, ' ');
  }

  const WelcomePrefix: string := "Welcome, "

  /** `Welcome, ${full_name || "Staff"}`: the greeting always names someone. */
  function Welcome(name: Value): (r: string)
    ensures |r| > |WelcomePrefix| && r[..|WelcomePrefix|] == WelcomePrefix
    ensures Truthy(name) ==> r[|WelcomePrefix|..] == Text.Show(name)
    ensures !Truthy(name) ==> r[|WelcomePrefix|..] == "Staff"
  {
    var who := if Truthy(name) then Text.Show(name) else "Staff";
    assert who != [];
    WelcomePrefix + who
  }

  /**
   * For a text name, the header greets the name itself when it is
   * non-empty and "Staff" otherwise, and the avatar's initials are the
   * first letters of the greeted words unless they fall back to "ST".
   */
  lemma WelcomeMatchesInitials(name: string)
    ensures var who := Welcome(Str(name))[|WelcomePrefix|..];
            (name != "" ==> who == name) && (name == "" ==> who == "Staff")
            && (Initials(Str(name)) == DefaultInitials || Initials(Str(name)) == FirstLetters(Text.Split(who, ' ')))
  {
  }

  /** `${department?.toUpperCase() || "N/A"} Department`. */
  function DepartmentLine(department: Value): (r: string)
    ensures department.Str? && department.s != "" ==> r == Text.ToUpper(department.s) + " Department"
    ensures !(department.Str? && department.s != "") ==> r == "N/A Department"
  {
    var shown := if department.Str? then Text.ToUpper(department.s) else "";
    (if shown != "" then shown else "N/A") + " Department"
  }

  /** The department line does not depend on how the department is cased. */
  lemma DepartmentLineIgnoresCase(department: string)
    ensures DepartmentLine(Str(Text.ToLower(department))) == DepartmentLine(Str(department))
  {
    Text.UpperOfLower(department);
  }
}

=== FILE: text.dfy ===
/**
 * The handful of JavaScript string operations the screens rely on:
 * `trim`, ASCII case mapping, `split`/`join`, `split(sep).pop()`,
 * `String(n)` on integers, `parseInt(s)`, and `length` counted in UTF-16
 * code units.
 */
module Text {

  import opened Common

  /**
   * The characters `String.prototype.trim` removes (and `parseInt` skips):
   * ECMAScript's WhiteSpace (tab, vertical tab, form feed, the byte-order
   * mark and every space separator of Unicode category Zs) and its
   * LineTerminator (line feed, carriage return, U+2028 and U+2029).
   */
  predicate IsSpace(c: char) {
    var n := c as int;
    n == 0x20 || 9 <= n <= 0xD || n == 0xA0 || n == 0x1680 || 0x2000 <= n <= 0x200A
    || n == 0x2028 || n == 0x2029 || n == 0x202F || n == 0x205F || n == 0x3000 || n == 0xFEFF
  }

  /** No printable ASCII character other than the space is whitespace. */
  lemma PrintableNotSpace(c: char)
    requires ' ' < c <= '~'
    ensures !IsSpace(c)
  {
  }

  /** Every character is whitespace (the empty string included). */
  predicate Blank(s: string) {
    forall i | 0 <= i < |s| :: IsSpace(s[i])
  }

  /** The UTF-16 code units of one character: two outside the Basic Multilingual Plane. */
  function Utf16Units(c: char): nat {
    if c as int < 0x1_0000 then 1 else 2
  }

  /** `s.length`: JavaScript counts UTF-16 code units, not characters. */
  function Utf16Length(s: string): (n: nat)
    ensures |s| <= n <= 2 * |s|
  {
    if s == [] then 0 else Utf16Units(s[0]) + Utf16Length(s[1..])
  }

  lemma Utf16LengthCons(c: char, t: string)
    ensures Utf16Length([c] + t) == Utf16Units(c) + Utf16Length(t)
  {
    assert ([c] + t)[1..] == t;
  }

  /** JavaScript's length equals the number of characters exactly when none lies outside the Basic Multilingual Plane. */
  lemma {:induction false} Utf16LengthBmp(s: string)
    ensures Utf16Length(s) == |s| <==> forall i | 0 <= i < |s| :: s[i] as int < 0x1_0000
    decreases |s|
  {
    if s != [] {
      Utf16LengthBmp(s[1..]);
      assert forall i | 1 <= i < |s| :: s[1..][i - 1] == s[i];
    }
  }

  /**
   * What a text input with `maxLength` keeps of typed text: the longest
   * prefix that fits in `limit` UTF-16 code units, never splitting a
   * character.
   */
  function Utf16Take(s: string, limit: nat): (r: string)
    ensures |r| <= |s| && r == s[..|r|]
    ensures Utf16Length(r) <= limit
    ensures |r| < |s| ==> Utf16Length(s[..|r| + 1]) > limit
    ensures Utf16Length(s) <= limit ==> r == s
  {
    if s == [] then []
    else if Utf16Units(s[0]) > limit then
      Utf16TakeNothing(s, limit);
      []
    else
      var rest := Utf16Take(s[1..], limit - Utf16Units(s[0]));
      Utf16TakeStep(s, limit, rest);
      var r := [s[0]] + rest;
      assert |r| == |rest| + 1;
      r
  }

  lemma Utf16TakeNothing(s: string, limit: nat)
    requires s != [] && Utf16Units(s[0]) > limit
    ensures Utf16Length(s[..1]) > limit && Utf16Length(s) > limit
  {
    assert s[..1] == [s[0]] + [];
    Utf16LengthCons(s[0], []);
    assert s == [s[0]] + s[1..];
    Utf16LengthCons(s[0], s[1..]);
  }

  lemma Utf16TakeStep(s: string, limit: nat, rest: string)
    requires s != [] && Utf16Units(s[0]) <= limit
    requires |rest| <= |s[1..]| && rest == s[1..][..|rest|]
    requires Utf16Length(rest) <= limit - Utf16Units(s[0])
    requires |rest| < |s[1..]| ==> Utf16Length(s[1..][..|rest| + 1]) > limit - Utf16Units(s[0])
    requires Utf16Length(s[1..]) <= limit - Utf16Units(s[0]) ==> rest == s[1..]
    ensures [s[0]] + rest == s[..|rest| + 1]
    ensures Utf16Length([s[0]] + rest) <= limit
    ensures |rest| + 1 < |s| ==> Utf16Length(s[..|rest| + 2]) > limit
    ensures Utf16Length(s) <= limit ==> [s[0]] + rest == s
  {
    var t := s[1..];
    assert s == [s[0]] + t;
    Utf16LengthCons(s[0], rest);
    Utf16LengthCons(s[0], t);
    Utf16ConsPrefix(s[0], t, |rest|);
    if |rest| < |t| {
      Utf16ConsPrefix(s[0], t, |rest| + 1);
    }
  }

  /** A prefix of `[c] + t` one longer than a prefix of `t` adds `c`'s units. */
  lemma Utf16ConsPrefix(c: char, t: string, k: nat)
    requires k <= |t|
    ensures ([c] + t)[..k + 1] == [c] + t[..k]
    ensures Utf16Length(([c] + t)[..k + 1]) == Utf16Units(c) + Utf16Length(t[..k])
  {
    assert ([c] + t)[..k + 1] == [c] + t[..k];
    Utf16LengthCons(c, t[..k]);
  }

  function TrimStart(s: string): (r: string)
    ensures |r| <= |s| && r == s[|s| - |r|..]
    ensures r == [] || !IsSpace(r[0])
    ensures Blank(s[..|s| - |r|])
  {
    if s != [] && IsSpace(s[0]) then
      var r := TrimStart(s[1..]);
      TrimStartStep(s, r);
      r
    else s
  }

  lemma TrimStartStep(s: string, r: string)
    requires s != [] && IsSpace(s[0])
    requires |r| <= |s| - 1 && r == s[1..][|s| - 1 - |r|..]
    requires Blank(s[1..][..|s| - 1 - |r|])
    ensures r == s[|s| - |r|..]
    ensures Blank(s[..|s| - |r|])
  {
    var k := |s| - |r|;
    assert s[1..][k - 1..] == s[k..];
    assert s[..k] == [s[0]] + s[1..][..k - 1];
    BlankCons(s[0], s[1..][..k - 1]);
  }

  function TrimEnd(s: string): (r: string)
    ensures |r| <= |s| && r == s[..|r|]
    ensures r == [] || !IsSpace(r[|r| - 1])
    ensures Blank(s[|r|..])
  {
    if s != [] && IsSpace(s[|s| - 1]) then
      var r := TrimEnd(s[..|s| - 1]);
      TrimEndStep(s, r);
      r
    else s
  }

  lemma TrimEndStep(s: string, r: string)
    requires s != [] && IsSpace(s[|s| - 1])
    requires |r| <= |s| - 1 && r == s[..|s| - 1][..|r|]
    requires Blank(s[..|s| - 1][|r|..])
    ensures r == s[..|r|]
    ensures Blank(s[|r|..])
  {
    var t := s[..|s| - 1];
    assert t[..|r|] == s[..|r|];
    assert s[|r|..] == t[|r|..] + [s[|s| - 1]];
    BlankSnoc(t[|r|..], s[|s| - 1]);
  }

  lemma BlankCons(c: char, t: string)
    requires IsSpace(c) && Blank(t)
    ensures Blank([c] + t)
  {
    forall i | 0 <= i < |t| + 1 ensures IsSpace(([c] + t)[i]) {
      if i > 0 {
        assert ([c] + t)[i] == t[i - 1];
      }
    }
  }

  lemma BlankSnoc(t: string, c: char)
    requires Blank(t) && IsSpace(c)
    ensures Blank(t + [c])
  {
    forall i | 0 <= i < |t| + 1 ensures IsSpace((t + [c])[i]) {
      if i < |t| {
        assert (t + [c])[i] == t[i];
      }
    }
  }

  /** `s.trim()`: `s` without its leading and trailing whitespace. */
  function Trim(s: string): (r: string)
    ensures |r| <= |s|
    ensures r == [] <==> Blank(s)
    ensures r == [] || (!IsSpace(r[0]) && !IsSpace(r[|r| - 1]))
    ensures s != [] && !IsSpace(s[0]) && !IsSpace(s[|s| - 1]) ==> r == s
  {
    var t := TrimStart(s);
    var r := TrimEnd(t);
    TrimBlank(s, t, r);
    TrimEdges(t, r);
    TrimClean(s);
    r
  }

  lemma TrimEdges(t: string, r: string)
    requires t == [] || !IsSpace(t[0])
    requires r == TrimEnd(t)
    ensures r == [] || (!IsSpace(r[0]) && !IsSpace(r[|r| - 1]))
  {
    if r != [] {
      assert r[0] == t[0];
    }
  }

  lemma TrimClean(s: string)
    ensures s != [] && !IsSpace(s[0]) && !IsSpace(s[|s| - 1]) ==> TrimEnd(TrimStart(s)) == s
  {
    if s != [] && !IsSpace(s[0]) && !IsSpace(s[|s| - 1]) {
      assert TrimStart(s) == s;
    }
  }

  lemma BlankConcat(s: string, k: nat)
    requires k <= |s| && Blank(s[..k]) && Blank(s[k..])
    ensures Blank(s)
  {
    forall i | 0 <= i < |s| ensures IsSpace(s[i]) {
      if i < k {
        assert s[..k][i] == s[i];
      } else {
        assert s[k..][i - k] == s[i];
      }
    }
  }

  lemma TrimBlank(s: string, t: string, r: string)
    requires t == TrimStart(s) && r == TrimEnd(t)
    ensures r == [] <==> Blank(s)
  {
    if r == [] {
      assert t[|r|..] == t;
      assert s[|s| - |t|..] == t;
      BlankConcat(s, |s| - |t|);
    }
  }

  /** Trimming a trimmed string changes nothing. */
  lemma TrimIdempotent(s: string)
    ensures Trim(Trim(s)) == Trim(s)
  {
  }

  /** Whitespace padding on either side of a text is exactly what trimming removes. */
  lemma TrimDropsPadding(before: string, s: string, after: string)
    requires Blank(before) && Blank(after)
    requires s != [] && !IsSpace(s[0]) && !IsSpace(s[|s| - 1])
    ensures Trim(before + s + after) == s
  {
    var x := before + s + after;
    assert x == before + (s + after);
    assert (s + after)[0] == s[0];
    TrimStartPadding(before, s + after);
    TrimEndPadding(s, after);
    assert Trim(x) == TrimEnd(TrimStart(x));
  }

  lemma {:induction false} TrimStartPadding(pad: string, s: string)
    requires Blank(pad) && s != [] && !IsSpace(s[0])
    ensures TrimStart(pad + s) == s
    decreases |pad|
  {
    if pad != [] {
      var x := pad + s;
      assert x[0] == pad[0] && IsSpace(pad[0]);
      assert x[1..] == pad[1..] + s;
      assert forall i | 0 <= i < |pad[1..]| :: pad[1..][i] == pad[i + 1];
      TrimStartPadding(pad[1..], s);
    } else {
      assert pad + s == s;
    }
  }

  lemma {:induction false} TrimEndPadding(s: string, pad: string)
    requires Blank(pad) && s != [] && !IsSpace(s[|s| - 1])
    ensures TrimEnd(s + pad) == s
    decreases |pad|
  {
    if pad != [] {
      var x := s + pad;
      assert x[|x| - 1] == pad[|pad| - 1] && IsSpace(pad[|pad| - 1]);
      assert x[..|x| - 1] == s + pad[..|pad| - 1];
      assert forall i | 0 <= i < |pad| - 1 :: pad[..|pad| - 1][i] == pad[i];
      TrimEndPadding(s, pad[..|pad| - 1]);
    } else {
      assert s + pad == s;
    }
  }

  function LowerChar(c: char): char {
    if 'A' <= c <= 'Z' then (c as int + 32) as char else c
  }

  function UpperChar(c: char): char {
    if 'a' <= c <= 'z' then (c as int - 32) as char else c
  }

  /** `s.toLowerCase()` on the ASCII letters. */
  function ToLower(s: string): (r: string)
    ensures |r| == |s|
    ensures forall i | 0 <= i < |s| :: r[i] == LowerChar(s[i])
  {
    seq(|s|, i requires 0 <= i < |s| => LowerChar(s[i]))
  }

  /** `s.toUpperCase()` on the ASCII letters. */
  function ToUpper(s: string): (r: string)
    ensures |r| == |s|
    ensures forall i | 0 <= i < |s| :: r[i] == UpperChar(s[i])
  {
    seq(|s|, i requires 0 <= i < |s| => UpperChar(s[i]))
  }

  lemma ToLowerIdempotent(s: string)
    ensures ToLower(ToLower(s)) == ToLower(s)
  {
  }

  /** Lower-casing forgets whether the input was upper-cased first. */
  lemma LowerOfUpper(s: string)
    ensures ToLower(ToUpper(s)) == ToLower(s)
  {
  }

  /** Upper-casing an upper-cased text changes nothing. */
  lemma ToUpperIdempotent(s: string)
    ensures ToUpper(ToUpper(s)) == ToUpper(s)
  {
  }

  /** Upper-casing forgets whether the input was lower-cased first. */
  lemma UpperOfLower(s: string)
    ensures ToUpper(ToLower(s)) == ToUpper(s)
  {
  }

  /** Position of the first `c` in `s`. */
  function IndexOf(s: string, c: char): (i: nat)
    requires c in s
    ensures i < |s| && s[i] == c && c !in s[..i]
  {
    if s[0] == c then 0 else 1 + IndexOf(s[1..], c)
  }

  /** `s.split(sep)` for a one-character separator. */
  function Split(s: string, sep: char): (parts: seq<string>)
    ensures |parts| >= 1
    ensures forall k | 0 <= k < |parts| :: sep !in parts[k]
    decreases |s|
  {
    if sep !in s then [s]
    else
      var i := IndexOf(s, sep);
      [s[..i]] + Split(s[i + 1..], sep)
  }

  /** `parts.join(sep)`. */
  function Join(parts: seq<string>, sep: char): string
    requires |parts| >= 1
  {
    if |parts| == 1 then parts[0] else parts[0] + [sep] + Join(parts[1..], sep)
  }

  /** The first `c` is found at any position holding `c` with no `c` before it. */
  lemma IndexOfFirst(s: string, c: char, i: nat)
    requires i < |s| && s[i] == c && c !in s[..i]
    ensures IndexOf(s, c) == i
  {
  }

  /** Splitting at a first separator peels off the text before it. */
  lemma SplitAfterFirst(a: string, rest: string, sep: char)
    requires sep !in a
    ensures Split(a + [sep] + rest, sep) == [a] + Split(rest, sep)
  {
    var s := a + [sep] + rest;
    assert s[|a|] == sep && s[..|a|] == a;
    IndexOfFirst(s, sep, |a|);
    assert s[|a| + 1..] == rest;
  }

  /** Joining a piece onto a non-empty list of pieces puts one separator between them. */
  lemma JoinCons(a: string, rest: seq<string>, sep: char)
    requires |rest| >= 1
    ensures Join([a] + rest, sep) == a + [sep] + Join(rest, sep)
  {
    assert ([a] + rest)[1..] == rest;
  }

  /** Joining the pieces of a split gives back the original text. */
  lemma {:induction false} JoinSplit(s: string, sep: char)
    ensures Join(Split(s, sep), sep) == s
    decreases |s|
  {
    if sep in s {
      var i := IndexOf(s, sep);
      var a, t := s[..i], s[i + 1..];
      assert s == a + [sep] + t;
      SplitAfterFirst(a, t, sep);
      JoinCons(a, Split(t, sep), sep);
      JoinSplit(t, sep);
    }
  }

  /** Splitting a join of separator-free pieces gives back the pieces. */
  lemma {:induction false} SplitJoin(parts: seq<string>, sep: char)
    requires |parts| >= 1
    requires forall k | 0 <= k < |parts| :: sep !in parts[k]
    ensures Split(Join(parts, sep), sep) == parts
    decreases |parts|
  {
    if |parts| > 1 {
      var a, tail := parts[0], parts[1..];
      assert parts == [a] + tail;
      JoinCons(a, tail, sep);
      SplitAfterFirst(a, Join(tail, sep), sep);
      SplitJoin(tail, sep);
    }
  }

  /**
   * `s.split(sep).pop()`: the text after the last `sep`, or all of `s`
   * when it has none.
   */
  function LastSegment(s: string, sep: char): (r: string)
    ensures sep !in r
    ensures |r| <= |s| && r == s[|s| - |r|..]
    ensures |r| < |s| ==> s[|s| - |r| - 1] == sep
  {
    if s == [] then []
    else if s[|s| - 1] == sep then []
    else
      var r := LastSegment(s[..|s| - 1], sep);
      assert s[..|s| - 1][|s| - 1 - |r|..] + [s[|s| - 1]] == s[|s| - |r| - 1..];
      r + [s[|s| - 1]]
  }

  /** The last element of a non-empty sequence (`pop()`'s result). */
  function Last<T>(xs: seq<T>): T
    requires xs != []
  {
    xs[|xs| - 1]
  }

  /** The definition above agrees with the last element of `Split`. */
  lemma {:induction false} LastSegmentIsLastPart(s: string, sep: char)
    ensures LastSegment(s, sep) == Last(Split(s, sep))
    decreases |s|, 1
  {
    if sep in s {
      LastSegmentPastSeparator(s, sep);
    } else {
      LastSegmentWhole(s, sep);
      assert Split(s, sep) == [s];
    }
  }

  lemma {:induction false} LastSegmentPastSeparator(s: string, sep: char)
    requires sep in s
    ensures LastSegment(s, sep) == Last(Split(s, sep))
    decreases |s|, 0
  {
    var i := IndexOf(s, sep);
    LastSegmentAfterSep(s, i, sep);
    LastSegmentIsLastPart(s[i + 1..], sep);
    SplitLast(s, sep, i);
  }

  /** The last piece of a split is the last piece of the split after the first separator. */
  lemma SplitLast(s: string, sep: char, i: nat)
    requires sep in s && i == IndexOf(s, sep)
    ensures Last(Split(s, sep)) == Last(Split(s[i + 1..], sep))
  {
    var a, t := s[..i], s[i + 1..];
    assert s == a + [sep] + t;
    SplitAfterFirst(a, t, sep);
    LastOfCons(a, Split(t, sep));
  }

  lemma LastOfCons<T>(a: T, rest: seq<T>)
    requires rest != []
    ensures Last([a] + rest) == Last(rest)
  {
  }

  lemma {:induction false} LastSegmentWhole(s: string, sep: char)
    requires sep !in s
    ensures LastSegment(s, sep) == s
    decreases |s|
  {
    if s != [] {
      LastSegmentWhole(s[..|s| - 1], sep);
    }
  }

  lemma {:induction false} LastSegmentAfterSep(s: string, i: nat, sep: char)
    requires i < |s| && s[i] == sep
    ensures LastSegment(s, sep) == LastSegment(s[i + 1..], sep)
    decreases |s|
  {
    if |s| - 1 > i {
      var t := s[i + 1..];
      assert t[..|t| - 1] == s[..|s| - 1][i + 1..];
      if s[|s| - 1] != sep {
        LastSegmentAfterSep(s[..|s| - 1], i, sep);
      }
    }
  }

  predicate IsDigit(c: char) {
    '0' <= c <= '9'
  }

  predicate AllDigits(s: string) {
    forall i | 0 <= i < |s| :: IsDigit(s[i])
  }

  function DigitChar(d: nat): (c: char)
    requires d < 10
    ensures IsDigit(c)
  {
    ('0' as int + d) as char
  }

  function DigitValue(c: char): (d: nat)
    requires IsDigit(c)
    ensures d < 10
  {
    c as int - '0' as int
  }

  /** Decimal value of a run of digits, most significant first. */
  function DigitsValue(ds: string): nat
    requires AllDigits(ds)
  {
    if ds == [] then 0 else DigitsValue(ds[..|ds| - 1]) * 10 + DigitValue(ds[|ds| - 1])
  }

  /** `String(n)` for a natural number: decimal digits, no leading zeros. */
  function NatToString(n: nat): (s: string)
    ensures s != [] && AllDigits(s)
    ensures |s| > 1 ==> s[0] != '0'
  {
    if n < 10 then [DigitChar(n)]
    else NatToString(n / 10) + [DigitChar(n % 10)]
  }

  /** `String(n)` for an integer. */
  function IntToString(n: int): (s: string)
    ensures s != []
    ensures n >= 0 ==> AllDigits(s)
    ensures n < 0 ==> s[0] == '-' && AllDigits(s[1..])
  {
    if n >= 0 then NatToString(n) else "-" + NatToString(-n)
  }

  /** A JSON scalar interpolated into a template literal. */
  function Show(v: Value): (s: string)
    ensures v.Str? ==> s == v.s
    ensures v.Num? ==> s == IntToString(v.n)
    ensures v.Null? ==> s == "null"
  {
    match v
    case Null => "null"
    case Bool(b) => if b then "true" else "false"
    case Num(n) => IntToString(n)
    case Str(t) => t
  }

  /** The longest prefix of `s` made of digits. */
  function LeadingDigits(s: string): (r: string)
    ensures |r| <= |s| && r == s[..|r|] && AllDigits(r)
    ensures |r| == |s| || !IsDigit(s[|r|])
  {
    if s != [] && IsDigit(s[0]) then
      var r := LeadingDigits(s[1..]);
      [s[0]] + r
    else []
  }

  /** The value of the longest run of leading digits, or None when `s` does not start with one. */
  function ParseDigits(s: string): (r: Option<nat>)
    ensures r.None? <==> s == [] || !IsDigit(s[0])
    ensures AllDigits(s) && s != [] ==> r == Some(DigitsValue(s))
  {
    var ds := LeadingDigits(s);
    AllDigitsLeading(s);
    if ds == [] then None else Some(DigitsValue(ds))
  }

  function Negated(v: Option<nat>): (r: Option<int>)
    ensures r.None? <==> v.None?
    ensures v.Some? ==> r == Some(-(v.value as int))
  {
    if v.Some? then Some(-(v.value as int)) else None
  }

  predicate IsHexDigit(c: char) {
    IsDigit(c) || 'a' <= c <= 'f' || 'A' <= c <= 'F'
  }

  predicate AllHexDigits(s: string) {
    forall i | 0 <= i < |s| :: IsHexDigit(s[i])
  }

  function HexValue(c: char): (d: nat)
    requires IsHexDigit(c)
    ensures d < 16
  {
    if IsDigit(c) then DigitValue(c)
    else if 'a' <= c <= 'f' then c as int - 'a' as int + 10
    else c as int - 'A' as int + 10
  }

  /** Hexadecimal value of a run of hex digits, most significant first. */
  function HexDigitsValue(hs: string): nat
    requires AllHexDigits(hs)
  {
    if hs == [] then 0 else HexDigitsValue(hs[..|hs| - 1]) * 16 + HexValue(hs[|hs| - 1])
  }

  /** The longest prefix of `s` made of hex digits. */
  function LeadingHexDigits(s: string): (r: string)
    ensures |r| <= |s| && r == s[..|r|] && AllHexDigits(r)
    ensures |r| == |s| || !IsHexDigit(s[|r|])
  {
    if s != [] && IsHexDigit(s[0]) then
      var r := LeadingHexDigits(s[1..]);
      [s[0]] + r
    else []
  }

  /** The text starts with `0x` or `0X`, which makes `parseInt` without a radix read base 16. */
  predicate HexPrefixed(t: string) {
    |t| >= 2 && t[0] == '0' && (t[1] == 'x' || t[1] == 'X')
  }

  /** The unsigned part: after a `0x` prefix the leading hex digits, otherwise the leading decimal digits. */
  function ParseMagnitude(t: string): Option<nat> {
    if HexPrefixed(t) then
      var hs := LeadingHexDigits(t[2..]);
      if hs == [] then None else Some(HexDigitsValue(hs))
    else ParseDigits(t)
  }

  /**
   * `parseInt(s)` with no radix: skip leading whitespace, read an optional
   * sign, then a `0x`/`0X` prefix and hex digits, or else decimal digits,
   * as many as there are. None stands for NaN (no digits).
   */
  function ParseInt(s: string): (r: Option<int>)
    ensures Blank(s) ==> r.None?
    ensures var t := TrimStart(s); t != [] && !IsDigit(t[0]) && t[0] != '-' && t[0] != '+' ==> r.None?
  {
    var t := TrimStart(s);
    if t != [] && t[0] == '-' then Negated(ParseMagnitude(t[1..]))
    else if t != [] && t[0] == '+' then ParseMagnitude(t[1..])
    else ParseMagnitude(t)
  }

  /** `parseInt("0x" + hs)` reads a run of hex digits in base 16, as `Number()` does. */
  lemma ParseIntHex(hs: string, x: char)
    requires hs != [] && AllHexDigits(hs) && (x == 'x' || x == 'X')
    ensures ParseInt(['0', x] + hs) == Some(HexDigitsValue(hs) as int)
  {
    var s := ['0', x] + hs;
    PrintableNotSpace('0');
    TrimStartClean(s);
    assert s[2..] == hs;
    AllHexDigitsLeading(hs);
  }

  lemma {:induction false} AllHexDigitsLeading(s: string)
    ensures AllHexDigits(s) ==> LeadingHexDigits(s) == s
    decreases |s|
  {
    if s != [] && AllHexDigits(s) {
      AllHexDigitsLeading(s[1..]);
    }
  }

  lemma {:induction false} AllDigitsLeading(s: string)
    ensures AllDigits(s) ==> LeadingDigits(s) == s
    decreases |s|
  {
    if s != [] && AllDigits(s) {
      AllDigitsLeading(s[1..]);
    }
  }

  lemma {:induction false} NatToStringValue(n: nat)
    ensures DigitsValue(NatToString(n)) == n
    decreases n
  {
    if n >= 10 {
      NatToStringValue(n / 10);
      var s := NatToString(n);
      assert s[..|s| - 1] == NatToString(n / 10);
    }
  }

  /** A run of digits parses to its decimal value. */
  lemma ParseIntDigits(ds: string)
    requires ds != [] && AllDigits(ds)
    ensures ParseInt(ds) == Some(DigitsValue(ds) as int)
  {
    ParseUnsigned(ds);
  }

  /** Text starting with a digit and no `0x` prefix is read by the decimal parser alone. */
  lemma ParseUnsigned(ds: string)
    requires ds != [] && IsDigit(ds[0]) && !HexPrefixed(ds)
    ensures ParseInt(ds) == ParseDigits(ds)
  {
    PrintableNotSpace(ds[0]);
    TrimStartClean(ds);
    assert ParseMagnitude(ds) == ParseDigits(ds);
  }

  lemma TrimStartClean(s: string)
    requires s != [] && !IsSpace(s[0])
    ensures TrimStart(s) == s
  {
  }

  /** A leading minus sign negates whatever the digits after it parse to. */
  lemma ParseMinus(ds: string)
    requires !HexPrefixed(ds)
    ensures ParseInt("-" + ds) == Negated(ParseDigits(ds))
  {
    var s := "-" + ds;
    PrintableNotSpace('-');
    TrimStartClean(s);
    assert s[1..] == ds;
  }

  lemma ParseDigitsOfString(n: nat)
    ensures ParseDigits(NatToString(n)) == Some(n)
  {
    NatToStringValue(n);
  }

  /** `parseInt(String(n)) == n` for every integer. */
  lemma ParseIntToString(n: int)
    ensures ParseInt(IntToString(n)) == Some(n)
  {
    if n >= 0 {
      ParseDigitsOfString(n);
      ParseUnsigned(NatToString(n));
    } else {
      var m: nat := -n;
      ParseDigitsOfString(m);
      ParseMinus(NatToString(m));
      assert IntToString(n) == "-" + NatToString(m);
    }
  }
}

=== FILE: uploads.dfy ===
/**
 * Multipart uploads: the parts a form sends, the image part built from a
 * picked image's URI, and what a picker's result does to the current
 * selection.
 */
module Uploads {

  import opened Common
  import Text

  /** One `formData.append`: a text value, or a file with its URI, name and MIME type. */
  datatype Part =
    | TextPart(key: string, value: string)
    | FilePart(key: string, uri: string, name: string, mime: string)

  /** `uri.split("/").pop()`. */
  function ImageName(uri: string): (name: string)
    ensures '/' !in name
    ensures |name| <= |uri| && name == uri[|uri| - |name|..]
  {
    Text.LastSegment(uri, '/')
  }

  /**
   * The `image` part: the URI, its last path segment, and `image/` plus
   * that segment's extension (`name.split(".").pop()`).
   */
  function ImagePart(uri: string): (p: Part)
    ensures p.FilePart? && p.key == "image" && p.uri == uri
    ensures p.name == ImageName(uri) && '/' !in p.name
    ensures p.mime == "image/" + Text.LastSegment(p.name, '.') && '.' !in p.mime[6..]
  {
    var name := ImageName(uri);
    FilePart("image", uri, name, "image/" + Text.LastSegment(name, '.'))
  }

  /**
   * For a URI `dir/stem.ext` the part is named `stem.ext` and typed
   * `image/ext`, whatever the directory and however many dots the stem
   * holds.
   */
  lemma ImagePartOfPath(dir: string, stem: string, ext: string)
    requires '/' !in stem && '/' !in ext && '.' !in ext
    ensures var p := ImagePart(dir + "/" + stem + "." + ext);
            p.name == stem + "." + ext && p.mime == "image/" + ext
  {
    var file := stem + "." + ext;
    assert '/' !in file by {
      assert file == stem + ['.'] + ext;
    }
    assert dir + "/" + stem + "." + ext == dir + "/" + file;
    assert ImageName(dir + "/" + file) == file by {
      assert dir + "/" + file == dir + ['/'] + file;
      LastSegmentOfPath(dir, file, '/');
    }
    assert Text.LastSegment(file, '.') == ext by {
      assert file == stem + ['.'] + ext;
      LastSegmentOfPath(stem, ext, '.');
    }
  }

  /** The last segment of `head` + separator + `tail` is `tail` when `tail` holds no separator. */
  lemma LastSegmentOfPath(head: string, tail: string, sep: char)
    requires sep !in tail
    ensures Text.LastSegment(head + [sep] + tail, sep) == tail
  {
    var s := head + [sep] + tail;
    assert s[|head|] == sep && s[|head| + 1..] == tail;
    Text.LastSegmentAfterSep(s, |head|, sep);
    Text.LastSegmentWhole(tail, sep);
  }

  /** The image part's name is the last segment of the URI's path as `split("/")` cuts it. */
  lemma ImageNameIsLastPart(uri: string)
    ensures ImageName(uri) == Text.Last(Text.Split(uri, '/'))
  {
    Text.LastSegmentIsLastPart(uri, '/');
  }

  /** A picked asset. */
  datatype Asset = Asset(uri: string, name: string)

  /** A picker's result: cancelled, or the assets it returned. */
  datatype PickResult = Cancelled | Picked(assets: seq<Asset>)

  /**
   * What a pick does to the current selection: a cancelled pick, or one
   * that returned no asset, keeps it; otherwise the first asset replaces
   * it.
   */
  function Pick(current: Option<Asset>, result: PickResult): (r: Option<Asset>)
    ensures result.Cancelled? ==> r == current
    ensures result.Picked? && |result.assets| > 0 ==> r == Some(result.assets[0])
    ensures result.Picked? && |result.assets| == 0 ==> r == current
  {
    if result.Picked? && |result.assets| > 0 then Some(result.assets[0]) else current
  }

  /** Picking the same non-empty result twice is picking it once; cancelling never loses a selection. */
  lemma PickSettles(current: Option<Asset>, result: PickResult)
    ensures Pick(Pick(current, result), result) == Pick(current, result)
    ensures current.Some? ==> Pick(current, result).Some?
  {
  }

  /** The parts a form sends: its text parts, then the image part when there is an image. */
  function WithImage(parts: seq<Part>, image: Option<string>): (r: seq<Part>)
    ensures Present(image) ==> r == parts + [ImagePart(image.value)]
    ensures !Present(image) ==> r == parts
  {
    if Present(image) then parts + [ImagePart(image.value)] else parts
  }

  /** The text value sent under `key`: the first text part with that key. */
  function ValueOf(parts: seq<Part>, key: string): Option<string> {
    if parts == [] then None
    else if parts[0].TextPart? && parts[0].key == key then Some(parts[0].value)
    else ValueOf(parts[1..], key)
  }

  /** A text part is what `key` reads as when no earlier part carries that key. */
  lemma {:induction false} ValueAt(parts: seq<Part>, key: string, i: nat)
    requires i < |parts| && parts[i].TextPart? && parts[i].key == key
    requires forall j | 0 <= j < i :: parts[j].key != key
    ensures ValueOf(parts, key) == Some(parts[i].value)
  {
    if i > 0 {
      ValueAt(parts[1..], key, i - 1);
    }
  }

  /** A key no text part carries reads as nothing. */
  lemma {:induction false} ValueAbsent(parts: seq<Part>, key: string)
    requires forall j | 0 <= j < |parts| :: parts[j].FilePart? || parts[j].key != key
    ensures ValueOf(parts, key) == None
    decreases |parts|
  {
    if parts != [] {
      ValueAbsent(parts[1..], key);
    }
  }

  /** The key of every part, in order. */
  function Keys(parts: seq<Part>): (ks: seq<string>)
    ensures |ks| == |parts|
    ensures forall i | 0 <= i < |parts| :: ks[i] == parts[i].key
  {
    seq(|parts|, i requires 0 <= i < |parts| => parts[i].key)
  }

  /** Adding the image part, when there is one, changes no text value and adds exactly one key, "image". */
  lemma ImageKeepsTextValues(parts: seq<Part>, image: Option<string>, key: string)
    ensures ValueOf(WithImage(parts, image), key) == ValueOf(parts, key)
    ensures Present(image) ==> Keys(WithImage(parts, image)) == Keys(parts) + ["image"]
    ensures !Present(image) ==> Keys(WithImage(parts, image)) == Keys(parts)
  {
    if Present(image) {
      var p := ImagePart(image.value);
      assert WithImage(parts, image) == parts + [p];
      ValueOfAppendFile(parts, p, key);
      KeysAppend(parts, p);
    }
  }

  lemma KeysAppend(parts: seq<Part>, p: Part)
    ensures Keys(parts + [p]) == Keys(parts) + [p.key]
  {
    var ks := Keys(parts + [p]);
    assert |ks| == |Keys(parts) + [p.key]|;
    forall i | 0 <= i < |ks| ensures ks[i] == (Keys(parts) + [p.key])[i] {
      if i < |parts| {
        assert (parts + [p])[i] == parts[i];
      }
    }
  }

  lemma {:induction false} ValueOfAppendFile(parts: seq<Part>, file: Part, key: string)
    requires file.FilePart?
    ensures ValueOf(parts + [file], key) == ValueOf(parts, key)
    decreases |parts|
  {
    if parts != [] {
      assert (parts + [file])[1..] == parts[1..] + [file];
      ValueOfAppendFile(parts[1..], file, key);
    }
  }

  /**
   * A form submission: the parts and the `Authorization` header of the
   * request (none when a guard stopped it) and what the screen does.
   */
  datatype Posted = Posted(parts: Option<seq<Part>>, header: Option<string>, effects: seq<Effect>)

  /** A submission a guard stopped before any request, with the guard's alert. */
  function Refused(alert: Effect): (r: Posted)
    ensures r.parts.None? && r.header.None? && r.effects == [alert]
  {
    Posted(None, None, [alert])
  }

  /**
   * What a screen that checks for status 201 does with the response:
   * confirm and go back on 201, nothing on any other status, and the
   * failure alert when the request throws.
   */
  function OnCreated(outcome: Fetch<int>, success: Effect, failure: Effect): (effects: seq<Effect>)
    ensures outcome == Fetched(201) ==> effects == [success, GoBack]
    ensures outcome.Fetched? && outcome.data != 201 ==> effects == []
    ensures outcome.FetchFailed? ==> effects == [failure]
  {
    match outcome
    case Fetched(status) => if status == 201 then [success, GoBack] else []
    case FetchFailed(_) => [failure]
  }

  /** The screen leaves only after a 201, and never alerts the failure then. */
  lemma LeavesOnlyOnCreated(outcome: Fetch<int>, success: Effect, failure: Effect)
    requires failure != GoBack && success != GoBack
    ensures GoBack in OnCreated(outcome, success, failure) <==> outcome == Fetched(201)
    ensures failure in OnCreated(outcome, success, failure) && failure != success ==> outcome.FetchFailed?
  {
  }
}

=== FILE: user_complaints.dfy ===
/**
 * The student's "My Complaints" screen: the statistics computed from the
 * fetched list, the status badge and the department icon of each row,
 * and the fetch with its token guard.
 */
module UserComplaints {

  import opened Common
  import Text
  import Lists
  import opened Complaints

  /** The status lower-cased, as the statistics compare it (no trimming). */
  function Lowered(c: Complaint): string {
    Text.ToLower(c.status)
  }

  predicate CountsPending(c: Complaint) {
    Lowered(c) == "pending"
  }

  /** The "In Progress" card counts accepted complaints. */
  predicate CountsInProgress(c: Complaint) {
    Lowered(c) == "accepted"
  }

  predicate CountsResolved(c: Complaint) {
    Lowered(c) == "resolved"
  }

  datatype Stats = Stats(total: nat, pending: nat, inProgress: nat, resolved: nat)

  const NoStats: Stats := Stats(0, 0, 0, 0)

  /**
   * The statistics cards: the number of complaints and, for each bucket,
   * how many complaints fall into it. The buckets exclude each other, so
   * together they never exceed the total.
   */
  function ComputeStats(cs: seq<Complaint>): (st: Stats)
    ensures st.total == |cs|
    ensures st.pending == Lists.Count(cs, CountsPending)
    ensures st.inProgress == Lists.Count(cs, CountsInProgress)
    ensures st.resolved == Lists.Count(cs, CountsResolved)
    ensures st.pending + st.inProgress + st.resolved <= st.total
  {
    Lists.FilterLengthIsCount(cs, CountsPending);
    Lists.FilterLengthIsCount(cs, CountsInProgress);
    Lists.FilterLengthIsCount(cs, CountsResolved);
    Lists.DisjointCountsBounded(cs, CountsPending, CountsInProgress, CountsResolved);
    Stats(|cs|,
          |Lists.Filter(cs, CountsPending)|,
          |Lists.Filter(cs, CountsInProgress)|,
          |Lists.Filter(cs, CountsResolved)|)
  }

  /** A status badge: icon, foreground and background colours, and title text. */
  datatype Badge = Badge(icon: string, color: string, bgColor: string, title: string)

  const PendingBadge: Badge := Badge("timer-sand", "#FF9800", "#FFF5E6", "Pending Review")
  const InProgressBadge: Badge := Badge("progress-check", "#1976D2", "#E3F2FD", "In Progress")
  const ResolvedBadge: Badge := Badge("check-circle", "#4CAF50", "#E8F5E9", "Resolved")
  const RejectedBadge: Badge := Badge("close-circle", "#F44336", "#FFEBEE", "Rejected")
  const UnknownBadge: Badge := Badge("help-circle", "#78909C", "#ECEFF1", "Unknown")

  /** The key `getStatusDetails` switches on: lower-cased, then trimmed. */
  function StatusKey(status: string): string {
    Text.Trim(Text.ToLower(status))
  }

  /** `getStatusDetails`. */
  function StatusDetails(status: string): (b: Badge)
    ensures b == PendingBadge <==> StatusKey(status) == "pending"
    ensures b == InProgressBadge <==> StatusKey(status) in {"accepted", "in progress"}
    ensures b == ResolvedBadge <==> StatusKey(status) == "resolved"
    ensures b == RejectedBadge <==> StatusKey(status) == "rejected"
    ensures b == UnknownBadge <==>
              StatusKey(status) !in {"pending", "accepted", "in progress", "resolved", "rejected"}
  {
    match StatusKey(status)
    case "pending" => PendingBadge
    case "accepted" => InProgressBadge
    case "in progress" => InProgressBadge
    case "resolved" => ResolvedBadge
    case "rejected" => RejectedBadge
    case _ => UnknownBadge
  }

  /** The badge does not depend on letter case. */
  lemma StatusDetailsIgnoresCase(status: string)
    ensures StatusDetails(Text.ToUpper(status)) == StatusDetails(status)
    ensures StatusDetails(Text.ToLower(status)) == StatusDetails(status)
  {
    Text.LowerOfUpper(status);
    Text.ToLowerIdempotent(status);
  }

  /**
   * Every complaint the "In Progress" card counts wears the "In Progress"
   * badge; likewise for the pending and resolved cards.
   */
  lemma CountedComplaintsWearTheirBadge(c: Complaint)
    ensures CountsPending(c) ==> StatusDetails(c.status) == PendingBadge
    ensures CountsInProgress(c) ==> StatusDetails(c.status) == InProgressBadge
    ensures CountsResolved(c) ==> StatusDetails(c.status) == ResolvedBadge
  {
    var l := Lowered(c);
    if l in {"pending", "accepted", "resolved"} {
      Text.PrintableNotSpace(l[0]);
      Text.PrintableNotSpace(l[|l| - 1]);
    }
  }

  /**
   * The converse fails: a complaint whose status reads "in progress"
   * (in any letter case, with any padding) wears the "In Progress" badge
   * but is not counted on that card.
   */
  lemma InProgressBadgeNotCounted(c: Complaint)
    requires StatusKey(c.status) == "in progress"
    ensures StatusDetails(c.status) == InProgressBadge && !CountsInProgress(c)
  {
    CountedComplaintsWearTheirBadge(c);
  }

  /** A status the trimming changes wears its badge but is counted on no card. */
  lemma PaddedStatusNotCounted(c: Complaint)
    requires StatusKey(c.status) != Lowered(c)
    ensures !CountsPending(c) && !CountsInProgress(c) && !CountsResolved(c)
  {
    CountedComplaintsWearTheirBadge(c);
  }

  /** The key `getDepartmentIcon` switches on: `category?.toLowerCase().trim() || ''`. */
  function CategoryKey(category: Option<string>): string {
    if category.Some? then Text.Trim(Text.ToLower(category.value)) else ""
  }

  const DefaultIcon: string := "clipboard-list"

  /** `getDepartmentIcon`: six known departments, anything else the clipboard. */
  function DepartmentIcon(category: Option<string>): (icon: string)
    ensures icon == DefaultIcon <==>
              CategoryKey(category) !in {"electrical", "water", "maintenance", "security", "housekeeping", "it"}
    ensures category.None? ==> icon == DefaultIcon
    ensures CategoryKey(category) == "electrical" ==> icon == "lightbulb"
    ensures CategoryKey(category) == "water" ==> icon == "water"
    ensures CategoryKey(category) == "maintenance" ==> icon == "tools"
    ensures CategoryKey(category) == "security" ==> icon == "shield-alt"
    ensures CategoryKey(category) == "housekeeping" ==> icon == "broom"
    ensures CategoryKey(category) == "it" ==> icon == "laptop"
  {
    match CategoryKey(category)
    case "electrical" => "lightbulb"
    case "water" => "water"
    case "maintenance" => "tools"
    case "security" => "shield-alt"
    case "housekeeping" => "broom"
    case "it" => "laptop"
    case _ => DefaultIcon
  }

  /** The icon does not depend on letter case. */
  lemma DepartmentIconIgnoresCase(category: string)
    ensures DepartmentIcon(Some(Text.ToUpper(category))) == DepartmentIcon(Some(category))
    ensures DepartmentIcon(Some(Text.ToLower(category))) == DepartmentIcon(Some(category))
  {
    Text.LowerOfUpper(category);
    Text.ToLowerIdempotent(category);
  }

  datatype Screen = Screen(complaints: seq<Complaint>, stats: Stats, loading: bool)

  const Initial: Screen := Screen([], NoStats, true)

  /** The statistics describe the listed complaints. */
  predicate Consistent(s: Screen) {
    s.stats == ComputeStats(s.complaints)
  }

  const NoToken: Effect := Alert("Alert", "No token found, please login again!")

  /** The screen after a fetch, the `Authorization` header sent (none when no request was made), and the alerts. */
  datatype Fetching = Fetching(screen: Screen, header: Option<string>, effects: seq<Effect>)

  /**
   * `fetchComplaints`: without a usable token it alerts and sends nothing;
   * otherwise a successful response replaces the list and the statistics,
   * and a failed one keeps both. Loading ends on every path.
   */
  function FetchComplaints(s: Screen, token: Option<string>, response: Fetch<seq<Complaint>>)
    : (r: Fetching)
    ensures !r.screen.loading
    ensures r.header.Some? <==> Present(token)
    ensures !Present(token) ==> r.screen == s.(loading := false) && r.effects == [NoToken]
    ensures Present(token) ==> r.header == Some(Bearer(token.value)) && r.effects == []
    ensures Present(token) && response.Fetched? ==>
              r.screen.complaints == response.data && r.screen.stats.total == |response.data|
    ensures Present(token) && response.FetchFailed? ==> r.screen == s.(loading := false)
  {
    if !Present(token) then Fetching(s.(loading := false), None, [NoToken])
    else
      var header := Some(Bearer(token.value));
      match response
      case Fetched(data) => Fetching(Screen(data, ComputeStats(data), false), header, [])
      case FetchFailed(_) => Fetching(s.(loading := false), header, [])
  }

  /** The screen starts consistent and every fetch keeps it so. */
  lemma FetchKeepsConsistent(s: Screen, token: Option<string>, response: Fetch<seq<Complaint>>)
    requires Consistent(s)
    ensures Consistent(Initial)
    ensures Consistent(FetchComplaints(s, token, response).screen)
  {
  }
}

=== FILE: user_dashboard.dfy ===
/**
 * The student's dashboard: the greeting for the hour, the announcements
 * carousel kept from the last non-empty fetch, and its page bullets.
 */
module UserDashboard {

  import opened Common

  /** The greeting for an hour of the day; the initial "Greetings!" is always overwritten. */
  function Greeting(hours: int): (greet: string)
    ensures hours < 12 ==> greet == "Good Morning!"
    ensures 12 <= hours < 15 ==> greet == "Good Afternoon!"
    ensures hours >= 15 ==> greet == "Good Evening!"
  {
    if hours < 12 then "Good Morning!"
    else if hours < 15 then "Good Afternoon!"
    else "Good Evening!"
  }

  /** The three greetings partition the day: each hour gets exactly one, and never the default. */
  lemma GreetingPartition(hours: int)
    ensures Greeting(hours) != "Greetings!"
    ensures Greeting(hours) in {"Good Morning!", "Good Afternoon!", "Good Evening!"}
    ensures Greeting(hours) == "Good Afternoon!" <==> 12 <= hours <= 14
  {
  }

  datatype Announcement = Announcement(id: string, title: string, description: string)

  /**
   * `fetchRecentAnnouncement`: a non-empty response replaces the list; an
   * empty one or a failure leaves it as it was.
   */
  function Store(recent: Option<seq<Announcement>>, response: Fetch<seq<Announcement>>)
    : (r: Option<seq<Announcement>>)
    ensures response.Fetched? && |response.data| > 0 ==> r == Some(response.data)
    ensures !(response.Fetched? && |response.data| > 0) ==> r == recent
  {
    if response.Fetched? && |response.data| > 0 then Some(response.data) else recent
  }

  /** The carousel shows when the stored list is non-empty; otherwise the "no announcements" note. */
  predicate CarouselShown(recent: Option<seq<Announcement>>) {
    recent.Some? && |recent.value| > 0
  }

  /** From the initial null, the carousel shows exactly when the fetch returned announcements, and then it shows them. */
  lemma CarouselAfterFetch(response: Fetch<seq<Announcement>>)
    ensures CarouselShown(Store(None, response)) <==> response.Fetched? && |response.data| > 0
    ensures CarouselShown(Store(None, response)) ==> Store(None, response).value == response.data
  {
  }

  /** Once shown, the carousel never empties: no response takes it away. */
  lemma CarouselStays(recent: Option<seq<Announcement>>, response: Fetch<seq<Announcement>>)
    requires CarouselShown(recent)
    ensures CarouselShown(Store(recent, response))
  {
  }

  /** One bullet per announcement; a bullet is active when its index is the current page. */
  function Bullets(count: nat, currentPage: int): (active: seq<bool>)
    ensures |active| == count
    ensures forall i | 0 <= i < count :: active[i] <==> i == currentPage
  {
    seq(count, i requires 0 <= i < count => i == currentPage)
  }

  /** At most one bullet is active, and exactly one while the page is within the list. */
  lemma OneActiveBullet(count: nat, currentPage: int)
    ensures forall i, j | 0 <= i < j < count :: !(Bullets(count, currentPage)[i] && Bullets(count, currentPage)[j])
    ensures 0 <= currentPage < count ==> Bullets(count, currentPage)[currentPage]
    ensures (exists i | 0 <= i < count :: Bullets(count, currentPage)[i]) <==> 0 <= currentPage < count
  {
    if 0 <= currentPage < count {
      assert Bullets(count, currentPage)[currentPage];
    }
  }
}
